=== FILE: README.md ===
# Fitness tracker: a Dafny model

This project models the core of a small fitness tracker: users log
workouts made of exercises, keep goals with a current and a target value,
and record one set of daily activity measures (steps, calories, distance,
active minutes) per day. It proves properties of the model in three
layers.

- **The record store** (`schema.dfy`, `storage.dfy`). The five tables
  (users, workouts, exercises, goals, activities) are immutable sequences
  of rows with store-assigned serial ids. `Valid` states the declared
  constraints: serial ids, unique emails, and every foreign key resolving.
  `OneActivityPerDay` is the rule the table does not declare: at most one
  activity row per user and day. Each storage operation is a pure
  function from a store to a new store and a result. The rule is proved
  to follow from `upsertActivity` alone.
- **The request handlers** (`routes.dfy`, `api_properties.dfy`). A state
  is a store plus a session (`Option` of a user id). Every route is a
  function to a response (status and body) and a new state. `Handle`
  puts the `requireAuth` guard in front of every route except register,
  login and logout. `Run` applies a sequence of requests.
- **The client pages** (`reports.dfy`, `goals_page.dfy`, `history.dfy`,
  `dashboard.dfy`, `workout_log.dfy`, `activity_page.dfy`, with
  `day_values.dfy` shared by the dashboard and the activity page). These
  cover the derived numbers each page shows, the form validators, and
  the bodies the forms post. Several lemmas connect a page to the routes
  it calls.

Modelling choices:
- Dates are day numbers. A date in a request body is text the schemas do not check: it is either a calendar day or text the database refuses.
- Client times are milliseconds, and the day a time falls on is `t / 86400000`.
- JavaScript numbers are Dafny `int` and `real`.
- `Math.round(x)` is `(x + 0.5).Floor`.
- The goals page divides by possibly zero values. Its IEEE infinities and NaN are modelled by a small `Num` datatype, not excluded by a precondition.
- A JSON body field is `Missing`, `Given(v)` or `Malformed`.
- The `now` of every insert is a parameter.
- The `integer` columns (`sets`, `reps`, `steps`, `calories`, `active_time`) hold 32-bit values. The insert schemas generated from the table definitions refuse a number outside that range, or a fraction, so the route answers 400 and nothing is stored. The storage functions also refuse such a value on their own, as the database does, with an `OutOfRange` error.

Where the code behaves otherwise than its pages and forms suggest, the model follows the code:
- The previous month window is always the 30 days before the current month starts (`client/src/pages/reports.tsx:34`). It is not a window of equal length.
- From a previous total of 0, `getChange` gives 0 for any current total that is not positive, including a negative one.
- The server checks no minimums on exercises: it stores an exercise with 0 sets. It also lets an empty exercise list through validation. Storage then stores the workout and fails on the empty exercise insert, so the answer is 500 and the workout stays behind (see Findings). Only the workout form enforces those rules.
- Passwords are compared as stored plaintext.
- A failed login leaves the existing session as it was.
- An account registered with an empty email or password can never log in. Registration sets no minimum length, but the login strategy refuses empty credentials.
- A session whose user id names no stored user makes every request fail with 500, not 401. No request can produce such a session, because users are never deleted.

## Model

| member | source | states |
|---|---|---|
| Schema.EmptyStoreValid | shared/schema.ts:6-52 | The empty database satisfies every declared constraint and holds at most one activity per user and day. |
| Schema.Insert | shared/schema.ts:7 | An insert appends one row carrying the given values under an id no existing row has, and the table stays serial. |
| Schema.InsertAll | shared/schema.ts:23 | A multi-row insert appends one row per value, in order, with consecutive fresh ids. |
| Schema.DeleteWorkout | shared/schema.ts:24 | Deleting a workout removes it and exactly the exercises whose `workoutId` is its id; every other exercise and workout stays, and users, goals and activities are untouched. |
| Schema.DeleteWorkoutKeepsValid | shared/schema.ts:16-24 | The cascade leaves no exercise pointing at a missing workout, so the store stays valid. |
| Schema.NewGoal.Stamp | shared/schema.ts:38 | A stored goal is inverse exactly when the insert said `inverse: true`; an omitted `inverse` is `false`. |
| Schema.NewActivity.Defaults | shared/schema.ts:48-51 | An inserted activity has 0 for every omitted measure. |
| Schema.NewActivity.Overwrite | server/storage.ts:120-123 | Updating an existing activity replaces the supplied measures and keeps the stored value of every omitted one. |
| Storage.GetUserByEmail | server/storage.ts:32-35 | The user returned has the email asked for; nothing is returned exactly when no user has it. |
| Storage.GetUserByEmailIsUnique | shared/schema.ts:8 | With emails unique, the user found by email is the only user with that email. |
| Storage.GetUserById | server/storage.ts:37-40 | The user returned has the id asked for; nothing is returned exactly when no user has it. |
| Storage.CreateUser | server/storage.ts:42-45 | A new user is appended with the given fields under a fresh id unless the email is taken, which is a uniqueness violation that changes nothing. |
| Storage.ExercisesOf | server/storage.ts:83 | The exercises loaded for a workout are exactly the stored exercises with that `workoutId`. |
| Storage.CreateWorkout | server/storage.ts:47-61 | For an existing user the workout row is stored first. With at least one exercise and every `sets` and `reps` within 32 bits, exactly one exercise per input follows, in input order, each with the input's values and the new workout's id, and the call succeeds. With none, or with a value out of range, the exercise insert fails and leaves the workout stored with no exercises. Users, goals and activities never change. |
| Storage.CreateWorkoutKeepsValid | server/storage.ts:47-61 | Whether or not the exercise insert goes through, the store stays valid and the new workout's id is fresh. |
| Storage.CreateWorkoutIntended | server/storage.ts:47-61 | Corrected: for an existing user whose exercises fit their columns the call succeeds. It stores the workout and exactly one exercise per input, none for an empty list. |
| Storage.CreateWorkoutDiffersOnlyWhenEmpty | server/storage.ts:55 | Both versions store the same rows, and they answer the same for a non-empty list. For an empty list the code as written reports a failure while the corrected version returns the workout. The corrected version keeps the store valid. |
| Storage.GetWorkoutsByUserId | server/storage.ts:63-77 | The listing holds exactly the user's workouts (as a multiset), latest date first, each with exactly its own exercises. |
| Storage.GetWorkoutById | server/storage.ts:79-89 | Nothing exactly when no workout has the id; otherwise that stored workout with its exercises. |
| Storage.GetGoalsByUserId | server/storage.ts:91-93 | The listing holds the user's goals and only them. |
| Storage.CreateGoal | server/storage.ts:95-98 | The goal is appended under a fresh id for an existing user, inverse only when asked for; only the goals table changes. |
| Storage.UpdateGoal | server/storage.ts:100-103 | The goal with the id gets the new `current` and keeps every other field; every other goal and table is unchanged; the returned goal is absent exactly when no goal has the id. |
| Storage.DeleteGoal | server/storage.ts:105-107 | The goal with the id is gone, every other goal stays, nothing else changes. |
| Storage.GetActivityByUserAndDate | server/storage.ts:109-114 | The row returned belongs to the user and is dated that day; nothing exactly when no such row exists. |
| Storage.GetActivityIsUnique | server/storage.ts:109-114 | Under one-activity-per-day the lookup returns the one row for that user and day. |
| Storage.UpsertActivity | server/storage.ts:116-129 | A measure outside the 32-bit range fails with nothing written. Otherwise an existing row for the user and day is overwritten in place, keeping its id and every other row, or else one row with defaults is appended. One-activity-per-day and validity are preserved. |
| Storage.UpsertUpdateKeepsInvariants | server/storage.ts:119-124 | The in-place overwrite changes no row's user or day, so no second row for a day can appear. |
| Storage.UpsertInsertKeepsInvariants | server/storage.ts:125-127 | Inserting only when no row for the user and day exists keeps one activity per day. |
| Storage.ActivityListing | server/storage.ts:132-134 | The user's activities, exactly (as a multiset), latest date first. |
| Storage.GetActivitiesByUserId | server/storage.ts:131-136 | At most `limit` rows, all the user's, latest first, a prefix of the full sorted listing. |
| Routes.ParseUser | server/routes.ts:85 | Registration parses exactly when email, password and name are all strings, and carries them unchanged. |
| Routes.ParseExercise | shared/schema.ts:22-29 | An exercise parses exactly when name and weight are given and `sets` and `reps` are whole numbers within 32 bits. The values are copied unchanged, and no minimum is checked. |
| Routes.ParseExercises | server/routes.ts:150 | The exercise array parses exactly when every element does, with no minimum length. Every parsed exercise fits its columns. |
| Routes.ParseWorkout | server/routes.ts:142-150 | A workout parses exactly when name, date and every exercise do, whatever the date text says. The values are for the database exactly when the date is a calendar day: the owner is the session user, the day is the body's date, and the exercises are the parsed ones. |
| Routes.ParseGoal | server/routes.ts:203-206 | A goal parses exactly when title, current, target, unit, icon and color are given and `inverse` is absent or a boolean. Its owner is the session user, and an omitted `inverse` stays omitted. |
| Routes.ParseActivity | server/routes.ts:267-270 | An activity parses exactly when the date is given, in any text, no measure has the wrong type, and every integer measure given is within 32 bits. For a calendar day, the owner is the session user, the day is the body's date, and each measure is the body's value or omitted; for other date text the parse says the database will refuse it. |
| Routes.SessionUser | server/routes.ts:65-72 | The session resolves to a user exactly when its id names a stored user. |
| Routes.RegisterRoute | server/routes.ts:83-106 | 400 on a malformed body or a taken email, with nothing changed; otherwise 200, the user appended, the session set to them and only id, email and name returned. |
| Routes.LoginRoute | server/routes.ts:108-123 | 200 exactly when email and password are non-empty strings, a user has that email, and the stored password is the same. Then the session is that user and the body holds only id, email and name. Otherwise 401 and nothing changes. |
| Routes.LogoutRoute | server/routes.ts:125-132 | The session is cleared and the store is untouched. |
| Routes.CreateWorkoutRoute | server/routes.ts:140-161 | 400 with nothing changed unless the body parses, so also for `sets` or `reps` beyond 32 bits. Otherwise the workout is stored for the session user under a fresh id. The answer is 200 exactly when there is at least one exercise, with one exercise per parsed exercise, each pointing at the workout. With none the answer is 500, and the workout stays with no exercises. A date text that is not a calendar day passes the schema and is answered with 500, nothing stored. |
| Routes.GetWorkoutRoute | server/routes.ts:172-189 | 404 when no workout has the id. 403 when another user owns it. 200 with the workout and its exercises when the user owns it. |
| Routes.CreateGoalRoute | server/routes.ts:201-216 | 400 with nothing changed unless the body parses; otherwise the goal is stored for the session user, not inverse when `inverse` is omitted. |
| Routes.UpdateGoalRoute | server/routes.ts:218-232 | 400 with nothing changed when `current` is not a number; otherwise the goal's `current` is updated with no ownership check. |
| Routes.DeleteGoalRoute | server/routes.ts:234-242 | 200 and no goal with the id remains, with no ownership check. |
| Routes.ListActivitiesRoute | server/routes.ts:245-253 | The user's latest activities, at most 7 when no limit is given. |
| Routes.SaveActivityRoute | server/routes.ts:265-280 | 400 with nothing changed unless the body parses, so also for a count beyond 32 bits. Otherwise, for a calendar day, the answer is 200 and the session user's row for the day is upserted and returned; for other date text the lookup fails and the answer is 500 with nothing stored. |
| Routes.Authenticated | server/routes.ts:134-280 | A guarded route keeps the session and the store's validity and one-activity-per-day; a read-only route changes nothing. |
| Routes.Handle | server/routes.ts:65-80 | A session naming no stored user makes every request answer 500 and change nothing. Without a logged-in user every guarded route answers 401 and changes nothing. No request breaks validity or one-activity-per-day, or leaves a session naming a missing user. |
| Routes.Run | server/routes.ts:140-280 | Any sequence of requests keeps the store valid, keeps one activity per user and day, and never leaves a session naming a missing user. |
| ApiProperties.RegisterThenLogin | server/routes.ts:83-132 | Registering a new email, logging out and logging in with the same non-empty email and password answers 200 with the same user body and restores the state registration left. |
| ApiProperties.EmptyCredentialsCannotLogIn | server/routes.ts:108-115 | An account registered with an empty email or password is created with 200, but logging in with those credentials answers 401. |
| ApiProperties.DuplicateRegisterChangesNothing | server/routes.ts:87-90 | Registering a taken email answers 400 and changes nothing, session included. |
| ApiProperties.WrongPasswordKeepsSession | server/routes.ts:47-52 | A login with a stored email and another password answers 401 and changes nothing. |
| ApiProperties.HandleGuarded | server/routes.ts:75-80 | With a logged-in user a guarded request runs its route for that user. |
| ApiProperties.GoalBodyUserIdIgnored | server/routes.ts:203-206 | Whatever `userId` a goal body carries, the outcome is the same. |
| ApiProperties.WorkoutBodyUserIdIgnored | server/routes.ts:144-148 | Whatever `userId` a workout body carries, the outcome is the same. |
| ApiProperties.ActivityBodyUserIdIgnored | server/routes.ts:267-270 | Whatever `userId` an activity body carries, the outcome is the same. |
| ApiProperties.UpdateGoalIgnoresOwner | server/routes.ts:218-232 | A user can change the `current` of another user's goal. |
| ApiProperties.DeleteGoalIgnoresOwner | server/routes.ts:234-242 | A user can delete another user's goal. |
| ApiProperties.GetWorkoutChecksOwner | server/routes.ts:177-185 | Reading another user's workout answers 403 and changes nothing. |
| ApiProperties.UpsertFullActivity | server/storage.ts:116-129 | An upsert naming every measure, each within its column's range, leaves the day with a row, and every row for that user and day holds exactly the payload. |
| ApiProperties.SaveRouteFullActivity | server/routes.ts:265-280 | Saving a full body whose counts fit 32 bits for a user answers 200 and every row for the day holds exactly the body's values. |
| ApiProperties.SaveFullActivity | server/routes.ts:265-280 | The same through the guard, for the logged-in user, who stays logged in. |
| ApiProperties.SaveThenRead | server/routes.ts:254-280 | After one save of a full body whose counts fit 32 bits, reading that day answers 200 with a row holding exactly the body's values. |
| ApiProperties.OversizedCountRefused | server/routes.ts:265-280 | A step, calorie or minute count beyond 32 bits answers 400 and changes nothing; the upsert itself would fail with an out-of-range error. |
| ApiProperties.NotADateWorkoutAnswers500 | server/routes.ts:140-161 | A workout body whose date is not a calendar day is answered with 500 and nothing stored when the rest of it is valid, and with 400 otherwise; the schema never refuses the date. |
| ApiProperties.NotADateActivityAnswers500 | server/routes.ts:265-280 | An activity body whose date is not a calendar day is answered with 500 and nothing stored when the rest of it is valid, and with 400 otherwise. |
| ApiProperties.OversizedSetsRefused | server/routes.ts:140-161 | An exercise whose `sets` or `reps` is beyond 32 bits makes the workout answer 400 with nothing stored; storage called directly would keep the workout row and fail. |
| ApiProperties.SaveSameDayTwice | server/storage.ts:116-129 | Two saves of counts within 32 bits for the same day leave rows holding only the second payload, and reading the day returns it. |
| ApiProperties.RunFromEmptyKeepsOneActivityPerDay | shared/schema.ts:44-52 | From an empty database no sequence of requests produces two activity rows for one user and day, or a session naming a missing user. |
| JsMath.Round | client/src/pages/reports.tsx:65 | `Math.round` gives the integer nearest to x, halves rounding up. |
| JsMath.ClampPercent | client/src/pages/reports.tsx:96 | `min(100, max(0, x))` lies in [0, 100] and is x inside that range. |
| JsMath.Divide | client/src/pages/goals.tsx:335-337 | Division by zero gives an infinity of the numerator's sign, or NaN for 0/0. |
| JsMath.ClampPercentNum | client/src/pages/goals.tsx:335-337 | Clamping keeps NaN and turns every other value into a number in [0, 100]. |
| DayValues.ValuesForDate | client/src/pages/dashboard.tsx:26-31 | All zeros when no activity is dated that day; otherwise the measures of the first activity dated that day. |
| DayValues.ValuesForDateOfListing | client/src/pages/activity.tsx:55-61 | Read from the server's listing, a day's values are its stored row's measures, or zeros when the user has none. |
| Reports.SumFieldConcat | client/src/pages/reports.tsx:53 | A column sums to 0 over no activities, and a concatenation's sum is the sum of the parts. |
| Reports.AvgField | client/src/pages/reports.tsx:54 | 0 for no activities; otherwise within one half of the mean. |
| Reports.AvgFieldWithin | client/src/pages/reports.tsx:54 | The average lies between the rounded smallest and largest value. |
| Reports.InWindow | client/src/pages/reports.tsx:37-51 | The items selected for a window are exactly the listed items dated inside it. |
| Reports.PeriodStats | client/src/pages/reports.tsx:37-61 | Each period's step, calorie and distance total counts exactly the activities dated inside that period. The two workout counts are non-negative and together never exceed the number of workouts. |
| Reports.PeriodsDoNotOverlap | client/src/pages/reports.tsx:32-51 | The previous window ends the day before the current one and spans 7 or 30 days, so the two selections never take an item twice. |
| Reports.WindowSumMasksOthers | client/src/pages/reports.tsx:56-61 | A window's total is the whole list's total with every activity outside the window counted as 0. |
| Reports.GetChange | client/src/pages/reports.tsx:63-66 | From a previous total of 0 the change is 100 for a gain and 0 otherwise; else it is the percent change rounded to the nearest integer. |
| Reports.ChangeFollowsDifference | client/src/pages/reports.tsx:65 | From a positive previous total, no gain never shows as a rise, no loss never as a fall, an unchanged total shows 0, and a non-negative total never falls below -100. |
| Reports.UnchangedTotalShowsNoChange | client/src/pages/reports.tsx:63-66 | An unchanged total shows a change of 0, whatever its sign. |
| Reports.TrendOfTotals | client/src/pages/reports.tsx:63-72 | The arrow against the totals: from 0 it rises exactly when there is something now; from a positive total a rise needs a gain, a fall a loss, and equal totals are flat. |
| Reports.ReportPercent | client/src/pages/reports.tsx:87-103 | Every goal percent lies in [0, 100]; a reached inverse goal scores 100; a normal goal without a positive target scores 0. |
| Reports.ReportPercentFullIffReached | client/src/pages/reports.tsx:87-105 | A goal scores 100 exactly when its target is reached (current at most target for inverse goals, at least a positive target otherwise). |
| Reports.CompletedGoals | client/src/pages/reports.tsx:105 | The count never exceeds the number of goals. |
| Reports.CompletedGoalsCountsReached | client/src/pages/reports.tsx:105 | The count is the number of goals whose target is reached, and 0 exactly when none is. |
| GoalsPage.ValidateGoal | client/src/pages/goals.tsx:45-52 | The form is accepted exactly when title, unit, icon and color are non-empty, current is a number of at least 0 and target a number of at least 1, and the accepted values are the form's. |
| GoalsPage.DefaultFormNeedsTitle | client/src/pages/goals.tsx:66-76 | The initial form is refused, and accepted as soon as it has a title. |
| GoalsPage.PageCreatesNormalGoals | client/src/pages/goals.tsx:78-87 | A goal created from the page is stored for the session user with the form's values and is never inverse. |
| GoalsPage.ProgressPercent | client/src/pages/goals.tsx:335-337 | A numeric percent lies in [0, 100]; it is NaN exactly when current and target are both 0. |
| GoalsPage.PercentsAgreeOnPositive | client/src/pages/goals.tsx:335-337 | For positive current and target the progress bar equals the reports percent. |
| GoalsPage.PercentsAgreeOnNormalGoals | client/src/pages/goals.tsx:337 | For a normal goal with a positive target the two pages agree whatever the current value. |
| GoalsPage.PercentsDisagreeOutsidePositive | client/src/pages/goals.tsx:335-337 | A normal goal with target 0 is complete here and at 0 in reports; an inverse goal with negative current is at 0 here and complete in reports. |
| GoalsPage.ShowsAchievedIff | client/src/pages/goals.tsx:385 | "Goal Achieved" shows exactly when the ratio the bar divides reaches 1, a positive value over zero counting as reached. |
| GoalsPage.ParseIntReadsIntegerPart | client/src/pages/goals.tsx:371 | `parseInt` of a decimal text gives its integer part truncated toward zero, sign kept: "2.5" gives 2 and "-2.5" gives -2. |
| GoalsPage.ParseIntNaN | client/src/pages/goals.tsx:371 | `parseInt` of an empty field, or of a text such as ".5" with no leading digit, is NaN. |
| GoalsPage.BlurUpdate | client/src/pages/goals.tsx:370-375 | A request is sent exactly when `parseInt` reads a number from the text that differs from the stored `current`, and it carries that number for that goal. |
| GoalsPage.BlurSendsIntegerPart | client/src/pages/goals.tsx:369-375 | Leaving a field holding the decimal text of x >= 0, typed or shown by `defaultValue`, sends the integer part of x, and sends anything exactly when that integer part differs from `current`; when the text shows `current` itself, exactly when it has a fraction. |
| GoalsPage.UntouchedBlurTruncates | client/src/pages/goals.tsx:369-375 | A goal at 2.5 whose field is focused and left untouched is rewritten to 2. |
| GoalsPage.BlurSetsCurrent | client/src/pages/goals.tsx:370-375 | After a blur the goal's `current` is the integer part `parseInt` reads from the text, or unchanged when there is none; no other field or goal changes. |
| History.CalculateWorkoutStats | client/src/pages/history.tsx:30-36 | Total sets, reps and volume are the sums over the exercises, and the calorie estimate is the rounded 5% of the volume. |
| History.RepsAtLeastSets | client/src/pages/history.tsx:31-32 | With every exercise at one rep or more, total reps are at least total sets. |
| History.ZeroWeightZeroVolume | client/src/pages/history.tsx:33-34 | With every weight 0 the volume and the calorie estimate are 0. |
| History.StatsNonNegative | client/src/pages/history.tsx:30-36 | Non-negative exercises give non-negative totals and estimate. |
| History.AddToKeepsGroups | client/src/pages/history.tsx:25-27 | One step of the month grouping keeps each group exactly the items with its key, in order, with distinct keys and every key present. |
| History.GroupByGroups | client/src/pages/history.tsx:23-28 | Grouping by month puts every workout in exactly the group of its month, keeps list order within each group and opens one group per month. |
| History.ExerciseCountIsTotal | client/src/pages/history.tsx:65 | The exercise count is the number of exercises across all workouts. |
| History.ThisMonthIsItsGroup | client/src/pages/history.tsx:72-75 | The "This Month" count is the size of the current month's group, or 0 without one. |
| Dashboard.CappedProgress | client/src/pages/dashboard.tsx:42-72 | A bar is at most 100, at least 0 exactly for a non-negative value, and full exactly when the value reaches the target. |
| Dashboard.DailyProgressBounds | client/src/pages/dashboard.tsx:26-72 | Every bar is at most 100; with no activity today every bar is 0; non-negative measures give non-negative bars. |
| Dashboard.WeeklyActivity | client/src/pages/dashboard.tsx:76-83 | The chart has one point per fetched activity, in reverse order. |
| Dashboard.WeeklyActivityAscending | client/src/pages/dashboard.tsx:76-83 | Fed the server's listing, the chart runs from the oldest day to the latest. |
| Dashboard.CaloriesAgreeWithHistory | client/src/pages/dashboard.tsx:86-88 | Summing per-exercise estimates equals history's estimate from the total volume, exactly. |
| Dashboard.RecentWorkouts | client/src/pages/dashboard.tsx:85-98 | At most three cards, one for each of the first workouts, in order. |
| Dashboard.RecentWorkoutsAreLatest | client/src/pages/dashboard.tsx:85 | The cards show the user's own workouts and no workout left out is more recent than one shown. |
| WorkoutLog.ValidateWorkout | client/src/pages/workout-log.tsx:20-29 | A form is accepted exactly when it has a name and at least one exercise, each with a name, at least 1 set and 1 rep and a weight of at least 0; the accepted values are the form's. |
| WorkoutLog.DefaultFormNeedsNames | client/src/pages/workout-log.tsx:38-45 | The initial form is refused, and accepted once the workout and its exercise are named. |
| WorkoutLog.AddExercise | client/src/pages/workout-log.tsx:170 | Adding keeps the rows and appends one default row. |
| WorkoutLog.RemoveExercise | client/src/pages/workout-log.tsx:181-192 | Removal drops exactly the chosen row, keeping the others in order, and never empties the list. |
| WorkoutLog.AddThenRemoveIsIdentity | client/src/pages/workout-log.tsx:170-192 | Removing the row just added restores the form. |
| WorkoutLog.ApplyEdits | client/src/pages/workout-log.tsx:181-192 | No series of add and remove clicks empties the list. |
| WorkoutLog.EditsOnlyAddDefaults | client/src/pages/workout-log.tsx:165-192 | After any clicks every row is a default row or one the form already had. |
| WorkoutLog.EditsFromDefaultNeedNames | client/src/pages/workout-log.tsx:20-45 | However rows are added and removed, the untouched form is refused. |
| WorkoutLog.AcceptedFormIsStored | client/src/pages/workout-log.tsx:52-57 | An accepted form whose sets and reps fit 32 bits is stored for the session user with its name and date and one exercise per row, with that row's values, in order. An accepted form with a larger count is refused with 400, and nothing is stored. |
| WorkoutLog.ServerAcceptsWhatFormRejects | server/routes.ts:150 | The server stores a workout whose exercise has 0 sets, which the form refuses. |
| WorkoutLog.EmptyWorkoutLeftBehind | server/routes.ts:150-159 | The form refuses a workout with no exercises. Posted anyway, it gets 500, yet the workout row stays stored with no exercise pointing at it. |
| ActivityPage.PrevDay | client/src/pages/activity.tsx:93-95 | Going back is always possible and selects the previous day at the same time of day. |
| ActivityPage.NextDayHandler | client/src/pages/activity.tsx:106-108 | The handler moves one day on exactly when the selected time is before now. |
| ActivityPage.HandlerAloneReachesTomorrow | client/src/pages/activity.tsx:107 | The handler's own guard lets today's selection move to tomorrow. |
| ActivityPage.ClickNextStopsAtToday | client/src/pages/activity.tsx:190-196 | With the button disabled on today, a click moves from an earlier day exactly one day on and never past the rendered day. |
| ActivityPage.WalkNeverPassesToday | client/src/pages/activity.tsx:93-132 | Whatever the user clicks, with time running forward, the selected day is never after the current day. |
| ActivityPage.FormShowsStoredDay | client/src/pages/activity.tsx:52-63 | The form shows the stored measures of the selected day when the fetched list holds them, and zeros when the user has no row for the day. |
| ActivityPage.ValidateActivity | client/src/pages/activity.tsx:16-21 | A form is accepted exactly when no measure is negative, with the coerced values. |
| ActivityPage.SaveStoresForm | client/src/pages/activity.tsx:65-72 | Saving an accepted form with whole counts within 32 bits stores, for the session user and the selected day, a row holding exactly the form's values. |
| ActivityPage.OversizedFormRefused | client/src/pages/activity.tsx:65-72 | The form accepts a whole count beyond 32 bits, such as 2147483648 steps, and the server answers it with 400, saving nothing. |
| ActivityPage.QuickAddAsWrittenAppends | client/src/pages/activity.tsx:269-293 | As written, on a typed field a click appends the amount's digits to the typed ones. |
| ActivityPage.QuickAddAsWrittenCounterexample | client/src/pages/activity.tsx:269 | Typed 500 steps plus "+1,000 Steps" gives 5001000 as written and 1500 when corrected. |
| ActivityPage.QuickAdd | client/src/pages/activity.tsx:266-297 | A click raises exactly its one field by its fixed step (1000 steps, 100 calories, 15 minutes, 1 km) and leaves the others unchanged. |
| ActivityPage.QuickAddAgreesOnNumbers | client/src/pages/activity.tsx:266-297 | On a field the page filled, the written and the corrected click agree; a valid form stays valid. |
| ActivityPage.DecimalDigitsRoundTrip | client/src/pages/activity.tsx:269 | Reading back the digits `String(n)` writes gives n. |

## Left out

- Network, cookies, express-session and passport internals, the database driver, and `client/src/lib/api.ts`. The session is an `Option` of a user id and the database an in-memory value.
- Failures of the database itself, such as a lost connection, which the routes answer with 500. The 500 answers that follow from the code's own logic are modelled: the empty exercise insert, a body date that is not a calendar day, and a session naming a missing user. Store failures the routes' checks make unreachable are modelled but never reached.
- Concurrency. This covers the read-then-write race in `upsertActivity`, `Promise.all` in the workout listing, and requests between the two inserts of `createWorkout`. Each operation runs without interleaving.
- Calendar arithmetic from date-fns: `startOfWeek`, `endOfMonth`, month names, time zones and daylight-saving days. Period windows and month keys are parameters, and a day is 86400000 ms.
- Floating point. Reals are exact, so IEEE rounding and `toLocaleString`/`toFixed` formatting are out. The rounding of the displayed goal percent is also out.
- The reports chart data, the dashboard chart's day labels, the trend label text, icons and styling. These are presentation.
- `client/src/pages/auth.tsx`, `client/src/lib/mock-data.ts`, routing and layout.
- Password hashing. The code compares plaintext, modelled as equality.
- Zod's error list in a 400 body. It is reduced to one error tag.
- Routes.LoginRoute: treats a login field of any other JSON type as refused with 401. The strategy hands a truthy non-string to the email lookup, and what the database makes of it is not modelled.
- Route parameters arrive already parsed. A NaN id from `parseInt` is not modelled, and neither is a negative or unparsable `limit`. The `:date` of `GET /api/activities/:date` is always a calendar day here, although text that is not one would make the lookup fail with 500, as a body date does.
- GoalsPage.BlurSendsIntegerPart: covers texts in plain decimal notation. `String` writes a number below 1e-6 or from 1e21 on with an exponent, so `parseInt` would read "5e-7" as 5; that notation is not modelled.
- Typed text in the activity form is a string of decimal digits. Signs, decimal points and exponents in typed text are not modelled. The workout form's sets and reps are whole numbers.
- ActivityPage.SaveStoresForm: stated only for whole step, calorie and minute counts. A fraction for an integer column is refused by the insert schema like an ill-typed field; what the route does with it is stated by `Routes.ParseActivity`, not by this lemma.
- The 32-bit bound on `integer` columns is assumed to be checked by the generated insert schemas, as drizzle-zod does from version 0.6 on; the package version is not part of this model. A validator without the bound would pass such a value to storage, where `Storage.CreateWorkout` and `Storage.UpsertActivity` model the database's refusal: the route would answer 500 instead of 400, and a workout would stay stored without exercises.
- Serial ids and `userId` columns are 32-bit as well. Ids are unbounded here: a sequence running past 2147483647 rows, or an id parameter beyond that range, is not modelled.
- Goal `current` and `target`, exercise `weight` and activity `distance` are `real` columns; single-precision rounding and overflow of those are not modelled.
- Routes.ParseGoal: states when a goal parses, its owner and the `inverse` default. It does not state that the other fields are copied.
- Storage.CreateGoal: states owner, title, current, target and `inverse`, not unit, icon, color or the creation time.
- Storage.GetGoalsByUserId: states membership both ways, not that insertion order is kept.

## Findings

| source | as written | input that shows it | evidently intended | confidence | as-written member | corrected member |
|---|---|---|---|---|---|---|
| server/storage.ts:47-61 | The workout row is inserted and committed. Then the exercises go in with `db.insert(exercises).values(list)`, which the query builder refuses for an empty list, so the route's catch answers 500. | POST `/api/workouts` with `exercises: []`: the answer is 500 "Failed to create workout", yet a workout with no exercises is stored. | Skip the exercise insert for an empty list: store the workout alone and answer 200, so that no request leaves a row behind while reporting failure. | medium, not executed | WorkoutLog.EmptyWorkoutLeftBehind | Storage.CreateWorkoutIntended |
| client/src/pages/activity.tsx:269-293 | Each quick-add button sets the field to `getValues(field) + amount`. Once the user has typed into a number input, the field holds the typed text, so `+` appends the amount's digits. | Type 500 into Steps and press "+1,000 Steps": the field becomes 5001000. | Add the amount to the number the field shows, giving 1500. | medium, not executed | ActivityPage.QuickAddAsWrittenCounterexample | ActivityPage.QuickAdd |

=== FILE: activity_page.dfy ===
/**
 * The daily activity page: a selected day the user steps through, a form
 * of the four measures filled from the fetched activities for that day,
 * the quick-add buttons, and the save that posts the form for the day.
 *
 * Times are milliseconds on the local clock; the day a time falls on is
 * its day number, which is what formatting it as `yyyy-MM-dd` identifies.
 */
module ActivityPage {
  import opened Wrappers
  import opened Schema
  import opened Storage
  import opened Routes
  import opened DayValues
  import opened ApiProperties

  // ---------------------------------------------------------------------
  // The selected day
  // ---------------------------------------------------------------------

  const DayMs: int := 86400000

  /** The day a time falls on. */
  function DayOf(t: Timestamp): Date {
    t / DayMs
  }

  /** `subDays(selectedDate, 1)`: the same time of day, one day earlier. */
  function PrevDay(selected: Timestamp): (r: Timestamp)
    ensures DayOf(r) == DayOf(selected) - 1
    ensures r % DayMs == selected % DayMs
  {
    selected - DayMs
  }

  /** `isToday`: the selected time and now fall on the same day. */
  predicate IsToday(selected: Timestamp, now: Timestamp) {
    DayOf(selected) == DayOf(now)
  }

  /**
   * `goToNextDay` itself: it moves one day on whenever the selected time
   * is before now, which holds for the selected time of today too.
   */
  function NextDayHandler(selected: Timestamp, now: Timestamp): (r: Timestamp)
    ensures selected < now ==> DayOf(r) == DayOf(selected) + 1 && r % DayMs == selected % DayMs
    ensures selected >= now ==> r == selected
  {
    if selected < now then selected + DayMs else selected
  }

  /**
   * A click on the next-day button. The button is disabled while the page,
   * as last rendered at `renderedAt`, shows today; only otherwise does the
   * click reach the handler, at time `now`.
   */
  function ClickNext(selected: Timestamp, renderedAt: Timestamp, now: Timestamp): Timestamp {
    if IsToday(selected, renderedAt) then selected else NextDayHandler(selected, now)
  }

  /** The handler's guard on its own lets the user step from today to tomorrow. */
  lemma HandlerAloneReachesTomorrow(k: int)
    ensures var selected := k * DayMs;
            var now := k * DayMs + 1;
            IsToday(selected, now) && DayOf(NextDayHandler(selected, now)) == DayOf(now) + 1
  {
  }

  /**
   * With the disabled state in front of it, a click never selects a day
   * after the one the page was rendered on: from an earlier day it moves
   * exactly one day on, and on today it does nothing.
   */
  lemma ClickNextStopsAtToday(selected: Timestamp, renderedAt: Timestamp, now: Timestamp)
    requires DayOf(selected) <= DayOf(renderedAt) && renderedAt <= now
    ensures DayOf(ClickNext(selected, renderedAt, now)) <= DayOf(renderedAt)
    ensures DayOf(selected) < DayOf(renderedAt) ==> DayOf(ClickNext(selected, renderedAt, now)) == DayOf(selected) + 1
    ensures DayOf(selected) == DayOf(renderedAt) ==> ClickNext(selected, renderedAt, now) == selected
  {
    if DayOf(selected) < DayOf(renderedAt) {
      assert selected < renderedAt;
    }
  }

  /** A user action on the date selector, with the times it involves. */
  datatype Nav =
    | Prev
    | Next(renderedAt: Timestamp, at: Timestamp)
    | Today(at: Timestamp)

  /** The selected time after one action; "Go to Today" selects now. */
  function Navigate(selected: Timestamp, n: Nav): Timestamp {
    match n
    case Prev => PrevDay(selected)
    case Next(renderedAt, at) => ClickNext(selected, renderedAt, at)
    case Today(at) => at
  }

  function Walk(selected: Timestamp, navs: seq<Nav>): Timestamp
    decreases |navs|
  {
    if |navs| == 0 then selected else Walk(Navigate(selected, navs[0]), navs[1..])
  }

  /** The clock after the actions: the latest time any of them happened at. */
  function ClockAfter(t: Timestamp, navs: seq<Nav>): Timestamp
    decreases |navs|
  {
    if |navs| == 0 then t
    else
      var t' := match navs[0]
                case Prev => t
                case Next(_, at) => at
                case Today(at) => at;
      ClockAfter(t', navs[1..])
  }

  /** The actions happen in time order, each render before its click. */
  predicate ClockRuns(t: Timestamp, navs: seq<Nav>)
    decreases |navs|
  {
    |navs| == 0 ||
    match navs[0]
    case Prev => ClockRuns(t, navs[1..])
    case Next(renderedAt, at) => t <= renderedAt <= at && ClockRuns(at, navs[1..])
    case Today(at) => t <= at && ClockRuns(at, navs[1..])
  }

  /**
   * The page opens on now; whatever the user clicks afterwards, the
   * selected day is never after the current day.
   */
  lemma {:induction false} WalkNeverPassesToday(selected: Timestamp, t: Timestamp, navs: seq<Nav>)
    requires DayOf(selected) <= DayOf(t) && ClockRuns(t, navs)
    ensures DayOf(Walk(selected, navs)) <= DayOf(ClockAfter(t, navs))
    decreases |navs|
  {
    if |navs| > 0 {
      var s' := Navigate(selected, navs[0]);
      match navs[0]
      case Prev =>
        WalkNeverPassesToday(s', t, navs[1..]);
      case Next(renderedAt, at) =>
        ClickNextStopsAtToday(selected, renderedAt, at);
        WalkNeverPassesToday(s', at, navs[1..]);
      case Today(at) =>
        WalkNeverPassesToday(s', at, navs[1..]);
    }
  }

  // ---------------------------------------------------------------------
  // Form entries
  // ---------------------------------------------------------------------

  type Digit = d: int | 0 <= d < 10

  /**
   * What a number field holds: a number when the page set it, or the text
   * the user typed, which the input hands over as a string. Typed text is
   * modelled as a string of decimal digits.
   */
  datatype Entry = Num(x: real) | Text(digits: seq<Digit>)

  /** The value of a digit string; the empty string reads as 0, as `Number("")` does. */
  function DigitsValue(ds: seq<Digit>): nat
    decreases |ds|
  {
    if |ds| == 0 then 0 else DigitsValue(ds[..|ds| - 1]) * 10 + ds[|ds| - 1]
  }

  /** `String(n)`: the decimal digits of `n`, without leading zeros. */
  function DecimalDigits(n: nat): (r: seq<Digit>)
    ensures |r| >= 1
    decreases n
  {
    if n < 10 then [n] else DecimalDigits(n / 10) + [n % 10]
  }

  /** Reading back the digits `String(n)` writes gives `n`. */
  lemma {:induction false} DecimalDigitsRoundTrip(n: nat)
    ensures DigitsValue(DecimalDigits(n)) == n
    decreases n
  {
    if n >= 10 {
      DecimalDigitsRoundTrip(n / 10);
      var ds := DecimalDigits(n);
      assert ds[..|ds| - 1] == DecimalDigits(n / 10);
    }
  }

  function Pow10(k: nat): (r: nat)
    ensures r >= 1
  {
    if k == 0 then 1 else 10 * Pow10(k - 1)
  }

  /** The value of two digit strings written one after the other. */
  lemma {:induction false} DigitsValueConcat(a: seq<Digit>, b: seq<Digit>)
    ensures DigitsValue(a + b) == DigitsValue(a) * Pow10(|b|) + DigitsValue(b)
    decreases |b|
  {
    if |b| == 0 {
      assert a + b == a;
    } else {
      var b' := b[..|b| - 1];
      assert (a + b)[..|a + b| - 1] == a + b';
      assert (a + b)[|a + b| - 1] == b[|b| - 1];
      DigitsValueConcat(a, b');
      var va, vb, p, d := DigitsValue(a), DigitsValue(b'), Pow10(|b'|), b[|b| - 1];
      assert DigitsValue(a + b) == (va * p + vb) * 10 + d;
      assert DigitsValue(b) == vb * 10 + d;
      assert Pow10(|b|) == 10 * p;
      ShiftDigit(va, vb, p, d);
      assert DigitsValue(a) * Pow10(|b|) == va * (10 * p);
    }
  }

  /** Appending a digit to the lower part of a number shifts both parts one place. */
  lemma ShiftDigit(high: int, low: int, scale: int, d: int)
    ensures (high * scale + low) * 10 + d == high * (10 * scale) + (low * 10 + d)
  {
  }

  /** `z.coerce.number()` of an entry. */
  function Coerce(e: Entry): real {
    match e
    case Num(x) => x
    case Text(ds) => DigitsValue(ds) as real
  }

  datatype ActivityForm = ActivityForm(steps: Entry, calories: Entry, distance: Entry, activeTime: Entry)

  /**
   * `form.reset` for a day: each measure of the day's fetched activity, or
   * 0 when there is none (`activity?.steps || 0`).
   */
  function FormFor(xs: seq<Row<Activity>>, date: Date): ActivityForm {
    var m := ValuesForDate(xs, date);
    ActivityForm(Num(m.steps as real), Num(m.calories as real), Num(m.distance), Num(m.activeTime as real))
  }

  /**
   * Filled from the page's listing (the latest 30 activities), the form
   * shows the stored row for the selected day when the listing holds it,
   * and zeros when the user has no row for that day.
   */
  lemma FormShowsStoredDay(s: Store, u: Id, selected: Timestamp)
    requires OneActivityPerDay(s.activities.rows)
    ensures var f := FormFor(GetActivitiesByUserId(s, u, 30), DayOf(selected));
            var stored := GetActivityByUserAndDate(s, u, DayOf(selected));
            && (stored.None? ==> f == ActivityForm(Num(0.0), Num(0.0), Num(0.0), Num(0.0)))
            && (stored.Some? && stored.value in GetActivitiesByUserId(s, u, 30) ==>
                  && Coerce(f.steps) == stored.value.val.steps as real
                  && Coerce(f.calories) == stored.value.val.calories as real
                  && Coerce(f.distance) == stored.value.val.distance
                  && Coerce(f.activeTime) == stored.value.val.activeTime as real)
  {
    ValuesForDateOfListing(s, u, 30, DayOf(selected));
  }

  datatype FormValues = FormValues(steps: real, calories: real, distance: real, activeTime: real)

  /** `activitySchema`: each measure coerced to a number, none below 0. */
  function ValidateActivity(f: ActivityForm): (r: Option<FormValues>)
    ensures r.Some? <==> Coerce(f.steps) >= 0.0 && Coerce(f.calories) >= 0.0
                         && Coerce(f.distance) >= 0.0 && Coerce(f.activeTime) >= 0.0
    ensures r.Some? ==> r.value == FormValues(Coerce(f.steps), Coerce(f.calories), Coerce(f.distance),
                                              Coerce(f.activeTime))
  {
    var v := FormValues(Coerce(f.steps), Coerce(f.calories), Coerce(f.distance), Coerce(f.activeTime));
    if v.steps >= 0.0 && v.calories >= 0.0 && v.distance >= 0.0 && v.activeTime >= 0.0 then Some(v) else None
  }

  // ---------------------------------------------------------------------
  // Saving
  // ---------------------------------------------------------------------

  /** A number sent for an integer column: a whole number is well typed, a fraction is not. */
  function IntField(x: real): (r: Field<int>)
    ensures r.Given? <==> x == x.Floor as real
    ensures r.Given? ==> r.value as real == x
  {
    if x == x.Floor as real then Given(x.Floor) else Malformed
  }

  /** `saveActivityMutation`'s body: the selected day and the four values; no `userId`. */
  function SavePayload(date: Date, v: FormValues): ActivityBody {
    ActivityBody(Missing, Given(CalendarDay(date)), IntField(v.steps), IntField(v.calories), Given(v.distance),
                 IntField(v.activeTime))
  }

  /** Whether the integer measures are whole numbers. */
  predicate WholeCounts(v: FormValues) {
    v.steps == v.steps.Floor as real && v.calories == v.calories.Floor as real
    && v.activeTime == v.activeTime.Floor as real
  }

  /** Whether the integer measures, as whole numbers, fit their `integer` columns. */
  predicate CountsFitColumns(v: FormValues) {
    CountsFit(v.steps.Floor, v.calories.Floor, v.activeTime.Floor)
  }

  /**
   * Saving an accepted form stores, for the session user and the selected
   * day, a single row holding exactly the form's values, and the day's row
   * read back afterwards is that row.
   */
  lemma SaveStoresForm(st: State, u: Row<User>, selected: Timestamp, f: ActivityForm)
    requires Valid(st.store) && OneActivityPerDay(st.store.activities.rows) && u in st.store.users.rows
    requires ValidateActivity(f).Some? && WholeCounts(ValidateActivity(f).value)
    requires CountsFitColumns(ValidateActivity(f).value)
    ensures var v := ValidateActivity(f).value;
            var (r, st') := SaveActivityRoute(st, u, SavePayload(DayOf(selected), v));
            var stored := GetActivityByUserAndDate(st'.store, u.id, DayOf(selected));
            && r.status == 200
            && OneActivityPerDay(st'.store.activities.rows)
            && stored.Some?
            && stored.value.val.steps as real == Coerce(f.steps)
            && stored.value.val.calories as real == Coerce(f.calories)
            && stored.value.val.distance == Coerce(f.distance)
            && stored.value.val.activeTime as real == Coerce(f.activeTime)
  {
    var v := ValidateActivity(f).value;
    var date := DayOf(selected);
    assert SavePayload(date, v) == FullActivity(date, v.steps.Floor, v.calories.Floor, v.distance, v.activeTime.Floor);
    SaveRouteFullActivity(st, u, date, v.steps.Floor, v.calories.Floor, v.distance, v.activeTime.Floor);
    var st' := SaveActivityRoute(st, u, SavePayload(date, v)).1;
    var stored := GetActivityByUserAndDate(st'.store, u.id, date).value;
    var k :| 0 <= k < |st'.store.activities.rows| && st'.store.activities.rows[k] == stored;
  }

  /**
   * The form sets no upper bound, so it accepts counts the server refuses:
   * a whole count too large for its `integer` column is answered with 400
   * and nothing is saved. Two billion and more steps is such a form.
   */
  lemma OversizedFormRefused(st: State, u: Row<User>, selected: Timestamp, f: ActivityForm)
    requires Valid(st.store) && u in st.store.users.rows
    requires ValidateActivity(f).Some? && WholeCounts(ValidateActivity(f).value)
    requires !CountsFitColumns(ValidateActivity(f).value)
    ensures SaveActivityRoute(st, u, SavePayload(DayOf(selected), ValidateActivity(f).value))
              == (Error(400, ValidationFailed), st)
    ensures ValidateActivity(ActivityForm(Num(2147483648.0), Num(0.0), Num(0.0), Num(0.0))).Some?
    ensures !CountsFitColumns(ValidateActivity(ActivityForm(Num(2147483648.0), Num(0.0), Num(0.0), Num(0.0))).value)
  {
    var v := ValidateActivity(f).value;
    var date := DayOf(selected);
    assert SavePayload(date, v) == FullActivity(date, v.steps.Floor, v.calories.Floor, v.distance, v.activeTime.Floor);
  }

  // ---------------------------------------------------------------------
  // Quick add
  // ---------------------------------------------------------------------

  /** The quick-add buttons and what each adds. */
  datatype QuickButton = AddSteps | AddCalories | AddMinutes | AddKm

  function Amount(b: QuickButton): nat {
    match b
    case AddSteps => 1000
    case AddCalories => 100
    case AddMinutes => 15
    case AddKm => 1
  }

  /**
   * `getValues(field) + amount` as written: JavaScript's `+` adds to a
   * number but appends the amount's digits to a string.
   */
  function PlusAsWritten(e: Entry, amount: nat): Entry {
    match e
    case Num(x) => Num(x + amount as real)
    case Text(ds) => Text(ds + DecimalDigits(amount))
  }

  /** The entry a button changes. */
  function EntryOf(f: ActivityForm, b: QuickButton): Entry {
    match b
    case AddSteps => f.steps
    case AddCalories => f.calories
    case AddMinutes => f.activeTime
    case AddKm => f.distance
  }

  function WithEntry(f: ActivityForm, b: QuickButton, e: Entry): ActivityForm {
    match b
    case AddSteps => f.(steps := e)
    case AddCalories => f.(calories := e)
    case AddMinutes => f.(activeTime := e)
    case AddKm => f.(distance := e)
  }

  /** A quick-add click as written. */
  function QuickAddAsWritten(f: ActivityForm, b: QuickButton): ActivityForm {
    WithEntry(f, b, PlusAsWritten(EntryOf(f, b), Amount(b)))
  }

  /**
   * As written, on a field the user has typed into, the click writes the
   * amount's digits after the typed ones: the value becomes the typed
   * value shifted left by the amount's length, plus the amount.
   */
  lemma QuickAddAsWrittenAppends(f: ActivityForm, b: QuickButton)
    requires EntryOf(f, b).Text?
    ensures Coerce(EntryOf(QuickAddAsWritten(f, b), b))
            == (DigitsValue(EntryOf(f, b).digits) * Pow10(|DecimalDigits(Amount(b))|) + Amount(b)) as real
  {
    var typed := EntryOf(f, b).digits;
    var r := QuickAddAsWritten(f, b);
    assert EntryOf(r, b) == Text(typed + DecimalDigits(Amount(b))) by {
      match b
      case AddSteps =>
      case AddCalories =>
      case AddMinutes =>
      case AddKm =>
    }
    DigitsValueConcat(typed, DecimalDigits(Amount(b)));
    DecimalDigitsRoundTrip(Amount(b));
  }

  /** Typing 500 steps and pressing "+1,000 Steps" gives 5001000 steps, not 1500. */
  lemma QuickAddAsWrittenCounterexample()
    ensures var f := ActivityForm(Text([5, 0, 0]), Num(0.0), Num(0.0), Num(0.0));
            && Coerce(QuickAddAsWritten(f, AddSteps).steps) == 5001000.0
            && Coerce(QuickAdd(f, AddSteps).steps) == 1500.0
  {
    var f := ActivityForm(Text([5, 0, 0]), Num(0.0), Num(0.0), Num(0.0));
    QuickAddAsWrittenAppends(f, AddSteps);
    assert |DecimalDigits(1000)| == 4 by {
      assert DecimalDigits(1000) == DecimalDigits(100) + [0];
      assert DecimalDigits(100) == DecimalDigits(10) + [0];
      assert DecimalDigits(10) == DecimalDigits(1) + [0];
    }
    assert DigitsValue([5, 0, 0]) == 500 by {
      var five: seq<Digit> := [5];
      var fifty: seq<Digit> := [5, 0];
      var typed: seq<Digit> := [5, 0, 0];
      assert five[..0] == [] && DigitsValue(five) == 5;
      assert fifty[..1] == five && DigitsValue(fifty) == 50;
      assert typed[..2] == fifty;
    }
    assert Pow10(4) == 10000;
  }

  /** A quick-add click adding to the number the field shows, whatever it holds. */
  function QuickAdd(f: ActivityForm, b: QuickButton): (r: ActivityForm)
    ensures Coerce(EntryOf(r, b)) == Coerce(EntryOf(f, b)) + Amount(b) as real
    ensures forall c :: c != b ==> EntryOf(r, c) == EntryOf(f, c)
  {
    WithEntry(f, b, Num(Coerce(EntryOf(f, b)) + Amount(b) as real))
  }

  /**
   * On a field the page itself filled the written code and the intended
   * one agree; a valid form stays valid after a click.
   */
  lemma QuickAddAgreesOnNumbers(f: ActivityForm, b: QuickButton)
    ensures EntryOf(f, b).Num? ==> QuickAddAsWritten(f, b) == QuickAdd(f, b)
    ensures ValidateActivity(f).Some? ==> ValidateActivity(QuickAdd(f, b)).Some?
  {
    var r := QuickAdd(f, b);
    assert forall c :: c != b ==> EntryOf(r, c) == EntryOf(f, c);
    assert EntryOf(r, AddSteps) == r.steps && EntryOf(r, AddCalories) == r.calories;
    assert EntryOf(r, AddMinutes) == r.activeTime && EntryOf(r, AddKm) == r.distance;
  }
}

=== FILE: api_properties.dfy ===
/**
 * Properties of the API that span several requests or compare two requests:
 * registration followed by login, owner-blind goal writes, the session id
 * overriding any `userId` in a body, saving the same day twice, and a whole
 * run of requests from an empty database.
 */
module ApiProperties {
  import opened Wrappers
  import opened Schema
  import opened Storage
  import opened Routes

  function RegisterWith(email: string, password: string, name: string): RegisterBody {
    RegisterBody(Given(email), Given(password), Given(name))
  }

  /**
   * Registering a fresh e-mail succeeds, and after logging out the same
   * non-empty e-mail and password log in again as the very same user.
   */
  lemma RegisterThenLogin(st: State, email: string, password: string, name: string, t1: Timestamp, t2: Timestamp)
    requires Valid(st.store) && !StaleSession(st)
    requires GetUserByEmail(st.store, email).None?
    requires |email| > 0 && |password| > 0
    ensures var (r1, st1) := Handle(st, Register(RegisterWith(email, password, name)), t1);
            var st2 := Handle(st1, Logout, t2).1;
            var (r3, st3) := Handle(st2, Login(Given(email), Given(password)), t2);
            && r1.status == 200
            && st2.session.None?
            && r3.status == 200 && r3.body == r1.body
            && st3 == st1
  {
    var (r1, st1) := Handle(st, Register(RegisterWith(email, password, name)), t1);
    var st2 := Handle(st1, Logout, t2).1;
    var n := |st.store.users.rows|;
    assert st1.store.users.rows[n].val.email == email;
    GetUserByEmailIsUnique(st1.store, email, n);
    assert st2.store == st1.store;
  }

  /**
   * Registration sets no minimum length, but the login strategy refuses an
   * empty e-mail or password: an account registered with either can never
   * log in again.
   */
  lemma EmptyCredentialsCannotLogIn(st: State, email: string, password: string, name: string, t1: Timestamp, t2: Timestamp)
    requires Valid(st.store) && !StaleSession(st)
    requires GetUserByEmail(st.store, email).None?
    requires |email| == 0 || |password| == 0
    ensures var (r1, st1) := Handle(st, Register(RegisterWith(email, password, name)), t1);
            var st2 := Handle(st1, Logout, t2).1;
            && r1.status == 200
            && Handle(st2, Login(Given(email), Given(password)), t2) == (Error(401, InvalidCredentials), st2)
  {
  }

  /** Registering an e-mail already taken answers 400 and changes nothing. */
  lemma DuplicateRegisterChangesNothing(st: State, email: string, password: string, name: string, t: Timestamp)
    requires Valid(st.store) && !StaleSession(st)
    requires exists i :: 0 <= i < |st.store.users.rows| && st.store.users.rows[i].val.email == email
    ensures Handle(st, Register(RegisterWith(email, password, name)), t) == (Error(400, UserExists), st)
  {
  }

  /**
   * A wrong password answers 401 and leaves the session as it was: a user
   * already logged in stays logged in.
   */
  lemma WrongPasswordKeepsSession(st: State, email: string, password: string, t: Timestamp)
    requires Valid(st.store) && !StaleSession(st)
    requires GetUserByEmail(st.store, email).Some? && GetUserByEmail(st.store, email).value.val.password != password
    ensures Handle(st, Login(Given(email), Given(password)), t) == (Error(401, InvalidCredentials), st)
  {
  }

  /** For a logged-in user, a guarded request is answered by the route for that user. */
  lemma HandleGuarded(st: State, req: Request, t: Timestamp)
    requires Valid(st.store) && RequiresAuth(req) && SessionUser(st).Some?
    ensures SessionUser(st).value in st.store.users.rows
    ensures Handle(st, req, t) == Authenticated(st, SessionUser(st).value, req, t)
  {
  }

  /**
   * The `userId` a client puts in a goal body is never read: the goal is
   * stored under the session's user whatever the body says.
   */
  lemma GoalBodyUserIdIgnored(st: State, g: GoalBody, other: Field<Id>, t: Timestamp)
    requires Valid(st.store)
    ensures Handle(st, CreateGoal(g), t) == Handle(st, CreateGoal(g.(userId := other)), t)
  {
    if SessionUser(st).Some? {
      var u := SessionUser(st).value;
      HandleGuarded(st, CreateGoal(g), t);
      HandleGuarded(st, CreateGoal(g.(userId := other)), t);
      assert ParseGoal(g, u.id) == ParseGoal(g.(userId := other), u.id);
    }
  }

  /** Likewise for a workout body. */
  lemma WorkoutBodyUserIdIgnored(st: State, w: WorkoutBody, other: Field<Id>, t: Timestamp)
    requires Valid(st.store)
    ensures Handle(st, CreateWorkout(w), t) == Handle(st, CreateWorkout(w.(userId := other)), t)
  {
    if SessionUser(st).Some? {
      var u := SessionUser(st).value;
      HandleGuarded(st, CreateWorkout(w), t);
      HandleGuarded(st, CreateWorkout(w.(userId := other)), t);
      assert ParseWorkout(w, u.id) == ParseWorkout(w.(userId := other), u.id);
    }
  }

  /** Likewise for an activity body. */
  lemma ActivityBodyUserIdIgnored(st: State, a: ActivityBody, other: Field<Id>, t: Timestamp)
    requires Valid(st.store)
    ensures Handle(st, SaveActivity(a), t) == Handle(st, SaveActivity(a.(userId := other)), t)
  {
    if SessionUser(st).Some? {
      var u := SessionUser(st).value;
      HandleGuarded(st, SaveActivity(a), t);
      HandleGuarded(st, SaveActivity(a.(userId := other)), t);
      assert ParseActivity(a, u.id) == ParseActivity(a.(userId := other), u.id);
    }
  }

  /**
   * `PATCH /api/goals/:id` checks no ownership: any logged-in user can set
   * the progress of a goal that belongs to someone else.
   */
  lemma UpdateGoalIgnoresOwner(st: State, i: nat, current: real, t: Timestamp)
    requires Valid(st.store) && SessionUser(st).Some?
    requires i < |st.store.goals.rows| && st.store.goals.rows[i].val.userId != SessionUser(st).value.id
    ensures var (r, st') := Handle(st, UpdateGoal(st.store.goals.rows[i].id, Given(current)), t);
            && r.status == 200
            && |st'.store.goals.rows| == |st.store.goals.rows|
            && st'.store.goals.rows[i].val == st.store.goals.rows[i].val.(current := current)
            && st'.store.goals.rows[i].val.userId != SessionUser(st).value.id
  {
  }

  /** `DELETE /api/goals/:id` checks no ownership either. */
  lemma DeleteGoalIgnoresOwner(st: State, i: nat, t: Timestamp)
    requires Valid(st.store) && SessionUser(st).Some?
    requires i < |st.store.goals.rows| && st.store.goals.rows[i].val.userId != SessionUser(st).value.id
    ensures var (r, st') := Handle(st, DeleteGoal(st.store.goals.rows[i].id), t);
            && r.status == 200
            && !HasId(st'.store.goals, st.store.goals.rows[i].id)
  {
  }

  /** By contrast, reading a workout that belongs to someone else is refused. */
  lemma GetWorkoutChecksOwner(st: State, i: nat, t: Timestamp)
    requires Valid(st.store) && SessionUser(st).Some?
    requires i < |st.store.workouts.rows| && st.store.workouts.rows[i].val.userId != SessionUser(st).value.id
    ensures Handle(st, GetWorkout(st.store.workouts.rows[i].id), t) == (Error(403, Forbidden), st)
  {
    var rows := st.store.workouts.rows;
    var id := rows[i].id;
    var u := SessionUser(st).value;
    HandleGetWorkout(st, id, t);
    assert HasId(st.store.workouts, id);
    var d := GetWorkoutById(st.store, id).value;
    var k :| 0 <= k < |rows| && rows[k] == d.workout;
    assert k == i;
    assert GetWorkoutRoute(st, u, id) == Error(403, Forbidden);
  }

  /** An activity body with every measure given. */
  function FullActivity(date: Date, steps: int, calories: int, distance: real, activeTime: int): ActivityBody {
    ActivityBody(Missing, Given(CalendarDay(date)), Given(steps), Given(calories), Given(distance), Given(activeTime))
  }

  /** Whether the three `integer` measures of a full body can be stored. */
  predicate CountsFit(steps: int, calories: int, activeTime: int) {
    FitsInteger(steps) && FitsInteger(calories) && FitsInteger(activeTime)
  }

  /** The activity a full body describes, for user `u`. */
  function FullActivityRow(u: Id, date: Date, steps: int, calories: int, distance: real, activeTime: int): Activity {
    Activity(u, date, steps, calories, distance, activeTime)
  }

  /**
   * An upsert naming every measure: afterwards the day has a row for the
   * user, and every such row holds exactly the payload.
   */
  lemma UpsertFullActivity(s: Store, a: NewActivity)
    requires Valid(s) && OneActivityPerDay(s.activities.rows) && HasId(s.users, a.userId)
    requires a.steps.Some? && a.calories.Some? && a.distance.Some? && a.activeTime.Some? && a.Fits()
    ensures UpsertActivity(s, a).Success?
    ensures var s' := UpsertActivity(s, a).value.0;
            var rows := s'.activities.rows;
            && Valid(s') && OneActivityPerDay(rows) && s'.users == s.users
            && GetActivityByUserAndDate(s', a.userId, a.date).Some?
            && (forall k :: 0 <= k < |rows| && ActivityKey(rows[k], a.userId, a.date) ==>
                  rows[k].val == FullActivityRow(a.userId, a.date, a.steps.value, a.calories.value,
                                                 a.distance.value, a.activeTime.value))
  {
    var (s', row) := UpsertActivity(s, a).value;
    var want := FullActivityRow(a.userId, a.date, a.steps.value, a.calories.value, a.distance.value, a.activeTime.value);
    assert row.val == want by {
      if GetActivityByUserAndDate(s, a.userId, a.date).Some? {
        var prev := GetActivityByUserAndDate(s, a.userId, a.date).value;
        assert row.val == a.Overwrite(prev.val);
      }
    }
    var rows := s'.activities.rows;
    var j :| 0 <= j < |rows| && rows[j] == row;
    forall k | 0 <= k < |rows| && ActivityKey(rows[k], a.userId, a.date)
      ensures rows[k].val == want
    {
      assert k == j;
    }
    assert !GetActivityByUserAndDate(s', a.userId, a.date).None?;
  }

  /** The route that saves a full body, for an authenticated user `u`. */
  lemma SaveRouteFullActivity(st: State, u: Row<User>, date: Date, steps: int, calories: int, distance: real,
                              activeTime: int)
    requires Valid(st.store) && OneActivityPerDay(st.store.activities.rows) && u in st.store.users.rows
    requires CountsFit(steps, calories, activeTime)
    ensures var (r, st') := SaveActivityRoute(st, u, FullActivity(date, steps, calories, distance, activeTime));
            var rows := st'.store.activities.rows;
            && r.status == 200
            && Valid(st'.store) && OneActivityPerDay(rows)
            && st'.session == st.session && st'.store.users == st.store.users
            && GetActivityByUserAndDate(st'.store, u.id, date).Some?
            && (forall k :: 0 <= k < |rows| && ActivityKey(rows[k], u.id, date) ==>
                  rows[k].val == FullActivityRow(u.id, date, steps, calories, distance, activeTime))
  {
    var b := FullActivity(date, steps, calories, distance, activeTime);
    var a := ParseActivity(b, u.id).value.value;
    assert a == NewActivity(u.id, date, Some(steps), Some(calories), Some(distance), Some(activeTime));
    assert HasId(st.store.users, u.id) by {
      var k :| 0 <= k < |st.store.users.rows| && st.store.users.rows[k] == u;
    }
    UpsertFullActivity(st.store, a);
  }

  /** With a user logged in, reading a workout runs the read route for that user. */
  lemma HandleGetWorkout(st: State, id: Id, t: Timestamp)
    requires Valid(st.store) && SessionUser(st).Some?
    ensures Handle(st, GetWorkout(id), t) == (GetWorkoutRoute(st, SessionUser(st).value, id), st)
  {
    HandleGuarded(st, GetWorkout(id), t);
  }

  /** With a user logged in, reading a day answers that user's row for the day. */
  lemma HandleGetActivity(st: State, date: Date, t: Timestamp)
    requires Valid(st.store) && SessionUser(st).Some?
    ensures Handle(st, GetActivity(date), t)
              == (Response(200, ActivityJson(GetActivityByUserAndDate(st.store, SessionUser(st).value.id, date))), st)
  {
    HandleGuarded(st, GetActivity(date), t);
  }

  /** With a user logged in, a save runs the save route for that user. */
  lemma HandleSave(st: State, b: ActivityBody, t: Timestamp)
    requires Valid(st.store) && SessionUser(st).Some?
    ensures SessionUser(st).value in st.store.users.rows
    ensures Handle(st, SaveActivity(b), t) == SaveActivityRoute(st, SessionUser(st).value, b)
  {
    HandleGuarded(st, SaveActivity(b), t);
  }

  /** One save of a full body through the API, by a logged-in user. */
  lemma SaveFullActivity(st: State, date: Date, steps: int, calories: int, distance: real, activeTime: int, t: Timestamp)
    requires Valid(st.store) && OneActivityPerDay(st.store.activities.rows) && SessionUser(st).Some?
    requires CountsFit(steps, calories, activeTime)
    ensures var u := SessionUser(st).value;
            var (r, st') := Handle(st, SaveActivity(FullActivity(date, steps, calories, distance, activeTime)), t);
            var rows := st'.store.activities.rows;
            && r.status == 200
            && Valid(st'.store) && OneActivityPerDay(rows)
            && SessionUser(st') == Some(u)
            && GetActivityByUserAndDate(st'.store, u.id, date).Some?
            && (forall k :: 0 <= k < |rows| && ActivityKey(rows[k], u.id, date) ==>
                  rows[k].val == FullActivityRow(u.id, date, steps, calories, distance, activeTime))
  {
    var u := SessionUser(st).value;
    var b := FullActivity(date, steps, calories, distance, activeTime);
    var res := SaveActivityRoute(st, u, b);
    HandleSave(st, b, t);
    SaveRouteFullActivity(st, u, date, steps, calories, distance, activeTime);
    assert SessionUser(res.1) == SessionUser(st) by {
      assert res.1.store.users == st.store.users && res.1.session == st.session;
    }
  }

  /** One save of a full body, after which reading the day returns exactly that body. */
  lemma SaveThenRead(st: State, date: Date, steps: int, calories: int, distance: real, activeTime: int, t: Timestamp)
    requires Valid(st.store) && OneActivityPerDay(st.store.activities.rows) && SessionUser(st).Some?
    requires CountsFit(steps, calories, activeTime)
    ensures var u := SessionUser(st).value.id;
            var st' := Handle(st, SaveActivity(FullActivity(date, steps, calories, distance, activeTime)), t).1;
            var rows := st'.store.activities.rows;
            && Valid(st'.store) && OneActivityPerDay(rows) && SessionUser(st') == SessionUser(st)
            && (forall k :: 0 <= k < |rows| && ActivityKey(rows[k], u, date) ==>
                  rows[k].val == FullActivityRow(u, date, steps, calories, distance, activeTime))
            && Handle(st', GetActivity(date), t).0 ==
                 Response(200, ActivityJson(GetActivityByUserAndDate(st'.store, u, date)))
            && GetActivityByUserAndDate(st'.store, u, date).Some?
            && GetActivityByUserAndDate(st'.store, u, date).value.val
                 == FullActivityRow(u, date, steps, calories, distance, activeTime)
  {
    var u := SessionUser(st).value;
    SaveFullActivity(st, date, steps, calories, distance, activeTime, t);
    var st' := Handle(st, SaveActivity(FullActivity(date, steps, calories, distance, activeTime)), t).1;
    HandleGetActivity(st', date, t);
    var rows := st'.store.activities.rows;
    var found := GetActivityByUserAndDate(st'.store, u.id, date).value;
    var k :| 0 <= k < |rows| && rows[k] == found;
    assert ActivityKey(rows[k], u.id, date);
  }

  /**
   * A measure too large for its `integer` column is refused by the
   * validator with 400 before anything is written, where the database
   * would have refused it anyway.
   */
  lemma OversizedCountRefused(st: State, date: Date, steps: int, calories: int, distance: real, activeTime: int,
                              t: Timestamp)
    requires Valid(st.store) && SessionUser(st).Some?
    requires !CountsFit(steps, calories, activeTime)
    ensures Handle(st, SaveActivity(FullActivity(date, steps, calories, distance, activeTime)), t)
              == (Error(400, ValidationFailed), st)
    ensures UpsertActivity(st.store, NewActivity(SessionUser(st).value.id, date, Some(steps), Some(calories),
                                                 Some(distance), Some(activeTime))) == Failure(OutOfRange)
  {
    HandleSave(st, FullActivity(date, steps, calories, distance, activeTime), t);
  }

  /**
   * Likewise an exercise whose `sets` or `reps` is too large for its
   * `integer` column: the whole workout is refused with 400 and nothing is
   * stored, while storage called directly would have kept the workout row.
   */
  lemma OversizedSetsRefused(st: State, name: string, date: Date, e: NewExercise, t: Timestamp)
    requires Valid(st.store) && SessionUser(st).Some?
    requires !e.Fits()
    ensures var b := ExerciseBody(Given(e.name), Given(e.sets), Given(e.reps), Given(e.weight));
            Handle(st, CreateWorkout(WorkoutBody(Missing, Given(name), Given(CalendarDay(date)), Given([b]))), t)
              == (Error(400, ValidationFailed), st)
    ensures var w := NewWorkout(SessionUser(st).value.id, name, date);
            var (s', r) := Storage.CreateWorkout(st.store, w, [e], t);
            && r == Failure(OutOfRange)
            && |s'.workouts.rows| == |st.store.workouts.rows| + 1
  {
    var b := ExerciseBody(Given(e.name), Given(e.sets), Given(e.reps), Given(e.weight));
    var u := SessionUser(st).value;
    HandleGuarded(st, CreateWorkout(WorkoutBody(Missing, Given(name), Given(CalendarDay(date)), Given([b]))), t);
    assert ParseExercise([b][0]).None?;
    assert !ExercisesFit([e]) by {
      assert [e][0] == e;
    }
  }

  /**
   * A date text that is not a calendar day passes the insert schemas: a
   * workout otherwise valid is not refused with 400, but the database
   * refuses the date and the route answers 500, with nothing stored. An
   * otherwise invalid body is still refused with 400.
   */
  lemma NotADateWorkoutAnswers500(st: State, w: WorkoutBody, t: Timestamp)
    requires Valid(st.store) && SessionUser(st).Some?
    requires w.date == Given(NotADate)
    ensures Handle(st, CreateWorkout(w), t)
              == (if w.name.Given? && w.exercises.Given? && ParseExercises(w.exercises.value).Some?
                  then Error(500, InternalError) else Error(400, ValidationFailed), st)
  {
    HandleGuarded(st, CreateWorkout(w), t);
  }

  /** Likewise for an activity: the day's lookup fails, and the answer is 500 with nothing stored. */
  lemma NotADateActivityAnswers500(st: State, a: ActivityBody, t: Timestamp)
    requires Valid(st.store) && SessionUser(st).Some?
    requires a.date == Given(NotADate)
    ensures Handle(st, SaveActivity(a), t)
              == (if && OptionalIntegerAccepted(a.steps) && OptionalIntegerAccepted(a.calories)
                     && !a.distance.Malformed? && OptionalIntegerAccepted(a.activeTime)
                  then Error(500, InternalError) else Error(400, ValidationFailed), st)
  {
    HandleGuarded(st, SaveActivity(a), t);
  }

  /**
   * Saving the same day twice leaves exactly one row for that user and day,
   * holding the second payload, and `GET /api/activities/:date` returns it.
   */
  lemma SaveSameDayTwice(st: State, date: Date,
                         s1: int, c1: int, d1: real, a1: int,
                         s2: int, c2: int, d2: real, a2: int, t: Timestamp)
    requires Valid(st.store) && OneActivityPerDay(st.store.activities.rows) && SessionUser(st).Some?
    requires CountsFit(s1, c1, a1) && CountsFit(s2, c2, a2)
    ensures var u := SessionUser(st).value.id;
            var st1 := Handle(st, SaveActivity(FullActivity(date, s1, c1, d1, a1)), t).1;
            var st2 := Handle(st1, SaveActivity(FullActivity(date, s2, c2, d2, a2)), t).1;
            var rows := st2.store.activities.rows;
            && OneActivityPerDay(rows)
            && (forall k :: 0 <= k < |rows| && ActivityKey(rows[k], u, date) ==>
                  rows[k].val == FullActivityRow(u, date, s2, c2, d2, a2))
            && Handle(st2, GetActivity(date), t).0 ==
                 Response(200, ActivityJson(GetActivityByUserAndDate(st2.store, u, date)))
            && GetActivityByUserAndDate(st2.store, u, date).Some?
            && GetActivityByUserAndDate(st2.store, u, date).value.val == FullActivityRow(u, date, s2, c2, d2, a2)
  {
    SaveThenRead(st, date, s1, c1, d1, a1, t);
    var st1 := Handle(st, SaveActivity(FullActivity(date, s1, c1, d1, a1)), t).1;
    SaveThenRead(st1, date, s2, c2, d2, a2, t);
  }

  /**
   * No sequence of requests, from an empty database, ever stores two
   * activities for one user and day, or leaves a session naming a user
   * that is not stored.
   */
  lemma RunFromEmptyKeepsOneActivityPerDay(reqs: seq<(Request, Timestamp)>)
    ensures Valid(EmptyStore())
    ensures OneActivityPerDay(Run(State(EmptyStore(), None), reqs).store.activities.rows)
    ensures !StaleSession(Run(State(EmptyStore(), None), reqs))
  {
    EmptyStoreValid();
  }
}

=== FILE: dashboard.dfy ===
/**
 * The dashboard: today's four measures with capped progress toward fixed
 * daily targets, the week's activities as a chart in date order, and the
 * three most recent workouts with a calorie estimate each.
 */
module Dashboard {
  import opened Wrappers
  import opened Seqs
  import opened Schema
  import opened Storage
  import opened JsMath
  import opened DayValues
  import History

  // ---------------------------------------------------------------------
  // Daily progress
  // ---------------------------------------------------------------------

  const StepsTarget: real := 10000.0
  const CaloriesTarget: real := 2500.0
  const DistanceTarget: real := 7.0
  const ActiveTimeTarget: real := 60.0

  /**
   * `Math.min(100, (value / target) * 100)`. There is no lower clamp: a
   * negative stored value gives a negative bar.
   */
  function CappedProgress(value: real, target: real): (r: real)
    requires target > 0.0
    ensures r <= 100.0
    ensures value >= 0.0 ==> r >= 0.0
    ensures value < 0.0 ==> r < 0.0
    ensures r == 100.0 <==> value >= target
  {
    DivAtLeast(value, target, 1.0);
    DivAtLeast(value, target, 0.0);
    DivAtMost(value, target, 0.0);
    Min(100.0, value / target * 100.0)
  }

  datatype Progress = Progress(steps: real, calories: real, distance: real, activeTime: real)

  /** `dailyStats` progress values for today's measures. */
  function DailyProgress(m: Measures): Progress {
    Progress(CappedProgress(m.steps as real, StepsTarget),
             CappedProgress(m.calories as real, CaloriesTarget),
             CappedProgress(m.distance, DistanceTarget),
             CappedProgress(m.activeTime as real, ActiveTimeTarget))
  }

  /**
   * Every bar is at most 100; it is at least 0 when the measure is, and
   * with no activity stored for today every bar is 0.
   */
  lemma DailyProgressBounds(xs: seq<Row<Activity>>, today: Date)
    ensures var p := DailyProgress(ValuesForDate(xs, today));
            p.steps <= 100.0 && p.calories <= 100.0 && p.distance <= 100.0 && p.activeTime <= 100.0
    ensures (forall i :: 0 <= i < |xs| ==> xs[i].val.date != today) ==>
              DailyProgress(ValuesForDate(xs, today)) == Progress(0.0, 0.0, 0.0, 0.0)
    ensures var m := ValuesForDate(xs, today);
            m.steps >= 0 && m.calories >= 0 && m.distance >= 0.0 && m.activeTime >= 0 ==>
              var p := DailyProgress(m);
              p.steps >= 0.0 && p.calories >= 0.0 && p.distance >= 0.0 && p.activeTime >= 0.0
  {
  }

  // ---------------------------------------------------------------------
  // Weekly chart
  // ---------------------------------------------------------------------

  datatype ChartPoint = ChartPoint(date: Date, calories: int, steps: int)

  function PointDate(p: ChartPoint): int {
    p.date
  }

  /** `weeklyActivity`: the fetched list reversed, one point per activity. */
  function WeeklyActivity(xs: seq<Row<Activity>>): (r: seq<ChartPoint>)
    ensures |r| == |xs|
    ensures forall i :: 0 <= i < |xs| ==>
              var a := xs[|xs| - 1 - i].val;
              r[i] == ChartPoint(a.date, a.calories, a.steps)
  {
    var rev := Reverse(xs);
    seq(|rev|, i requires 0 <= i < |rev| => ChartPoint(rev[i].val.date, rev[i].val.calories, rev[i].val.steps))
  }

  /**
   * The server lists activities latest first, so the chart runs from the
   * oldest fetched day to the latest.
   */
  lemma WeeklyActivityAscending(s: Store, u: Id, limit: nat)
    ensures SortedAsc(WeeklyActivity(GetActivitiesByUserId(s, u, limit)), PointDate)
  {
    var xs := GetActivitiesByUserId(s, u, limit);
    var r := WeeklyActivity(xs);
    forall i, j | 0 <= i < j < |r|
      ensures PointDate(r[i]) <= PointDate(r[j])
    {
      assert ActivityDate(xs[|xs| - 1 - j]) >= ActivityDate(xs[|xs| - 1 - i]);
    }
  }

  // ---------------------------------------------------------------------
  // Recent workouts
  // ---------------------------------------------------------------------

  /** `sets * reps * weight * 0.05`: each exercise's share of the estimate. */
  function CaloriesOf(e: Row<Exercise>): real {
    (e.val.sets * e.val.reps) as real * e.val.weight * History.CaloriesPerVolume
  }

  /** The card's calorie estimate: the shares summed, then rounded. */
  function WorkoutCalories(exs: seq<Row<Exercise>>): int {
    Round(Sum(exs, CaloriesOf))
  }

  /**
   * Scaling each term before summing and scaling the sum give the same
   * number, so the dashboard and the history page show the same estimate.
   */
  lemma CaloriesAgreeWithHistory(exs: seq<Row<Exercise>>)
    ensures WorkoutCalories(exs) == History.EstimatedCalories(exs)
  {
    SumScale(exs, History.VolumeOf, CaloriesOf, History.CaloriesPerVolume);
  }

  datatype RecentCard = RecentCard(id: Id, title: string, date: Date, calories: int, exercises: nat)

  function CardOf(w: WithExercises): RecentCard {
    RecentCard(w.workout.id, w.workout.val.name, w.workout.val.date, WorkoutCalories(w.exercises), |w.exercises|)
  }

  /** `recentWorkouts`: a card for each of the first three workouts. */
  function RecentWorkouts(ws: seq<WithExercises>): (r: seq<RecentCard>)
    ensures |r| <= 3
    ensures |r| == if |ws| < 3 then |ws| else 3
    ensures forall i :: 0 <= i < |r| ==> r[i] == CardOf(ws[i])
  {
    var first := if |ws| < 3 then ws else ws[..3];
    seq(|first|, i requires 0 <= i < |first| => CardOf(first[i]))
  }

  /**
   * Fed the server's listing, the cards are the user's own workouts and no
   * workout left off is more recent than one shown.
   */
  lemma RecentWorkoutsAreLatest(s: Store, u: Id)
    ensures var ws := GetWorkoutsByUserId(s, u);
            var cards := RecentWorkouts(ws);
            && (forall i :: 0 <= i < |cards| ==> cards[i].id == ws[i].workout.id && ws[i].workout.val.userId == u)
            && (forall i, j :: 0 <= i < |cards| <= j < |ws| ==> cards[i].date >= ws[j].workout.val.date)
  {
    var ws := GetWorkoutsByUserId(s, u);
    var rows := WorkoutRows(ws);
    forall i, j | 0 <= i < |RecentWorkouts(ws)| <= j < |ws|
      ensures RecentWorkouts(ws)[i].date >= ws[j].workout.val.date
    {
      assert WorkoutDate(rows[i]) >= WorkoutDate(rows[j]);
    }
  }
}

=== FILE: day_values.dfy ===
/**
 * The four measures a page shows for one day, read from the activity list
 * the server returned: the first row dated that day, or zeros when there is
 * none. The dashboard does this for today and the activity page for the
 * date it is showing.
 */
module DayValues {
  import opened Wrappers
  import opened Seqs
  import opened Schema
  import opened Storage

  datatype Measures = Measures(steps: int, calories: int, distance: real, activeTime: int)

  const Zero := Measures(0, 0, 0.0, 0)

  function MeasuresOf(a: Activity): Measures {
    Measures(a.steps, a.calories, a.distance, a.activeTime)
  }

  /** Whether an activity row is dated `date`. */
  function DatedOn(date: Date): Row<Activity> -> bool {
    (a: Row<Activity>) => a.val.date == date
  }

  /**
   * `activities.find(a => a.date === date)`, each measure falling back to 0
   * when no row is found.
   */
  function ValuesForDate(xs: seq<Row<Activity>>, date: Date): (m: Measures)
    ensures (forall i :: 0 <= i < |xs| ==> xs[i].val.date != date) ==> m == Zero
    ensures (exists i :: 0 <= i < |xs| && xs[i].val.date == date) ==>
              exists i :: 0 <= i < |xs| && xs[i].val.date == date && m == MeasuresOf(xs[i].val)
                          && forall j :: 0 <= j < i ==> xs[j].val.date != date
  {
    match Find(xs, DatedOn(date))
    case None => Zero
    case Some(a) => MeasuresOf(a.val)
  }

  /**
   * Read from a listing the server returned for user `u`, the values for a
   * day are that day's stored row when the listing holds it, and zeros when
   * the user has no row for the day.
   */
  lemma ValuesForDateOfListing(s: Store, u: Id, limit: nat, date: Date)
    requires OneActivityPerDay(s.activities.rows)
    ensures var xs := GetActivitiesByUserId(s, u, limit);
            var stored := GetActivityByUserAndDate(s, u, date);
            && (stored.None? ==> ValuesForDate(xs, date) == Zero)
            && (stored.Some? && stored.value in xs ==> ValuesForDate(xs, date) == MeasuresOf(stored.value.val))
  {
    var stored := GetActivityByUserAndDate(s, u, date);
    if stored.None? {
      NothingListedForDay(s, u, limit, date);
    } else if stored.value in GetActivitiesByUserId(s, u, limit) {
      StoredRowListedFirst(s, u, limit, date);
    }
  }

  /** Without a stored row for the day, no listed row is dated that day. */
  lemma NothingListedForDay(s: Store, u: Id, limit: nat, date: Date)
    requires GetActivityByUserAndDate(s, u, date).None?
    ensures var xs := GetActivitiesByUserId(s, u, limit);
            forall i :: 0 <= i < |xs| ==> xs[i].val.date != date
  {
    var xs := GetActivitiesByUserId(s, u, limit);
    var rows := s.activities.rows;
    forall i | 0 <= i < |xs|
      ensures xs[i].val.date != date
    {
      var k :| 0 <= k < |rows| && rows[k] == xs[i];
      assert !ActivityKey(rows[k], u, date);
    }
  }

  /** A listed stored row for the day is the first listed row dated that day. */
  lemma StoredRowListedFirst(s: Store, u: Id, limit: nat, date: Date)
    requires OneActivityPerDay(s.activities.rows)
    requires GetActivityByUserAndDate(s, u, date).Some?
    requires GetActivityByUserAndDate(s, u, date).value in GetActivitiesByUserId(s, u, limit)
    ensures Find(GetActivitiesByUserId(s, u, limit), DatedOn(date)) == GetActivityByUserAndDate(s, u, date)
  {
    var xs := GetActivitiesByUserId(s, u, limit);
    var stored := GetActivityByUserAndDate(s, u, date).value;
    var rows := s.activities.rows;
    var found := Find(xs, DatedOn(date)).value;
    var i :| 0 <= i < |xs| && xs[i] == found;
    assert found in rows && found.val.userId == u;
    var k1 :| 0 <= k1 < |rows| && rows[k1] == found;
    var k2 :| 0 <= k2 < |rows| && rows[k2] == stored;
    assert ActivityKey(rows[k1], u, date) && ActivityKey(rows[k2], u, date);
    assert k1 == k2;
  }
}

=== FILE: goals_page.dfy ===
/**
 * The goals page: the new-goal form and the payload it sends, the progress
 * bar's percent and its "Goal Achieved" badge, and the inline editor that
 * sends a new `current` when the field loses focus.
 */
module GoalsPage {
  import opened Wrappers
  import opened Schema
  import opened Storage
  import opened Routes
  import opened JsMath
  import opened Reports
  import opened ApiProperties
  import opened ActivityPage

  // ---------------------------------------------------------------------
  // The new-goal form
  // ---------------------------------------------------------------------

  /**
   * The form's fields after `z.coerce.number()`: a number field holds None
   * when the text does not read as a number (NaN, which the schema rejects).
   */
  datatype GoalForm = GoalForm(title: string, current: Option<real>, target: Option<real>,
                               unit: string, iconName: string, color: string)

  /** Validated form values. */
  datatype GoalInput = GoalInput(title: string, current: real, target: real,
                                 unit: string, iconName: string, color: string)

  /** The form's initial values: an empty title, 0 of 100 km, the Target icon and the primary color. */
  const DefaultForm := GoalForm("", Some(0.0), Some(100.0), "km", "Target", "bg-primary")

  /**
   * `goalSchema`: a non-empty title, unit, icon and color, `current >= 0`
   * and `target >= 1`.
   */
  function ValidateGoal(f: GoalForm): (r: Option<GoalInput>)
    ensures r.Some? <==> && |f.title| >= 1 && |f.unit| >= 1 && |f.iconName| >= 1 && |f.color| >= 1
                         && f.current.Some? && f.current.value >= 0.0
                         && f.target.Some? && f.target.value >= 1.0
    ensures r.Some? ==> r.value == GoalInput(f.title, f.current.value, f.target.value, f.unit, f.iconName, f.color)
  {
    if && |f.title| >= 1 && |f.unit| >= 1 && |f.iconName| >= 1 && |f.color| >= 1
       && f.current.Some? && f.current.value >= 0.0
       && f.target.Some? && f.target.value >= 1.0
    then Some(GoalInput(f.title, f.current.value, f.target.value, f.unit, f.iconName, f.color))
    else None
  }

  /** The initial form is rejected only for its empty title. */
  lemma DefaultFormNeedsTitle(title: string)
    ensures ValidateGoal(DefaultForm).None?
    ensures |title| >= 1 ==> ValidateGoal(DefaultForm.(title := title)).Some?
  {
  }

  /** The body `createGoalMutation` posts: the validated values and `inverse: false`. */
  function CreatePayload(v: GoalInput): GoalBody {
    GoalBody(Missing, Given(v.title), Given(v.current), Given(v.target), Given(v.unit),
             Given(false), Given(v.iconName), Given(v.color))
  }

  /**
   * A goal created from this page is stored for the session user with the
   * form's values and is never an inverse goal.
   */
  lemma PageCreatesNormalGoals(st: State, u: Row<User>, v: GoalInput, now: Timestamp)
    requires Valid(st.store) && u in st.store.users.rows
    ensures var (r, st') := CreateGoalRoute(st, u, CreatePayload(v), now);
            && r.status == 200 && r.body.GoalJson? && r.body.goal.Some?
            && r.body.goal.value.val == Goal(u.id, v.title, v.current, v.target, v.unit, false, v.iconName,
                                             v.color, now)
            && r.body.goal.value in st'.store.goals.rows
  {
    var g := ParseGoal(CreatePayload(v), u.id).value;
    assert g.inverse == Some(false);
    assert HasId(st.store.users, u.id) by {
      var k :| 0 <= k < |st.store.users.rows| && st.store.users.rows[k] == u;
    }
  }

  // ---------------------------------------------------------------------
  // Progress percent
  // ---------------------------------------------------------------------

  /**
   * `progressPercent`: `target / current` for an inverse goal and
   * `current / target` otherwise, times 100, clamped to [0, 100]. Division
   * by zero is IEEE division: an infinity clamps to a bound, 0 / 0 stays
   * NaN.
   */
  function ProgressPercent(g: Goal): (r: Num)
    ensures r.Finite? ==> 0.0 <= r.v <= 100.0
    ensures r.NaN? <==> g.current == 0.0 && g.target == 0.0
  {
    if g.inverse then ClampPercentNum(Times100(Divide(g.target, g.current)))
    else ClampPercentNum(Times100(Divide(g.current, g.target)))
  }

  /**
   * With a positive target and a positive current value the progress bar
   * shows the same percent as the reports page.
   */
  lemma PercentsAgreeOnPositive(g: Goal)
    requires g.target > 0.0 && g.current > 0.0
    ensures ProgressPercent(g) == Finite(ReportPercent(g))
  {
    if g.inverse && g.current <= g.target {
      DivAtLeast(g.target, g.current, 1.0);
    }
  }

  /** A normal goal with a positive target shows the same percent on both pages, whatever its current value. */
  lemma PercentsAgreeOnNormalGoals(g: Goal)
    requires !g.inverse && g.target > 0.0
    ensures ProgressPercent(g) == Finite(ReportPercent(g))
  {
  }

  /**
   * Outside those inputs the two pages disagree: a normal goal with target
   * 0 is complete here and at 0 on the reports page, and an inverse goal
   * with a negative current is at 0 here and complete there.
   */
  lemma PercentsDisagreeOutsidePositive()
    ensures var g := Goal(1, "run", 5.0, 0.0, "km", false, "Target", "bg-primary", 0);
            ProgressPercent(g) == Finite(100.0) && ReportPercent(g) == 0.0
    ensures var g := Goal(1, "weight", -5.0, 70.0, "kg", true, "Target", "bg-primary", 0);
            ProgressPercent(g) == Finite(0.0) && ReportPercent(g) == 100.0
  {
  }

  /** `progressPercent >= 100`: the "Goal Achieved" badge. */
  predicate ShowsAchieved(g: Goal) {
    AtLeast(ProgressPercent(g), 100.0)
  }

  /** Whether `a / b`, on doubles, is at least 1. */
  predicate RatioAtLeastOne(a: real, b: real) {
    (b > 0.0 && a >= b) || (b < 0.0 && a <= b) || (b == 0.0 && a > 0.0)
  }

  lemma RatioAtLeastOneIff(a: real, b: real)
    ensures AtLeast(ClampPercentNum(Times100(Divide(a, b))), 100.0) <==> RatioAtLeastOne(a, b)
  {
    if b > 0.0 {
      DivAtLeast(a, b, 1.0);
    } else if b < 0.0 {
      assert a / b == (-a) / (-b);
      DivAtLeast(-a, -b, 1.0);
    }
  }

  /**
   * The badge shows exactly when the ratio the bar divides reaches 1: the
   * current value over the target, or the target over the current value
   * for an inverse goal, with a positive value over zero counting as
   * reached.
   */
  lemma ShowsAchievedIff(g: Goal)
    ensures ShowsAchieved(g) <==> if g.inverse then RatioAtLeastOne(g.target, g.current)
                                  else RatioAtLeastOne(g.current, g.target)
  {
    if g.inverse {
      RatioAtLeastOneIff(g.target, g.current);
    } else {
      RatioAtLeastOneIff(g.current, g.target);
    }
  }

  // ---------------------------------------------------------------------
  // Inline progress update
  // ---------------------------------------------------------------------

  /** A decimal digit character. */
  predicate IsDigitChar(c: char) {
    '0' <= c <= '9'
  }

  /** The characters `String` writes for a run of digits. */
  function DigitText(ds: seq<Digit>): (s: string)
    ensures |s| == |ds|
  {
    seq(|ds|, i requires 0 <= i < |ds| => (48 + ds[i] as int) as char)
  }

  /** The longest run of decimal digits the text starts with, as digit values. */
  function LeadingDigits(s: string): (ds: seq<Digit>)
    ensures |ds| <= |s|
    decreases |s|
  {
    if |s| == 0 || !IsDigitChar(s[0]) then [] else [s[0] as int - 48] + LeadingDigits(s[1..])
  }

  /**
   * `parseInt(text)` for the value of an `type="number"` input, which is
   * empty or a valid floating-point number in the sense of the HTML
   * standard (no white space, no `0x` prefix): an optional sign, then the
   * longest run of decimal digits, read in base 10; NaN (None) when that
   * run is empty. Everything after the run, a fraction or an exponent, is
   * dropped.
   */
  function ParseInt(text: string): Option<int> {
    var signed := |text| > 0 && (text[0] == '-' || text[0] == '+');
    var ds := LeadingDigits(if signed then text[1..] else text);
    if |ds| == 0 then None
    else if signed && text[0] == '-' then Some(-(DigitsValue(ds) as int))
    else Some(DigitsValue(ds))
  }

  /**
   * A number written in plain decimal notation, as `String` writes numbers
   * from 1e-6 up to 1e21: the integer digits, then a point and the
   * fraction's digits when there is a fraction.
   */
  function DecimalText(n: nat, frac: seq<Digit>): string {
    DigitText(DecimalDigits(n)) + (if |frac| == 0 then "" else "." + DigitText(frac))
  }

  /** The value `DecimalText(n, frac)` denotes. */
  function DecimalValue(n: nat, frac: seq<Digit>): real {
    n as real + DigitsValue(frac) as real / Pow10(|frac|) as real
  }

  /** Digits followed by anything that does not start with a digit lead with exactly those digits. */
  lemma {:induction false} LeadingDigitsOfText(ds: seq<Digit>, tail: string)
    requires |tail| == 0 || !IsDigitChar(tail[0])
    ensures LeadingDigits(DigitText(ds) + tail) == ds
    decreases |ds|
  {
    var s := DigitText(ds) + tail;
    if |ds| > 0 {
      assert s[0] == (48 + ds[0] as int) as char;
      assert s[1..] == DigitText(ds[1..]) + tail;
      LeadingDigitsOfText(ds[1..], tail);
      assert [ds[0]] + ds[1..] == ds;
    } else {
      assert s == tail;
    }
  }

  /**
   * `parseInt` of a decimal text gives its integer part, truncated toward
   * zero: the digits before the point, with the minus sign kept.
   */
  lemma ParseIntReadsIntegerPart(n: nat, frac: seq<Digit>)
    ensures ParseInt(DecimalText(n, frac)) == Some(n)
    ensures ParseInt("-" + DecimalText(n, frac)) == Some(-(n as int))
  {
    var tail := if |frac| == 0 then "" else "." + DigitText(frac);
    LeadingDigitsOfText(DecimalDigits(n), tail);
    DecimalDigitsRoundTrip(n);
    var t := DecimalText(n, frac);
    assert t[0] == (48 + DecimalDigits(n)[0] as int) as char;
    assert ("-" + t)[1..] == t;
  }

  /** `parseInt` gives NaN for an empty field and for a text with no leading digit, such as ".5". */
  lemma ParseIntNaN(frac: seq<Digit>)
    ensures ParseInt("") == None
    ensures |frac| > 0 ==> ParseInt("." + DigitText(frac)) == None
  {
  }

  /**
   * The blur handler: `parseInt` of the field's text; a request is sent
   * only for a number that differs from the stored `current`.
   */
  function BlurUpdate(g: Row<Goal>, text: string): (r: Option<Request>)
    ensures r.Some? <==> ParseInt(text).Some? && ParseInt(text).value as real != g.val.current
    ensures r.Some? ==> r.value == UpdateGoal(g.id, Given(ParseInt(text).value as real))
  {
    match ParseInt(text)
    case None => None
    case Some(n) => if n as real != g.val.current then Some(UpdateGoal(g.id, Given(n as real))) else None
  }

  /**
   * Leaving a field that holds a decimal text of value `x >= 0`, typed or
   * shown by `defaultValue`, sends the integer part of `x`, and sends
   * anything exactly when `x` is not the stored `current` or has a
   * fraction. So an untouched blur on a goal whose `current` has a
   * fraction rewrites it to its integer part.
   */
  lemma BlurSendsIntegerPart(g: Row<Goal>, n: nat, frac: seq<Digit>)
    ensures BlurUpdate(g, DecimalText(n, frac)).Some? <==> n as real != g.val.current
    ensures BlurUpdate(g, DecimalText(n, frac)).Some? ==>
              BlurUpdate(g, DecimalText(n, frac)).value == UpdateGoal(g.id, Given(n as real))
    ensures g.val.current == DecimalValue(n, frac) ==>
              (BlurUpdate(g, DecimalText(n, frac)).Some? <==> DigitsValue(frac) > 0)
  {
    ParseIntReadsIntegerPart(n, frac);
    if g.val.current == DecimalValue(n, frac) && DigitsValue(frac) > 0 {
      assert Pow10(|frac|) > 0;
      assert DigitsValue(frac) as real / Pow10(|frac|) as real > 0.0;
    }
  }

  /** A goal at 2.5 whose field is left untouched is rewritten to 2. */
  lemma UntouchedBlurTruncates(g: Row<Goal>)
    requires g.val.current == 2.5
    ensures BlurUpdate(g, "2.5") == Some(UpdateGoal(g.id, Given(2.0)))
  {
    var frac: seq<Digit> := [5];
    assert DecimalText(2, frac) == "2.5";
    assert DigitsValue(frac) == 5 by {
      assert frac[..0] == [];
    }
    assert DecimalValue(2, frac) == 2.5;
    BlurSendsIntegerPart(g, 2, frac);
  }

  /** The state after a blur: the request, if one is sent, handled by the server. */
  function AfterBlur(st: State, g: Row<Goal>, text: string, t: Timestamp): (st': State)
    requires Valid(st.store)
  {
    match BlurUpdate(g, text)
    case None => st
    case Some(req) => Handle(st, req, t).1
  }

  /**
   * After a blur on goal `i` its `current` is what `parseInt` reads from the
   * text, or stays as it was when the text is not a number; its other
   * fields and every other goal are untouched.
   */
  lemma BlurSetsCurrent(st: State, i: nat, text: string, t: Timestamp)
    requires Valid(st.store) && SessionUser(st).Some? && i < |st.store.goals.rows|
    ensures var g := st.store.goals.rows[i];
            var st' := AfterBlur(st, g, text, t);
            && |st'.store.goals.rows| == |st.store.goals.rows|
            && st'.store.goals.rows[i] ==
                 (if ParseInt(text).Some? then Row(g.id, g.val.(current := ParseInt(text).value as real)) else g)
            && (forall j :: 0 <= j < |st.store.goals.rows| && st.store.goals.rows[j].id != g.id ==>
                  st'.store.goals.rows[j] == st.store.goals.rows[j])
  {
    var g := st.store.goals.rows[i];
    match BlurUpdate(g, text)
    case None =>
      if ParseInt(text).Some? {
        assert ParseInt(text).value as real == g.val.current;
        assert g.val.(current := ParseInt(text).value as real) == g.val;
      }
    case Some(req) =>
      HandleGuarded(st, req, t);
  }
}

=== FILE: history.dfy ===
/**
 * The history page: per-workout totals (sets, reps, volume and a calorie
 * estimate), workouts grouped by month in order of first appearance, the
 * total number of exercises and the count for the current month.
 */
module History {
  import opened Wrappers
  import opened Seqs
  import opened Schema
  import opened Storage
  import opened JsMath

  // ---------------------------------------------------------------------
  // Workout totals
  // ---------------------------------------------------------------------

  function SetsOf(e: Row<Exercise>): real {
    e.val.sets as real
  }

  function RepsOf(e: Row<Exercise>): real {
    (e.val.sets * e.val.reps) as real
  }

  /** Volume: sets × reps × weight. */
  function VolumeOf(e: Row<Exercise>): real {
    (e.val.sets * e.val.reps) as real * e.val.weight
  }

  /** The calorie estimate: 5% of the volume, rounded. */
  const CaloriesPerVolume: real := 0.05

  datatype WorkoutStats = WorkoutStats(totalSets: int, totalReps: int, totalWeight: real, estimatedCalories: int)

  /**
   * `calculateWorkoutStats`: three running sums over the exercises, then
   * the calorie estimate from the volume.
   */
  method CalculateWorkoutStats(exs: seq<Row<Exercise>>) returns (st: WorkoutStats)
    ensures st.totalSets as real == Sum(exs, SetsOf)
    ensures st.totalReps as real == Sum(exs, RepsOf)
    ensures st.totalWeight == Sum(exs, VolumeOf)
    ensures st.estimatedCalories == Round(Sum(exs, VolumeOf) * CaloriesPerVolume)
  {
    var sets, reps, weight := 0, 0, 0.0;
    var i := 0;
    while i < |exs|
      invariant 0 <= i <= |exs|
      invariant sets as real == Sum(exs[..i], SetsOf)
      invariant reps as real == Sum(exs[..i], RepsOf)
      invariant weight == Sum(exs[..i], VolumeOf)
    {
      assert exs[..i + 1][..i] == exs[..i];
      sets := sets + exs[i].val.sets;
      reps := reps + exs[i].val.sets * exs[i].val.reps;
      weight := weight + (exs[i].val.sets * exs[i].val.reps) as real * exs[i].val.weight;
      i := i + 1;
    }
    assert exs[..|exs|] == exs;
    st := WorkoutStats(sets, reps, weight, Round(weight * CaloriesPerVolume));
  }

  /** The calorie estimate as the page computes it, as a function of the exercises. */
  function EstimatedCalories(exs: seq<Row<Exercise>>): int {
    Round(Sum(exs, VolumeOf) * CaloriesPerVolume)
  }

  /** With at least one rep per set there are at least as many reps as sets. */
  lemma RepsAtLeastSets(exs: seq<Row<Exercise>>)
    requires forall i :: 0 <= i < |exs| ==> exs[i].val.sets >= 0 && exs[i].val.reps >= 1
    ensures Sum(exs, RepsOf) >= Sum(exs, SetsOf)
  {
    forall i | 0 <= i < |exs|
      ensures SetsOf(exs[i]) <= RepsOf(exs[i])
    {
      var e := exs[i].val;
      assert e.sets * e.reps - e.sets == e.sets * (e.reps - 1);
    }
    SumMonotone(exs, SetsOf, RepsOf);
  }

  /** Body-weight exercises only (every weight 0): no volume and no calories. */
  lemma ZeroWeightZeroVolume(exs: seq<Row<Exercise>>)
    requires forall i :: 0 <= i < |exs| ==> exs[i].val.weight == 0.0
    ensures Sum(exs, VolumeOf) == 0.0
    ensures EstimatedCalories(exs) == 0
  {
    SumZero(exs, VolumeOf);
  }

  /** With no negative sets, reps or weights every total is non-negative. */
  lemma StatsNonNegative(exs: seq<Row<Exercise>>)
    requires forall i :: 0 <= i < |exs| ==> exs[i].val.sets >= 0 && exs[i].val.reps >= 0 && exs[i].val.weight >= 0.0
    ensures Sum(exs, SetsOf) >= 0.0 && Sum(exs, RepsOf) >= 0.0 && Sum(exs, VolumeOf) >= 0.0
    ensures EstimatedCalories(exs) >= 0
  {
    SumNonNegative(exs, SetsOf);
    SumNonNegative(exs, RepsOf);
    SumNonNegative(exs, VolumeOf);
    RoundSign(Sum(exs, VolumeOf) * CaloriesPerVolume);
  }

  // ---------------------------------------------------------------------
  // Grouping by month
  // ---------------------------------------------------------------------

  /** Whether an item's key is `k`. */
  function HasKey<T, K(==)>(key: T -> K, k: K): T -> bool {
    (x: T) => key(x) == k
  }

  /** Whether a group's key is `k`. */
  function GroupKeyed<T, K(==)>(k: K): ((K, seq<T>)) -> bool {
    (g: (K, seq<T>)) => g.0 == k
  }

  /** One step of the `reduce`: push `x` onto its key's group, opening the group if it is new. */
  function AddTo<T, K(==)>(groups: seq<(K, seq<T>)>, k: K, x: T): (r: seq<(K, seq<T>)>)
    ensures |groups| <= |r| <= |groups| + 1
  {
    match FindIndex(groups, GroupKeyed(k))
    case Some(i) => groups[i := (k, groups[i].1 + [x])]
    case None => groups + [(k, [x])]
  }

  /**
   * `groupedWorkouts`: items grouped by key, groups in order of their key's
   * first appearance (the insertion order `Object.entries` reports for
   * non-numeric keys).
   */
  function GroupBy<T, K(==)>(xs: seq<T>, key: T -> K): seq<(K, seq<T>)> {
    if |xs| == 0 then []
    else AddTo(GroupBy(xs[..|xs| - 1], key), key(xs[|xs| - 1]), xs[|xs| - 1])
  }

  ghost predicate DistinctKeys<T, K>(groups: seq<(K, seq<T>)>) {
    forall i, j :: 0 <= i < j < |groups| ==> groups[i].0 != groups[j].0
  }

  /** Each group holds exactly the items with its key, in list order. */
  ghost predicate GroupsAreFilters<T, K>(groups: seq<(K, seq<T>)>, xs: seq<T>, key: T -> K) {
    forall i :: 0 <= i < |groups| ==> groups[i].1 == Filter(xs, HasKey(key, groups[i].0))
  }

  /** The groups' keys, in group order. */
  function Keys<T, K>(groups: seq<(K, seq<T>)>): (ks: seq<K>)
    ensures |ks| == |groups| && forall i :: 0 <= i < |groups| ==> ks[i] == groups[i].0
  {
    seq(|groups|, i requires 0 <= i < |groups| => groups[i].0)
  }

  /** Every item's key has a group. */
  ghost predicate KeysCovered<T, K>(groups: seq<(K, seq<T>)>, xs: seq<T>, key: T -> K) {
    forall j :: 0 <= j < |xs| ==> key(xs[j]) in Keys(groups)
  }

  /** What grouping promises: distinct keys, each group exactly the items with its key, every item's key present. */
  ghost predicate GroupsOf<T, K>(groups: seq<(K, seq<T>)>, xs: seq<T>, key: T -> K) {
    DistinctKeys(groups) && GroupsAreFilters(groups, xs, key) && KeysCovered(groups, xs, key)
  }

  lemma FilterSnoc<T>(xs: seq<T>, x: T, p: T -> bool)
    ensures Filter(xs + [x], p) == Filter(xs, p) + (if p(x) then [x] else [])
  {
    FilterConcat(xs, [x], p);
    assert [x][1..] == [];
  }

  /** Adding an item whose key already has a group appends it to that group. */
  lemma AddToExisting<T, K>(groups: seq<(K, seq<T>)>, xs: seq<T>, x: T, key: T -> K, m: nat)
    requires GroupsOf(groups, xs, key)
    requires m < |groups| && groups[m].0 == key(x)
    ensures GroupsOf(groups[m := (key(x), groups[m].1 + [x])], xs + [x], key)
  {
    var r := groups[m := (key(x), groups[m].1 + [x])];
    assert forall i :: 0 <= i < |r| ==> r[i].0 == groups[i].0;
    ExistingFilters(groups, xs, x, key, m);
    ExistingCovered(groups, xs, x, key, m);
  }

  lemma ExistingFilters<T, K>(groups: seq<(K, seq<T>)>, xs: seq<T>, x: T, key: T -> K, m: nat)
    requires DistinctKeys(groups) && GroupsAreFilters(groups, xs, key)
    requires m < |groups| && groups[m].0 == key(x)
    ensures GroupsAreFilters(groups[m := (key(x), groups[m].1 + [x])], xs + [x], key)
  {
    var r := groups[m := (key(x), groups[m].1 + [x])];
    forall i | 0 <= i < |r|
      ensures r[i].1 == Filter(xs + [x], HasKey(key, r[i].0))
    {
      FilterSnoc(xs, x, HasKey(key, r[i].0));
    }
  }

  lemma ExistingCovered<T, K>(groups: seq<(K, seq<T>)>, xs: seq<T>, x: T, key: T -> K, m: nat)
    requires KeysCovered(groups, xs, key)
    requires m < |groups| && groups[m].0 == key(x)
    ensures KeysCovered(groups[m := (key(x), groups[m].1 + [x])], xs + [x], key)
  {
    var r := groups[m := (key(x), groups[m].1 + [x])];
    var ys := xs + [x];
    forall j | 0 <= j < |ys|
      ensures key(ys[j]) in Keys(r)
    {
      if j < |xs| {
        assert ys[j] == xs[j];
        var i :| 0 <= i < |groups| && Keys(groups)[i] == key(xs[j]);
        assert Keys(r)[i] == key(ys[j]);
      } else {
        assert Keys(r)[m] == key(ys[j]);
      }
    }
  }

  /** Adding an item whose key has no group opens a new group at the end. */
  lemma AddToNew<T, K>(groups: seq<(K, seq<T>)>, xs: seq<T>, x: T, key: T -> K)
    requires GroupsOf(groups, xs, key)
    requires forall i :: 0 <= i < |groups| ==> groups[i].0 != key(x)
    ensures GroupsOf(groups + [(key(x), [x])], xs + [x], key)
  {
    NewFilters(groups, xs, x, key);
    NewCovered(groups, xs, x, key);
  }

  lemma NewFilters<T, K>(groups: seq<(K, seq<T>)>, xs: seq<T>, x: T, key: T -> K)
    requires GroupsAreFilters(groups, xs, key) && KeysCovered(groups, xs, key)
    requires forall i :: 0 <= i < |groups| ==> groups[i].0 != key(x)
    ensures GroupsAreFilters(groups + [(key(x), [x])], xs + [x], key)
  {
    var r := groups + [(key(x), [x])];
    forall i | 0 <= i < |r|
      ensures r[i].1 == Filter(xs + [x], HasKey(key, r[i].0))
    {
      FilterSnoc(xs, x, HasKey(key, r[i].0));
      if i == |groups| {
        forall j | 0 <= j < |xs|
          ensures !HasKey(key, key(x))(xs[j])
        {
          var m :| 0 <= m < |groups| && Keys(groups)[m] == key(xs[j]);
        }
        FilterNone(xs, HasKey(key, key(x)));
      }
    }
  }

  lemma NewCovered<T, K>(groups: seq<(K, seq<T>)>, xs: seq<T>, x: T, key: T -> K)
    requires KeysCovered(groups, xs, key)
    ensures KeysCovered(groups + [(key(x), [x])], xs + [x], key)
  {
    var r := groups + [(key(x), [x])];
    var ys := xs + [x];
    forall j | 0 <= j < |ys|
      ensures key(ys[j]) in Keys(r)
    {
      if j < |xs| {
        assert ys[j] == xs[j];
        var i :| 0 <= i < |groups| && Keys(groups)[i] == key(xs[j]);
        assert Keys(r)[i] == key(ys[j]);
      } else {
        assert Keys(r)[|groups|] == key(ys[j]);
      }
    }
  }

  /** Adding one item to correct groups gives correct groups. */
  lemma AddToKeepsGroups<T, K>(groups: seq<(K, seq<T>)>, xs: seq<T>, x: T, key: T -> K)
    requires GroupsOf(groups, xs, key)
    ensures GroupsOf(AddTo(groups, key(x), x), xs + [x], key)
  {
    match FindIndex(groups, GroupKeyed(key(x)))
    case Some(m) => AddToExisting(groups, xs, x, key, m);
    case None => AddToNew(groups, xs, x, key);
  }

  /**
   * Month grouping places every workout in the one group of its month, and
   * each group holds exactly that month's workouts in list order.
   */
  lemma {:induction false} GroupByGroups<T, K>(xs: seq<T>, key: T -> K)
    ensures GroupsOf(GroupBy(xs, key), xs, key)
    decreases |xs|
  {
    if |xs| > 0 {
      var init, x := xs[..|xs| - 1], xs[|xs| - 1];
      assert xs == init + [x];
      GroupByGroups(init, key);
      assert GroupBy(xs, key) == AddTo(GroupBy(init, key), key(x), x);
      AddToKeepsGroups(GroupBy(init, key), init, x, key);
    }
  }

  // ---------------------------------------------------------------------
  // Counts
  // ---------------------------------------------------------------------

  /** `workouts.reduce((sum, w) => sum + w.exercises.length, 0)`. */
  function ExerciseCount(ws: seq<WithExercises>): nat {
    if |ws| == 0 then 0 else ExerciseCount(ws[..|ws| - 1]) + |ws[|ws| - 1].exercises|
  }

  /** Every exercise of every listed workout, in order. */
  function AllExercises(ws: seq<WithExercises>): seq<Row<Exercise>> {
    if |ws| == 0 then [] else ws[0].exercises + AllExercises(ws[1..])
  }

  /** The exercise count is the number of exercises across the listed workouts. */
  lemma {:induction false} ExerciseCountIsTotal(ws: seq<WithExercises>)
    ensures ExerciseCount(ws) == |AllExercises(ws)|
    decreases |ws|
  {
    if |ws| > 0 {
      ExerciseCountIsTotal(ws[1..]);
      ExerciseCountIsTotal(ws[..|ws| - 1]);
      if |ws| > 1 {
        ExerciseCountIsTotal(ws[1..][..|ws| - 2]);
        assert ws[1..][..|ws| - 2] == ws[..|ws| - 1][1..];
        ExerciseCountIsTotal(ws[..|ws| - 1][1..]);
      }
      ExerciseCountSplit(ws);
    }
  }

  /** Peeling the first workout off the count. */
  lemma {:induction false} ExerciseCountSplit(ws: seq<WithExercises>)
    requires |ws| > 0
    ensures ExerciseCount(ws) == |ws[0].exercises| + ExerciseCount(ws[1..])
    decreases |ws|
  {
    if |ws| > 1 {
      ExerciseCountSplit(ws[..|ws| - 1]);
      assert ws[..|ws| - 1][1..] == ws[1..][..|ws| - 2];
    }
  }

  /** The month key of a workout's date (`format(date, "MMMM yyyy")`, abstracted to a number). */
  function WorkoutMonth(monthOf: Date -> int): WithExercises -> int {
    (w: WithExercises) => monthOf(w.workout.val.date)
  }

  /** "This Month": the workouts whose month is today's month. */
  function ThisMonthCount(ws: seq<WithExercises>, monthOf: Date -> int, today: Date): nat {
    |Filter(ws, HasKey(WorkoutMonth(monthOf), monthOf(today)))|
  }

  /**
   * The "This Month" count is the size of today's month group in the
   * grouped list, and 0 when that list has no group for today's month.
   */
  lemma ThisMonthIsItsGroup(ws: seq<WithExercises>, monthOf: Date -> int, today: Date)
    ensures var groups := GroupBy(ws, WorkoutMonth(monthOf));
            && (forall i :: 0 <= i < |groups| && groups[i].0 == monthOf(today) ==>
                  ThisMonthCount(ws, monthOf, today) == |groups[i].1|)
            && ((forall i :: 0 <= i < |groups| ==> groups[i].0 != monthOf(today)) ==>
                  ThisMonthCount(ws, monthOf, today) == 0)
  {
    var key := WorkoutMonth(monthOf);
    var groups := GroupBy(ws, key);
    GroupByGroups(ws, key);
    if forall i :: 0 <= i < |groups| ==> groups[i].0 != monthOf(today) {
      forall j | 0 <= j < |ws|
        ensures !HasKey(key, monthOf(today))(ws[j])
      {
        var m :| 0 <= m < |groups| && Keys(groups)[m] == key(ws[j]);
      }
      FilterNone(ws, HasKey(key, monthOf(today)));
    }
  }
}

=== FILE: js_math.dfy ===
/**
 * The few JavaScript number operations the pages rely on, over exact
 * arithmetic: `Math.round`, `Math.min`/`Math.max` clamping, and (for the
 * one place where a division by zero reaches the screen) IEEE division
 * with its infinities and NaN.
 */
module JsMath {

  /** `Math.round`: the nearest integer, halves rounded up. */
  function Round(x: real): (r: int)
    ensures r as real <= x + 0.5 < r as real + 1.0
  {
    (x + 0.5).Floor
  }

  lemma RoundMonotone(x: real, y: real)
    requires x <= y
    ensures Round(x) <= Round(y)
  {
  }

  /** Rounding keeps the sign: non-negative stays non-negative, non-positive stays non-positive. */
  lemma RoundSign(x: real)
    ensures x >= 0.0 ==> Round(x) >= 0
    ensures x <= 0.0 ==> Round(x) <= 0
    ensures x > 0.5 ==> Round(x) > 0
  {
  }

  lemma RoundOfInt(n: int)
    ensures Round(n as real) == n
  {
  }

  /** Dividing by a positive number keeps comparisons: `a / b >= k` iff `a >= k * b`. */
  lemma DivAtLeast(a: real, b: real, k: real)
    requires b > 0.0
    ensures a / b >= k <==> a >= k * b
  {
    var q := a / b;
    assert q * b == a;
    assert (q - k) * b == a - k * b;
    if q >= k {
      assert (q - k) * b >= 0.0;
    } else {
      assert (q - k) * b < 0.0;
    }
  }

  /** Dividing by a positive number keeps comparisons: `a / b <= k` iff `a <= k * b`. */
  lemma DivAtMost(a: real, b: real, k: real)
    requires b > 0.0
    ensures a / b <= k <==> a <= k * b
  {
    var q := a / b;
    assert q * b == a;
    assert (q - k) * b == a - k * b;
    if q <= k {
      assert (k - q) * b >= 0.0;
    } else {
      assert (q - k) * b > 0.0;
    }
  }

  function Min(a: real, b: real): real {
    if a <= b then a else b
  }

  function Max(a: real, b: real): real {
    if a >= b then a else b
  }

  /** `Math.min(100, Math.max(0, x))`. */
  function ClampPercent(x: real): (r: real)
    ensures 0.0 <= r <= 100.0
    ensures 0.0 <= x <= 100.0 ==> r == x
    ensures x >= 100.0 ==> r == 100.0
    ensures x <= 0.0 ==> r == 0.0
  {
    Min(100.0, Max(0.0, x))
  }

  /** An IEEE double, idealised: exact reals plus the non-finite values. */
  datatype Num = Finite(v: real) | PosInfinity | NegInfinity | NaN

  /** `a / b` on doubles: division by zero gives an infinity or NaN. */
  function Divide(a: real, b: real): (r: Num)
    ensures b != 0.0 ==> r == Finite(a / b)
    ensures b == 0.0 ==> (r.PosInfinity? <==> a > 0.0) && (r.NegInfinity? <==> a < 0.0) && (r.NaN? <==> a == 0.0)
  {
    if b != 0.0 then Finite(a / b)
    else if a > 0.0 then PosInfinity
    else if a < 0.0 then NegInfinity
    else NaN
  }

  /** `n * 100` on doubles. */
  function Times100(n: Num): Num {
    match n
    case Finite(v) => Finite(v * 100.0)
    case _ => n
  }

  /**
   * `Math.min(100, Math.max(0, n))` on doubles: infinities clamp to the
   * bounds, NaN passes through both.
   */
  function ClampPercentNum(n: Num): (r: Num)
    ensures r.Finite? <==> !n.NaN?
    ensures r.Finite? ==> 0.0 <= r.v <= 100.0
    ensures n.Finite? ==> r == Finite(ClampPercent(n.v))
  {
    match n
    case Finite(v) => Finite(ClampPercent(v))
    case PosInfinity => Finite(100.0)
    case NegInfinity => Finite(0.0)
    case NaN => NaN
  }

  /** `n >= c` on doubles: false for NaN. */
  predicate AtLeast(n: Num, c: real) {
    match n
    case Finite(v) => v >= c
    case PosInfinity => true
    case NegInfinity => false
    case NaN => false
  }
}

=== FILE: reports.dfy ===
/**
 * The reports page: activity totals and averages over a period, the change
 * against the period before it and its trend arrow, and the completion
 * percent of every goal.
 */
module Reports {
  import opened Wrappers
  import opened Seqs
  import opened Schema
  import opened Storage
  import opened JsMath

  // ---------------------------------------------------------------------
  // Field sums and averages
  // ---------------------------------------------------------------------

  /** The numeric activity columns the page sums. */
  datatype Column = Steps | Calories | Distance | ActiveTime

  /** `item[field] || 0`: the columns are never null, so this is the value. */
  function ValueOf(c: Column): Row<Activity> -> real {
    (a: Row<Activity>) =>
      match c
      case Steps => a.val.steps as real
      case Calories => a.val.calories as real
      case Distance => a.val.distance
      case ActiveTime => a.val.activeTime as real
  }

  /** `sumField`: the column's values added up, 0 for an empty list. */
  function SumField(xs: seq<Row<Activity>>, c: Column): real {
    Sum(xs, ValueOf(c))
  }

  /** The sum over a concatenation is the sum of the parts. */
  lemma SumFieldConcat(xs: seq<Row<Activity>>, ys: seq<Row<Activity>>, c: Column)
    ensures SumField([], c) == 0.0
    ensures SumField(xs + ys, c) == SumField(xs, c) + SumField(ys, c)
  {
    SumConcat(xs, ys, ValueOf(c));
  }

  /** `avgField`: 0 for an empty list, otherwise the mean rounded to the nearest integer. */
  function AvgField(xs: seq<Row<Activity>>, c: Column): (r: int)
    ensures |xs| == 0 ==> r == 0
    ensures |xs| > 0 ==> r as real - 0.5 <= SumField(xs, c) / |xs| as real < r as real + 0.5
  {
    if |xs| == 0 then 0 else Round(SumField(xs, c) / |xs| as real)
  }

  /** The average lies between the (rounded) smallest and largest value. */
  lemma AvgFieldWithin(xs: seq<Row<Activity>>, c: Column, lo: real, hi: real)
    requires |xs| > 0
    requires forall i :: 0 <= i < |xs| ==> lo <= ValueOf(c)(xs[i]) <= hi
    ensures Round(lo) <= AvgField(xs, c) <= Round(hi)
  {
    var n := |xs| as real;
    var sum := SumField(xs, c);
    var mean := sum / n;
    assert lo <= mean <= hi by {
      SumBetween(xs, ValueOf(c), lo, hi);
      DivAtLeast(sum, n, lo);
      DivAtMost(sum, n, hi);
    }
    assert AvgField(xs, c) == Round(mean);
    RoundMonotone(lo, mean);
    RoundMonotone(mean, hi);
  }

  // ---------------------------------------------------------------------
  // Periods
  // ---------------------------------------------------------------------

  datatype Period = Week | Month

  /** A closed range of days, as `isWithinInterval` tests it. */
  datatype Window = Window(first: Date, last: Date)

  predicate Within(d: Date, w: Window) {
    w.first <= d <= w.last
  }

  /**
   * The period before `current`: from 7 (week) or 30 (month) days before
   * its first day up to the day before it. For a month the length is 30
   * days whatever the length of the previous calendar month.
   */
  function PreviousWindow(p: Period, current: Window): Window {
    Window(current.first - (if p == Week then 7 else 30), current.first - 1)
  }

  /** Whether an item is dated inside `w`. */
  function DatedWithin<T>(date: T -> Date, w: Window): T -> bool {
    (x: T) => Within(date(x), w)
  }

  /** The items of `xs` dated inside `w`, in list order. */
  function InWindow<T>(xs: seq<T>, date: T -> Date, w: Window): (r: seq<T>)
    ensures forall i :: 0 <= i < |r| ==> r[i] in xs && Within(date(r[i]), w)
    ensures forall i :: 0 <= i < |xs| && Within(date(xs[i]), w) ==> xs[i] in r
  {
    Filter(xs, DatedWithin(date, w))
  }

  /**
   * The previous window ends the day before the current one starts and
   * spans 7 or 30 days, so no item is counted in both: the two selections
   * together take each item of the list at most once.
   */
  lemma PeriodsDoNotOverlap<T>(p: Period, current: Window, xs: seq<T>, date: T -> Date)
    ensures PreviousWindow(p, current).last == current.first - 1
    ensures PreviousWindow(p, current).last - PreviousWindow(p, current).first + 1 == (if p == Week then 7 else 30)
    ensures multiset(InWindow(xs, date, current)) + multiset(InWindow(xs, date, PreviousWindow(p, current)))
              <= multiset(xs)
  {
    FilterDisjoint(xs, DatedWithin(date, current), DatedWithin(date, PreviousWindow(p, current)));
  }

  /** A total for the current period and for the one before it. */
  datatype Comparison = Comparison(current: real, previous: real)

  datatype Stats = Stats(steps: Comparison, calories: Comparison, distance: Comparison, workouts: Comparison)

  function ActivityDay(a: Row<Activity>): Date {
    a.val.date
  }

  function WorkoutDay(w: WithExercises): Date {
    w.workout.val.date
  }

  /**
   * `stats`: column sums and workout counts for both windows. Each sum
   * counts exactly the activities dated inside its window, and no workout
   * is counted in both periods.
   */
  function PeriodStats(activities: seq<Row<Activity>>, workouts: seq<WithExercises>, p: Period, current: Window)
    : (r: Stats)
    ensures var previous := PreviousWindow(p, current);
      && r.steps.current == Sum(activities, Masked(DatedWithin(ActivityDay, current), ValueOf(Steps)))
      && r.steps.previous == Sum(activities, Masked(DatedWithin(ActivityDay, previous), ValueOf(Steps)))
      && r.calories.current == Sum(activities, Masked(DatedWithin(ActivityDay, current), ValueOf(Calories)))
      && r.calories.previous == Sum(activities, Masked(DatedWithin(ActivityDay, previous), ValueOf(Calories)))
      && r.distance.current == Sum(activities, Masked(DatedWithin(ActivityDay, current), ValueOf(Distance)))
      && r.distance.previous == Sum(activities, Masked(DatedWithin(ActivityDay, previous), ValueOf(Distance)))
    ensures 0.0 <= r.workouts.current && 0.0 <= r.workouts.previous
    ensures r.workouts.current + r.workouts.previous <= |workouts| as real
  {
    var previous := PreviousWindow(p, current);
    var nowActs := InWindow(activities, ActivityDay, current);
    var prevActs := InWindow(activities, ActivityDay, previous);
    var nowWorkouts := InWindow(workouts, WorkoutDay, current);
    var prevWorkouts := InWindow(workouts, WorkoutDay, previous);
    WindowSumMasksOthers(activities, Steps, current);
    WindowSumMasksOthers(activities, Steps, previous);
    WindowSumMasksOthers(activities, Calories, current);
    WindowSumMasksOthers(activities, Calories, previous);
    WindowSumMasksOthers(activities, Distance, current);
    WindowSumMasksOthers(activities, Distance, previous);
    PeriodsDoNotOverlap(p, current, workouts, WorkoutDay);
    MultisetSizeMonotone(multiset(nowWorkouts) + multiset(prevWorkouts), multiset(workouts));
    Stats(Comparison(SumField(nowActs, Steps), SumField(prevActs, Steps)),
          Comparison(SumField(nowActs, Calories), SumField(prevActs, Calories)),
          Comparison(SumField(nowActs, Distance), SumField(prevActs, Distance)),
          Comparison(|nowWorkouts| as real, |prevWorkouts| as real))
  }

  /**
   * A window's column sum equals the sum over the whole list with every
   * activity outside the window counted as 0.
   */
  lemma WindowSumMasksOthers(xs: seq<Row<Activity>>, c: Column, w: Window)
    ensures SumField(InWindow(xs, ActivityDay, w), c)
            == Sum(xs, Masked(DatedWithin(ActivityDay, w), ValueOf(c)))
  {
    SumFilter(xs, DatedWithin(ActivityDay, w), ValueOf(c));
  }

  // ---------------------------------------------------------------------
  // Change and trend
  // ---------------------------------------------------------------------

  /**
   * `getChange`: the change against the previous total in whole percent;
   * from a previous total of 0 it is 100 for any gain and 0 otherwise.
   */
  function GetChange(current: real, previous: real): (r: int)
    ensures previous == 0.0 ==> (r == 100 <==> current > 0.0) && (r == 0 <==> current <= 0.0)
    ensures previous != 0.0 ==> r as real - 0.5 <= (current - previous) / previous * 100.0 < r as real + 0.5
  {
    if previous == 0.0 then (if current > 0.0 then 100 else 0)
    else Round((current - previous) / previous * 100.0)
  }

  /**
   * From a positive previous total the change has the sign of the
   * difference: no gain never shows as a rise, no loss never as a fall, and
   * an unchanged total shows 0.
   */
  lemma ChangeFollowsDifference(current: real, previous: real)
    requires previous > 0.0
    ensures current >= previous ==> GetChange(current, previous) >= 0
    ensures current <= previous ==> GetChange(current, previous) <= 0
    ensures GetChange(previous, previous) == 0
    ensures current >= 0.0 ==> GetChange(current, previous) >= -100
  {
    var d := current - previous;
    var x := d / previous * 100.0;
    DivAtLeast(d, previous, 0.0);
    DivAtMost(d, previous, 0.0);
    DivAtLeast(d, previous, -1.0);
    RoundSign(x);
    if current >= 0.0 {
      RoundMonotone(-100.0, x);
      RoundOfInt(-100);
    }
  }

  /**
   * An unchanged total shows a change of 0, whatever its sign: from 0 the
   * special case gives 0, otherwise the difference is 0.
   */
  lemma UnchangedTotalShowsNoChange(total: real)
    ensures GetChange(total, total) == 0
  {
    if total != 0.0 {
      assert (total - total) / total * 100.0 == 0.0;
      RoundOfInt(0);
    }
  }

  datatype Trend = Up | Down | Flat

  /** `getTrend`: the arrow for a change. */
  function TrendOf(change: int): Trend {
    if change > 0 then Up else if change < 0 then Down else Flat
  }

  /**
   * The arrow against the two totals: from 0 it rises iff there is
   * anything now; from a positive total a rise needs a gain and a fall a
   * loss, and an unchanged total is flat.
   */
  lemma TrendOfTotals(current: real, previous: real)
    ensures previous == 0.0 ==> (TrendOf(GetChange(current, previous)) == Up <==> current > 0.0)
    ensures previous == 0.0 ==> (TrendOf(GetChange(current, previous)) == Flat <==> current <= 0.0)
    ensures previous > 0.0 && TrendOf(GetChange(current, previous)) == Up ==> current > previous
    ensures previous > 0.0 && TrendOf(GetChange(current, previous)) == Down ==> current < previous
    ensures previous > 0.0 && current == previous ==> TrendOf(GetChange(current, previous)) == Flat
  {
    if previous > 0.0 {
      ChangeFollowsDifference(current, previous);
    }
  }

  // ---------------------------------------------------------------------
  // Goal progress
  // ---------------------------------------------------------------------

  /**
   * `goalsProgress` percent. An inverse goal (lower is better) is complete
   * once `current <= target`, and otherwise scores `target / current`; a
   * normal goal scores `current / target`, and 0 without a positive target.
   */
  function ReportPercent(g: Goal): (r: real)
    ensures 0.0 <= r <= 100.0
    ensures g.inverse && g.current <= g.target ==> r == 100.0
    ensures !g.inverse && g.target <= 0.0 ==> r == 0.0
  {
    if g.inverse then
      if g.current <= g.target then 100.0
      else if g.current > 0.0 then ClampPercent(g.target / g.current * 100.0)
      else 0.0
    else if g.target > 0.0 then ClampPercent(g.current / g.target * 100.0)
    else 0.0
  }

  /** Completion stated without the percent: the inverse or normal target is reached. */
  predicate Reached(g: Goal) {
    if g.inverse then g.current <= g.target else g.target > 0.0 && g.current >= g.target
  }

  /** A goal scores 100 exactly when its target is reached. */
  lemma ReportPercentFullIffReached(g: Goal)
    ensures ReportPercent(g) >= 100.0 <==> Reached(g)
  {
    if g.inverse && g.current > g.target && g.current > 0.0 {
      DivAtLeast(g.target, g.current, 1.0);
    } else if !g.inverse && g.target > 0.0 {
      DivAtLeast(g.current, g.target, 1.0);
    }
  }

  function IsComplete(g: Row<Goal>): bool {
    ReportPercent(g.val) >= 100.0
  }

  /** `completedGoals`: how many goals score at least 100. */
  function CompletedGoals(goals: seq<Row<Goal>>): (n: nat)
    ensures n <= |goals|
  {
    |Filter(goals, IsComplete)|
  }

  /** The count of completed goals is the number of goals whose target is reached. */
  lemma CompletedGoalsCountsReached(goals: seq<Row<Goal>>)
    ensures CompletedGoals(goals) == |Filter(goals, (g: Row<Goal>) => Reached(g.val))|
    ensures CompletedGoals(goals) == 0 <==> forall i :: 0 <= i < |goals| ==> !Reached(goals[i].val)
  {
    forall i | 0 <= i < |goals|
      ensures IsComplete(goals[i]) == Reached(goals[i].val)
    {
      ReportPercentFullIffReached(goals[i].val);
    }
    FilterSamePredicate(goals, IsComplete, (g: Row<Goal>) => Reached(g.val));
    if CompletedGoals(goals) > 0 {
      var f := Filter(goals, IsComplete);
      assert f[0] in goals && IsComplete(f[0]);
    }
  }
}

=== FILE: routes.dfy ===
/**
 * The HTTP API as a state machine. The state is the database plus the
 * session, which remembers at most one user id; each request is a function
 * from a state to a response (status code and body) and the next state.
 *
 * Request bodies are described by how the schema validator (zod) sees each
 * field: absent, present with the right type, or present with a wrong
 * type. Keys a schema does not name are dropped by the validator and do
 * not appear here.
 */
module Routes {
  import opened Wrappers
  import opened Seqs
  import opened Schema
  import opened Storage

  /** One field of a JSON body, as the validator classifies it. */
  datatype Field<T> = Missing | Given(value: T) | Malformed

  /** A required field: only a well-typed value passes. */
  function Required<T>(f: Field<T>): (r: Option<T>)
    ensures r.Some? <==> f.Given?
    ensures r.Some? ==> r.value == f.value
  {
    if f.Given? then Some(f.value) else None
  }

  /**
   * An optional field (a column with a default): absence passes as `None`,
   * a wrongly typed value fails the whole parse (outer `None`).
   */
  function Optional<T>(f: Field<T>): (r: Option<Option<T>>)
    ensures r.None? <==> f.Malformed?
    ensures f.Missing? ==> r == Some(None)
    ensures f.Given? ==> r == Some(Some(f.value))
  {
    match f
    case Missing => Some(None)
    case Given(v) => Some(Some(v))
    case Malformed => None
  }

  datatype RegisterBody = RegisterBody(email: Field<string>, password: Field<string>, name: Field<string>)

  datatype ExerciseBody = ExerciseBody(name: Field<string>, sets: Field<int>, reps: Field<int>, weight: Field<real>)

  /**
   * The text of a `date` field. The insert schemas type a date column as a
   * plain string, so any string passes them; only Postgres tells a calendar
   * day from text that is not one.
   */
  datatype DateText = CalendarDay(day: Date) | NotADate

  /**
   * A body the schema accepted: the insert values when its date is a
   * calendar day, or `BadDate` when the database will refuse the date.
   */
  datatype Dated<T> = Dated(value: T) | BadDate

  datatype WorkoutBody = WorkoutBody(userId: Field<Id>, name: Field<string>, date: Field<DateText>,
                                     exercises: Field<seq<ExerciseBody>>)

  datatype GoalBody = GoalBody(userId: Field<Id>, title: Field<string>, current: Field<real>,
                               target: Field<real>, unit: Field<string>, inverse: Field<bool>,
                               iconName: Field<string>, color: Field<string>)

  datatype ActivityBody = ActivityBody(userId: Field<Id>, date: Field<DateText>, steps: Field<int>,
                                       calories: Field<int>, distance: Field<real>, activeTime: Field<int>)

  /** `insertUserSchema.parse`: three required strings, nothing more. */
  function ParseUser(b: RegisterBody): (r: Option<NewUser>)
    ensures r.Some? <==> b.email.Given? && b.password.Given? && b.name.Given?
    ensures r.Some? ==> r.value == NewUser(b.email.value, b.password.value, b.name.value)
  {
    if b.email.Given? && b.password.Given? && b.name.Given? then
      Some(NewUser(b.email.value, b.password.value, b.name.value))
    else None
  }

  /**
   * An integer field as the generated insert schemas check it: the number
   * must be whole (a fraction is `Malformed`) and fit the column's 32 bits.
   */
  predicate IntegerAccepted(f: Field<int>) {
    f.Given? && FitsInteger(f.value)
  }

  /** An integer field with a column default: absent, or accepted. */
  predicate OptionalIntegerAccepted(f: Field<int>) {
    f.Missing? || IntegerAccepted(f)
  }

  /**
   * One exercise of `z.array(insertExerciseSchema.omit({ workoutId }))`:
   * all four fields are required, `sets` and `reps` within the `integer`
   * range; no minimum is checked.
   */
  function ParseExercise(b: ExerciseBody): (r: Option<NewExercise>)
    ensures r.Some? <==> b.name.Given? && IntegerAccepted(b.sets) && IntegerAccepted(b.reps) && b.weight.Given?
    ensures r.Some? ==> r.value == NewExercise(b.name.value, b.sets.value, b.reps.value, b.weight.value)
    ensures r.Some? ==> r.value.Fits()
  {
    if b.name.Given? && IntegerAccepted(b.sets) && IntegerAccepted(b.reps) && b.weight.Given? then
      Some(NewExercise(b.name.value, b.sets.value, b.reps.value, b.weight.value))
    else None
  }

  /**
   * The exercise array: every element must parse. No minimum length: an
   * empty array passes.
   */
  function ParseExercises(bs: seq<ExerciseBody>): (r: Option<seq<NewExercise>>)
    ensures r.Some? <==> forall i :: 0 <= i < |bs| ==> ParseExercise(bs[i]).Some?
    ensures r.Some? ==> ExercisesFit(r.value)
    ensures r.Some? ==> |r.value| == |bs| && forall i :: 0 <= i < |bs| ==> Some(r.value[i]) == ParseExercise(bs[i])
  {
    if |bs| == 0 then Some([])
    else
      match (ParseExercise(bs[0]), ParseExercises(bs[1..]))
      case (Some(e), Some(es)) =>
        assert forall i :: 1 <= i < |bs| ==> bs[i] == bs[1..][i - 1];
        Some([e] + es)
      case _ =>
        assert forall i :: 1 <= i < |bs| ==> bs[i] == bs[1..][i - 1];
        None
  }

  /**
   * `POST /api/workouts` parsing: `userId` comes from the session, the
   * body's own `userId` is never read. Any date text passes.
   */
  function ParseWorkout(b: WorkoutBody, userId: Id): (r: Option<Dated<(NewWorkout, seq<NewExercise>)>>)
    ensures r.Some? <==> b.name.Given? && b.date.Given? && b.exercises.Given?
                         && ParseExercises(b.exercises.value).Some?
    ensures r.Some? ==> b.date.Given? && (r.value.BadDate? <==> b.date.value.NotADate?)
    ensures r.Some? && r.value.Dated? ==>
              && b.name.Given? && b.date.Given? && b.date.value.CalendarDay? && b.exercises.Given?
              && r.value.value == (NewWorkout(userId, b.name.value, b.date.value.day), ParseExercises(b.exercises.value).value)
  {
    if b.name.Given? && b.date.Given? && b.exercises.Given? then
      match ParseExercises(b.exercises.value)
      case Some(es) =>
        (match b.date.value
         case CalendarDay(d) => Some(Dated((NewWorkout(userId, b.name.value, d), es)))
         case NotADate => Some(BadDate))
      case None => None
    else None
  }

  /** `insertGoalSchema.parse({ ...body, userId })`: the session id wins. */
  function ParseGoal(b: GoalBody, userId: Id): (r: Option<NewGoal>)
    ensures r.Some? <==> && b.title.Given? && b.current.Given? && b.target.Given? && b.unit.Given?
                         && b.iconName.Given? && b.color.Given? && !b.inverse.Malformed?
    ensures r.Some? ==> r.value.userId == userId
    ensures r.Some? ==> b.inverse.Missing? ==> r.value.inverse.None?
  {
    if && b.title.Given? && b.current.Given? && b.target.Given? && b.unit.Given?
       && b.iconName.Given? && b.color.Given? && Optional(b.inverse).Some?
    then Some(NewGoal(userId, b.title.value, b.current.value, b.target.value, b.unit.value,
                      Optional(b.inverse).value, b.iconName.value, b.color.value))
    else None
  }

  /**
   * `insertActivitySchema.parse({ ...body, userId })`: the session id wins.
   * Any date text passes.
   */
  function ParseActivity(b: ActivityBody, userId: Id): (r: Option<Dated<NewActivity>>)
    ensures r.Some? <==> && b.date.Given? && OptionalIntegerAccepted(b.steps) && OptionalIntegerAccepted(b.calories)
                         && !b.distance.Malformed? && OptionalIntegerAccepted(b.activeTime)
    ensures r.Some? ==> b.date.Given? && (r.value.BadDate? <==> b.date.value.NotADate?)
    ensures r.Some? && r.value.Dated? ==> r.value.value.Fits()
    ensures r.Some? && r.value.Dated? ==>
              b.date.Given? && b.date.value.CalendarDay?
              && r.value.value.userId == userId && r.value.value.date == b.date.value.day
    ensures r.Some? && r.value.Dated? ==>
              && Optional(b.steps).Some? && Optional(b.calories).Some?
              && Optional(b.distance).Some? && Optional(b.activeTime).Some?
              && r.value.value.steps == Optional(b.steps).value && r.value.value.calories == Optional(b.calories).value
              && r.value.value.distance == Optional(b.distance).value
              && r.value.value.activeTime == Optional(b.activeTime).value
  {
    if && b.date.Given? && OptionalIntegerAccepted(b.steps) && OptionalIntegerAccepted(b.calories)
       && Optional(b.distance).Some? && OptionalIntegerAccepted(b.activeTime)
    then
      match b.date.value
      case CalendarDay(d) =>
        Some(Dated(NewActivity(userId, d, Optional(b.steps).value, Optional(b.calories).value,
                               Optional(b.distance).value, Optional(b.activeTime).value)))
      case NotADate => Some(BadDate)
    else None
  }

  // ---------------------------------------------------------------------
  // State, requests and responses
  // ---------------------------------------------------------------------

  datatype State = State(store: Store, session: Option<Id>)

  /** What the auth routes send about a user: never the password. */
  datatype UserView = UserView(id: Id, email: string, name: string)

  function View(u: Row<User>): UserView {
    UserView(u.id, u.val.email, u.val.name)
  }

  datatype ApiError =
    | Unauthorized | UserExists | InvalidCredentials | WorkoutNotFound | Forbidden
    | InvalidCurrent | ValidationFailed | InternalError

  datatype Body =
    | UserBody(user: UserView)
    | WorkoutJson(workout: WithExercises)
    | WorkoutsJson(workouts: seq<WithExercises>)
    | GoalJson(goal: Option<Row<Goal>>)
    | GoalsJson(goals: seq<Row<Goal>>)
    | ActivityJson(activity: Option<Row<Activity>>)
    | ActivitiesJson(activities: seq<Row<Activity>>)
    | SuccessJson
    | ErrorJson(error: ApiError)

  datatype Response = Response(status: int, body: Body)

  function Error(status: int, e: ApiError): Response {
    Response(status, ErrorJson(e))
  }

  datatype Request =
    | Register(register: RegisterBody)
    | Login(email: Field<string>, password: Field<string>)
    | Logout
    | Me
    | CreateWorkout(workout: WorkoutBody)
    | ListWorkouts
    | GetWorkout(workoutId: Id)
    | ListGoals
    | CreateGoal(goal: GoalBody)
    | UpdateGoal(goalId: Id, current: Field<real>)
    | DeleteGoal(goalId: Id)
    | ListActivities(limit: Option<nat>)
    | GetActivity(date: Date)
    | SaveActivity(activity: ActivityBody)

  /** Every route except register, login and logout sits behind `requireAuth`. */
  predicate RequiresAuth(req: Request) {
    !(req.Register? || req.Login? || req.Logout?)
  }

  /** The routes that may write to the database. */
  predicate Writes(req: Request) {
    req.Register? || req.CreateWorkout? || req.CreateGoal? || req.UpdateGoal?
    || req.DeleteGoal? || req.SaveActivity?
  }

  /**
   * `req.user`: the session's user id resolved through `deserializeUser`.
   * A session naming no stored user never reaches a route: `Handle`
   * answers it with 500 first (see `StaleSession`).
   */
  function SessionUser(st: State): (r: Option<Row<User>>)
    ensures r.Some? ==> st.session == Some(r.value.id) && r.value in st.store.users.rows
    ensures r.None? <==> st.session.None? || !HasId(st.store.users, st.session.value)
  {
    match st.session
    case None => None
    case Some(id) => GetUserById(st.store, id)
  }

  // ---------------------------------------------------------------------
  // Auth routes
  // ---------------------------------------------------------------------

  /**
   * `POST /api/auth/register`: a malformed body or a taken e-mail gives 400
   * and changes nothing; otherwise the user is created and the session
   * becomes that user.
   */
  function RegisterRoute(st: State, b: RegisterBody, now: Timestamp): (r: (Response, State))
    requires Valid(st.store)
    ensures ParseUser(b).None? ==> r == (Error(400, ValidationFailed), st)
    ensures ParseUser(b).Some? && GetUserByEmail(st.store, ParseUser(b).value.email).Some? ==>
              r == (Error(400, UserExists), st)
    ensures r.0.status == 200 <==> ParseUser(b).Some? && GetUserByEmail(st.store, ParseUser(b).value.email).None?
    ensures r.0.status == 200 ==>
      && r.1.session.Some?
      && r.1.store.users.rows == st.store.users.rows + [Row(r.1.session.value, ParseUser(b).value.Stamp(now))]
      && r.0.body == UserBody(UserView(r.1.session.value, ParseUser(b).value.email, ParseUser(b).value.name))
      && r.1.store == st.store.(users := r.1.store.users)
    ensures Valid(r.1.store)
  {
    match ParseUser(b)
    case None => (Error(400, ValidationFailed), st)
    case Some(nu) =>
      if GetUserByEmail(st.store, nu.email).Some? then (Error(400, UserExists), st)
      else
        match CreateUser(st.store, nu, now)
        case Success((s', u)) => (Response(200, UserBody(View(u))), State(s', Some(u.id)))
        case Failure(_) => (Error(500, InternalError), st)
  }

  /**
   * `POST /api/auth/login` through the local strategy: both fields must be
   * non-empty strings (the strategy fails an empty one as missing
   * credentials before looking anything up), the user with that e-mail
   * must exist and its stored password must equal the one given. A failure
   * leaves the state as it was.
   */
  function LoginRoute(st: State, email: Field<string>, password: Field<string>): (r: (Response, State))
    ensures r.0.status == 200 || r == (Error(401, InvalidCredentials), st)
    ensures r.0.status == 200 <==>
      && email.Given? && password.Given? && |email.value| > 0 && |password.value| > 0
      && GetUserByEmail(st.store, email.value).Some?
      && GetUserByEmail(st.store, email.value).value.val.password == password.value
    ensures r.0.status == 200 ==>
      var u := GetUserByEmail(st.store, email.value).value;
      r == (Response(200, UserBody(UserView(u.id, u.val.email, u.val.name))), st.(session := Some(u.id)))
  {
    if !(email.Given? && password.Given? && |email.value| > 0 && |password.value| > 0) then
      (Error(401, InvalidCredentials), st)
    else
      match GetUserByEmail(st.store, email.value)
      case None => (Error(401, InvalidCredentials), st)
      case Some(u) =>
        if u.val.password != password.value then (Error(401, InvalidCredentials), st)
        else (Response(200, UserBody(View(u))), st.(session := Some(u.id)))
  }

  /** `POST /api/auth/logout`: the session ends; repeating it changes nothing more. */
  function LogoutRoute(st: State): (r: (Response, State))
    ensures r.1.session.None? && r.1.store == st.store && r.0.status == 200
  {
    (Response(200, SuccessJson), st.(session := None))
  }

  // ---------------------------------------------------------------------
  // Routes behind requireAuth; `u` is the authenticated user.
  // ---------------------------------------------------------------------

  /**
   * `POST /api/workouts`: 400 unless the body parses; otherwise the workout
   * is stored under the session user, and with at least one exercise the
   * exercises too and 200. With none, storage fails after the workout is
   * stored, and the handler's catch answers 500: the workout stays behind.
   * A date the database refuses makes the workout insert throw: 500, with
   * nothing stored.
   */
  function CreateWorkoutRoute(st: State, u: Row<User>, b: WorkoutBody, now: Timestamp): (r: (Response, State))
    requires Valid(st.store) && u in st.store.users.rows
    ensures ParseWorkout(b, u.id).None? ==> r == (Error(400, ValidationFailed), st)
    ensures ParseWorkout(b, u.id) == Some(BadDate) ==> r == (Error(500, InternalError), st)
    ensures ParseWorkout(b, u.id).Some? && ParseWorkout(b, u.id).value.Dated? ==>
      && r.1.session == st.session
      && |r.1.store.workouts.rows| == |st.store.workouts.rows| + 1
      && r.1.store.workouts.rows[..|st.store.workouts.rows|] == st.store.workouts.rows
      && r.1.store.workouts.rows[|st.store.workouts.rows|].val == Workout(u.id, b.name.value, b.date.value.day, now)
      && !HasId(st.store.workouts, r.1.store.workouts.rows[|st.store.workouts.rows|].id)
      && (r.0.status == 200 <==> |ParseWorkout(b, u.id).value.value.1| > 0)
    ensures ParseWorkout(b, u.id).Some? && ParseWorkout(b, u.id).value.Dated?
            && |ParseWorkout(b, u.id).value.value.1| == 0 ==>
      r.0 == Error(500, InternalError) && r.1.store.exercises == st.store.exercises
    ensures r.0.status == 200 ==>
      && ParseWorkout(b, u.id).Some? && ParseWorkout(b, u.id).value.Dated?
      && r.0.body.WorkoutJson?
      && r.0.body.workout.workout == r.1.store.workouts.rows[|st.store.workouts.rows|]
      && |r.0.body.workout.exercises| == |ParseWorkout(b, u.id).value.value.1|
      && (forall i :: 0 <= i < |r.0.body.workout.exercises| ==>
            r.0.body.workout.exercises[i].val.workoutId == r.0.body.workout.workout.id)
      && r.1.store.exercises.rows == st.store.exercises.rows + r.0.body.workout.exercises
    ensures Valid(r.1.store)
    ensures r.1.store.users == st.store.users && r.1.store.goals == st.store.goals
    ensures r.1.store.activities == st.store.activities
  {
    match ParseWorkout(b, u.id)
    case None => (Error(400, ValidationFailed), st)
    case Some(BadDate) => (Error(500, InternalError), st)
    case Some(Dated((w, exs))) =>
      assert HasId(st.store.users, u.id) by {
        var k :| 0 <= k < |st.store.users.rows| && st.store.users.rows[k] == u;
      }
      CreateWorkoutKeepsValid(st.store, w, exs, now);
      match Storage.CreateWorkout(st.store, w, exs, now)
      case (s', Success(d)) => (Response(200, WorkoutJson(d)), st.(store := s'))
      case (s', Failure(_)) => (Error(500, InternalError), st.(store := s'))
  }

  /**
   * `GET /api/workouts/:id`: 404 when no workout has the id; otherwise 403
   * when it belongs to someone else; only then the workout itself.
   */
  function GetWorkoutRoute(st: State, u: Row<User>, id: Id): (r: Response)
    ensures !HasId(st.store.workouts, id) ==> r == Error(404, WorkoutNotFound)
    ensures HasId(st.store.workouts, id) && GetWorkoutById(st.store, id).value.workout.val.userId != u.id ==>
              r == Error(403, Forbidden)
    ensures HasId(st.store.workouts, id) && GetWorkoutById(st.store, id).value.workout.val.userId == u.id ==>
              r == Response(200, WorkoutJson(GetWorkoutById(st.store, id).value))
    ensures r.status == 200 ==> r.body.WorkoutJson? && r.body.workout.workout.val.userId == u.id
                                && r.body.workout.workout.id == id
    ensures r.status in {200, 403, 404}
  {
    match GetWorkoutById(st.store, id)
    case None => Error(404, WorkoutNotFound)
    case Some(d) =>
      if d.workout.val.userId != u.id then Error(403, Forbidden)
      else Response(200, WorkoutJson(d))
  }

  /** `POST /api/goals`: stored under the session user whatever the body says. */
  function CreateGoalRoute(st: State, u: Row<User>, b: GoalBody, now: Timestamp): (r: (Response, State))
    requires Valid(st.store) && u in st.store.users.rows
    ensures ParseGoal(b, u.id).None? ==> r == (Error(400, ValidationFailed), st)
    ensures ParseGoal(b, u.id).Some? ==>
      && r.0.status == 200 && r.0.body.GoalJson? && r.0.body.goal.Some?
      && r.0.body.goal.value.val.userId == u.id
      && (b.inverse.Missing? ==> !r.0.body.goal.value.val.inverse)
      && r.1.store.goals.rows == st.store.goals.rows + [r.0.body.goal.value]
      && r.1 == st.(store := st.store.(goals := r.1.store.goals))
    ensures Valid(r.1.store)
  {
    match ParseGoal(b, u.id)
    case None => (Error(400, ValidationFailed), st)
    case Some(g) =>
      assert HasId(st.store.users, u.id) by {
        var k :| 0 <= k < |st.store.users.rows| && st.store.users.rows[k] == u;
      }
      match Storage.CreateGoal(st.store, g, now)
      case Success((s', row)) => (Response(200, GoalJson(Some(row))), st.(store := s'))
      case Failure(_) => (Error(500, InternalError), st)
  }

  /**
   * `PATCH /api/goals/:id`: 400 and no change unless `current` is a number;
   * otherwise the goal with that id gets the new `current`, whoever owns it.
   */
  function UpdateGoalRoute(st: State, id: Id, current: Field<real>): (r: (Response, State))
    requires Valid(st.store)
    ensures !current.Given? ==> r == (Error(400, InvalidCurrent), st)
    ensures current.Given? ==>
      && r.0.status == 200
      && r.1 == st.(store := Storage.UpdateGoal(st.store, id, current.value).0)
      && r.0.body == GoalJson(Storage.UpdateGoal(st.store, id, current.value).1)
    ensures Valid(r.1.store)
  {
    if !current.Given? then (Error(400, InvalidCurrent), st)
    else
      var (s', g) := Storage.UpdateGoal(st.store, id, current.value);
      (Response(200, GoalJson(g)), st.(store := s'))
  }

  /** `DELETE /api/goals/:id`: the goal goes, whoever owns it. */
  function DeleteGoalRoute(st: State, id: Id): (r: (Response, State))
    requires Valid(st.store)
    ensures r.0.status == 200 && r.1 == st.(store := Storage.DeleteGoal(st.store, id))
    ensures !HasId(r.1.store.goals, id)
    ensures Valid(r.1.store)
  {
    (Response(200, SuccessJson), st.(store := Storage.DeleteGoal(st.store, id)))
  }

  /** `GET /api/activities[?limit=N]`: at most N (by default 7) of the user's days. */
  function ListActivitiesRoute(st: State, u: Row<User>, limit: Option<nat>): (r: Response)
    ensures r.status == 200 && r.body.ActivitiesJson?
    ensures limit.None? ==> |r.body.activities| <= 7
    ensures r.body.activities == GetActivitiesByUserId(st.store, u.id, limit.GetOr(DefaultActivityLimit))
  {
    Response(200, ActivitiesJson(GetActivitiesByUserId(st.store, u.id, limit.GetOr(DefaultActivityLimit))))
  }

  /**
   * `POST /api/activities`: 400 unless the body parses; otherwise the day's
   * row for the session user is created or overwritten. A date the
   * database refuses makes the day's lookup throw: 500, with nothing stored.
   */
  function SaveActivityRoute(st: State, u: Row<User>, b: ActivityBody): (r: (Response, State))
    requires Valid(st.store) && u in st.store.users.rows
    ensures ParseActivity(b, u.id).None? ==> r == (Error(400, ValidationFailed), st)
    ensures ParseActivity(b, u.id) == Some(BadDate) ==> r == (Error(500, InternalError), st)
    ensures ParseActivity(b, u.id).Some? && ParseActivity(b, u.id).value.Dated? ==>
      && r.0.status == 200 && r.0.body.ActivityJson? && r.0.body.activity.Some?
      && ActivityKey(r.0.body.activity.value, u.id, b.date.value.day)
      && r.1 == st.(store := UpsertActivity(st.store, ParseActivity(b, u.id).value.value).value.0)
    ensures Valid(r.1.store)
    ensures OneActivityPerDay(st.store.activities.rows) ==> OneActivityPerDay(r.1.store.activities.rows)
  {
    match ParseActivity(b, u.id)
    case None => (Error(400, ValidationFailed), st)
    case Some(BadDate) => (Error(500, InternalError), st)
    case Some(Dated(a)) =>
      assert HasId(st.store.users, u.id) by {
        var k :| 0 <= k < |st.store.users.rows| && st.store.users.rows[k] == u;
      }
      match UpsertActivity(st.store, a)
      case Success((s', row)) => (Response(200, ActivityJson(Some(row))), st.(store := s'))
      case Failure(_) => (Error(500, InternalError), st)
  }

  /** A route behind `requireAuth`, run for the authenticated user `u`. */
  function Authenticated(st: State, u: Row<User>, req: Request, now: Timestamp): (r: (Response, State))
    requires Valid(st.store) && u in st.store.users.rows && RequiresAuth(req)
    ensures Valid(r.1.store) && r.1.session == st.session && r.1.store.users == st.store.users
    ensures OneActivityPerDay(st.store.activities.rows) ==> OneActivityPerDay(r.1.store.activities.rows)
    ensures !Writes(req) ==> r.1 == st
  {
    match req
    case Me => (Response(200, UserBody(View(u))), st)
    case CreateWorkout(b) => CreateWorkoutRoute(st, u, b, now)
    case ListWorkouts => (Response(200, WorkoutsJson(GetWorkoutsByUserId(st.store, u.id))), st)
    case GetWorkout(id) => (GetWorkoutRoute(st, u, id), st)
    case ListGoals => (Response(200, GoalsJson(GetGoalsByUserId(st.store, u.id))), st)
    case CreateGoal(b) => CreateGoalRoute(st, u, b, now)
    case UpdateGoal(id, current) => UpdateGoalRoute(st, id, current)
    case DeleteGoal(id) => DeleteGoalRoute(st, id)
    case ListActivities(limit) => (ListActivitiesRoute(st, u, limit), st)
    case GetActivity(date) => (Response(200, ActivityJson(GetActivityByUserAndDate(st.store, u.id, date))), st)
    case SaveActivity(b) => SaveActivityRoute(st, u, b)
  }

  /**
   * A session whose user id names no stored user. The deserializer then
   * hands back `undefined`, which the session layer treats as an error:
   * every request, whatever its route, fails with 500 before reaching it.
   */
  predicate StaleSession(st: State) {
    st.session.Some? && !HasId(st.store.users, st.session.value)
  }

  /**
   * One request. A stale session fails every request with 500; otherwise
   * every route behind `requireAuth` answers 401 and changes nothing
   * without a logged-in user. No request breaks a declared constraint or
   * the one-activity-per-day rule, or makes a good session stale.
   */
  function Handle(st: State, req: Request, now: Timestamp): (r: (Response, State))
    requires Valid(st.store)
    ensures Valid(r.1.store)
    ensures OneActivityPerDay(st.store.activities.rows) ==> OneActivityPerDay(r.1.store.activities.rows)
    ensures StaleSession(st) ==> r == (Error(500, InternalError), st)
    ensures RequiresAuth(req) && st.session.None? ==> r == (Error(401, Unauthorized), st)
    ensures !StaleSession(st) ==> !StaleSession(r.1)
    ensures !Writes(req) ==> r.1.store == st.store
  {
    if StaleSession(st) then (Error(500, InternalError), st)
    else
      match req
      case Register(b) =>
        var r := RegisterRoute(st, b, now);
        assert r.0.status == 200 ==> r.1.store.users.rows[|st.store.users.rows|].id == r.1.session.value;
        r
      case Login(email, password) => LoginRoute(st, email, password)
      case Logout => LogoutRoute(st)
      case _ =>
        match SessionUser(st)
        case None => (Error(401, Unauthorized), st)
        case Some(u) => Authenticated(st, u, req, now)
  }

  /** A sequence of requests, each with the time it arrives. */
  function Run(st: State, reqs: seq<(Request, Timestamp)>): (r: State)
    requires Valid(st.store)
    ensures Valid(r.store)
    ensures OneActivityPerDay(st.store.activities.rows) ==> OneActivityPerDay(r.store.activities.rows)
    ensures !StaleSession(st) ==> !StaleSession(r)
    decreases |reqs|
  {
    if |reqs| == 0 then st
    else Run(Handle(st, reqs[0].0, reqs[0].1).1, reqs[1..])
  }
}

=== FILE: schema.dfy ===
/**
 * The relational schema of the fitness tracker: five tables (users,
 * workouts, exercises, goals, activities), each with a serial primary key,
 * the insert shapes the application hands to the database, the column
 * defaults applied on insert, and the constraints the schema declares
 * (unique e-mail, foreign keys, cascading delete of exercises).
 *
 * Dates are day numbers (`Date`), ordered as the `yyyy-MM-dd` strings the
 * application stores; timestamps (`createdAt`) are opaque integers that the
 * caller supplies in place of the database clock.
 */
module Schema {
  import opened Wrappers
  import opened Seqs

  type Id = int
  type Date = int
  type Timestamp = int

  /** The bounds of a PostgreSQL `integer` column: a 32-bit signed value. */
  const IntegerMin: int := -0x8000_0000
  const IntegerMax: int := 0x7FFF_FFFF

  /** Whether `x` can be stored in an `integer` column. */
  predicate FitsInteger(x: int) {
    IntegerMin <= x <= IntegerMax
  }

  /** A stored row: the value of its columns plus its serial primary key. */
  datatype Row<T> = Row(id: Id, val: T)

  /**
   * A table with a `serial` primary key: its rows in insertion order and
   * the next value of the key's sequence (PostgreSQL serials start at 1).
   */
  datatype Table<T> = Table(rows: seq<Row<T>>, next: Id)

  function EmptyTable<T>(): Table<T> {
    Table([], 1)
  }

  /** No two rows of `rows` share a primary key. */
  ghost predicate DistinctIds<T>(rows: seq<Row<T>>) {
    forall i, j :: 0 <= i < j < |rows| ==> rows[i].id != rows[j].id
  }

  /** The serial discipline: keys are distinct, positive and below `next`. */
  ghost predicate Serial<T>(t: Table<T>) {
    && t.next >= 1
    && (forall i :: 0 <= i < |t.rows| ==> 1 <= t.rows[i].id < t.next)
    && DistinctIds(t.rows)
  }

  /** Some row of `t` has primary key `id`. */
  predicate HasId<T>(t: Table<T>, id: Id) {
    exists i :: 0 <= i < |t.rows| && t.rows[i].id == id
  }

  /** `INSERT ... RETURNING *` of one row: the key is the next serial value. */
  function Insert<T>(t: Table<T>, v: T): (r: (Table<T>, Row<T>))
    ensures r.1.val == v && r.0.rows == t.rows + [r.1]
    ensures Serial(t) ==> Serial(r.0) && !HasId(t, r.1.id)
  {
    var row := Row(t.next, v);
    (Table(t.rows + [row], t.next + 1), row)
  }

  /** `INSERT ... VALUES (...), (...) RETURNING *`: keys are consecutive serials. */
  function InsertAll<T>(t: Table<T>, vs: seq<T>): (r: (Table<T>, seq<Row<T>>))
    ensures |r.1| == |vs|
    ensures r.0.rows == t.rows + r.1
    ensures r.0.next == t.next + |vs|
    ensures forall i :: 0 <= i < |vs| ==> r.1[i] == Row(t.next + i, vs[i])
    decreases |vs|
  {
    if |vs| == 0 then (t, [])
    else
      var (t1, first) := Insert(t, vs[0]);
      var (t2, rest) := InsertAll(t1, vs[1..]);
      (t2, [first] + rest)
  }

  /** A batch insert keeps the serial discipline and uses only fresh keys. */
  lemma InsertAllKeepsSerial<T>(t: Table<T>, vs: seq<T>)
    requires Serial(t)
    ensures Serial(InsertAll(t, vs).0)
    ensures forall i :: 0 <= i < |vs| ==> !HasId(t, InsertAll(t, vs).1[i].id)
  {
    var (t', rs) := InsertAll(t, vs);
    forall i | 0 <= i < |t'.rows|
      ensures t'.rows[i].id == (if i < |t.rows| then t.rows[i].id else t.next + (i - |t.rows|))
      ensures 1 <= t'.rows[i].id < t'.next
    {
      if i < |t.rows| {
        assert t'.rows[i] == t.rows[i];
      } else {
        assert t'.rows[i] == rs[i - |t.rows|];
      }
    }
    forall i, j | 0 <= i < j < |t'.rows|
      ensures t'.rows[i].id != t'.rows[j].id
    {
      if j < |t.rows| {
        assert t.rows[i].id != t.rows[j].id;
      }
    }
    forall i | 0 <= i < |vs|
      ensures !HasId(t, rs[i].id)
    {
      assert rs[i].id >= t.next;
    }
  }

  /** `DELETE FROM t WHERE p`. */
  function Delete<T>(t: Table<T>, p: Row<T> -> bool): (r: Table<T>)
    ensures r.next == t.next
    ensures forall i :: 0 <= i < |r.rows| ==> r.rows[i] in t.rows && !p(r.rows[i])
    ensures forall i :: 0 <= i < |t.rows| && !p(t.rows[i]) ==> t.rows[i] in r.rows
  {
    Table(Filter(t.rows, (row: Row<T>) => !p(row)), t.next)
  }

  /** Filtering rows keeps their keys distinct. */
  lemma {:induction false} FilterKeepsDistinctIds<T>(rows: seq<Row<T>>, p: Row<T> -> bool)
    requires DistinctIds(rows)
    ensures DistinctIds(Filter(rows, p))
  {
    if |rows| > 0 {
      FilterKeepsDistinctIds(rows[1..], p);
      var rest := Filter(rows[1..], p);
      if p(rows[0]) {
        var r := [rows[0]] + rest;
        forall i, j | 0 <= i < j < |r|
          ensures r[i].id != r[j].id
        {
          if i == 0 {
            assert r[j] == rest[j - 1];
            assert rest[j - 1] in rows[1..];
            var k :| 0 <= k < |rows[1..]| && rows[1..][k] == rest[j - 1];
            assert rows[k + 1] == r[j];
          } else {
            assert r[i] == rest[i - 1] && r[j] == rest[j - 1];
          }
        }
      }
    }
  }

  /** A delete keeps the serial discipline. */
  lemma DeleteKeepsSerial<T>(t: Table<T>, p: Row<T> -> bool)
    requires Serial(t)
    ensures Serial(Delete(t, p))
  {
    FilterKeepsDistinctIds(t.rows, (row: Row<T>) => !p(row));
  }

  /**
   * `UPDATE t SET ... WHERE id = key`: every row with that key gets its
   * columns rewritten by `f`; keys and positions do not move.
   */
  function UpdateById<T>(t: Table<T>, key: Id, f: T -> T): (r: Table<T>)
    ensures r.next == t.next && |r.rows| == |t.rows|
    ensures forall i :: 0 <= i < |t.rows| ==> r.rows[i].id == t.rows[i].id
    ensures forall i :: 0 <= i < |t.rows| && t.rows[i].id == key ==> r.rows[i].val == f(t.rows[i].val)
    ensures forall i :: 0 <= i < |t.rows| && t.rows[i].id != key ==> r.rows[i] == t.rows[i]
    ensures Serial(t) ==> Serial(r)
  {
    Table(seq(|t.rows|, i requires 0 <= i < |t.rows| =>
      if t.rows[i].id == key then Row(key, f(t.rows[i].val)) else t.rows[i]), t.next)
  }

  // ---------------------------------------------------------------------
  // Entities: the non-key columns of each table.
  // ---------------------------------------------------------------------

  datatype User = User(email: string, password: string, name: string, createdAt: Timestamp)

  datatype Workout = Workout(userId: Id, name: string, date: Date, createdAt: Timestamp)

  datatype Exercise = Exercise(workoutId: Id, name: string, sets: int, reps: int, weight: real)

  datatype Goal = Goal(userId: Id, title: string, current: real, target: real, unit: string,
                       inverse: bool, iconName: string, color: string, createdAt: Timestamp)

  datatype Activity = Activity(userId: Id, date: Date, steps: int, calories: int,
                               distance: real, activeTime: int)

  // ---------------------------------------------------------------------
  // Insert shapes: no key, no `createdAt`; columns with a default are
  // optional.
  // ---------------------------------------------------------------------

  datatype NewUser = NewUser(email: string, password: string, name: string) {
    function Stamp(now: Timestamp): User {
      User(email, password, name, now)
    }
  }

  datatype NewWorkout = NewWorkout(userId: Id, name: string, date: Date) {
    function Stamp(now: Timestamp): Workout {
      Workout(userId, name, date, now)
    }
  }

  /** An exercise as the request carries it; `workoutId` is stamped on insert. */
  datatype NewExercise = NewExercise(name: string, sets: int, reps: int, weight: real) {
    /** Whether the `integer` columns `sets` and `reps` can hold the values. */
    predicate Fits() {
      FitsInteger(sets) && FitsInteger(reps)
    }

    function Stamp(workoutId: Id): Exercise {
      Exercise(workoutId, name, sets, reps, weight)
    }
  }

  datatype NewGoal = NewGoal(userId: Id, title: string, current: real, target: real, unit: string,
                             inverse: Option<bool>, iconName: string, color: string) {
    /** The stored goal; an omitted `inverse` takes the column default `false`. */
    function Stamp(now: Timestamp): (g: Goal)
      ensures g.inverse <==> inverse == Some(true)
    {
      Goal(userId, title, current, target, unit, inverse.GetOr(false), iconName, color, now)
    }
  }

  datatype NewActivity = NewActivity(userId: Id, date: Date, steps: Option<int>, calories: Option<int>,
                                     distance: Option<real>, activeTime: Option<int>) {
    /** Whether every supplied `integer` measure (steps, calories, active time) can be stored. */
    predicate Fits() {
      && (steps.Some? ==> FitsInteger(steps.value))
      && (calories.Some? ==> FitsInteger(calories.value))
      && (activeTime.Some? ==> FitsInteger(activeTime.value))
    }

    /** The inserted activity; every omitted measure takes the column default 0. */
    function Defaults(): (a: Activity)
      ensures steps.None? ==> a.steps == 0
      ensures calories.None? ==> a.calories == 0
      ensures distance.None? ==> a.distance == 0.0
      ensures activeTime.None? ==> a.activeTime == 0
    {
      Activity(userId, date, steps.GetOr(0), calories.GetOr(0), distance.GetOr(0.0), activeTime.GetOr(0))
    }

    /**
     * An existing activity after `UPDATE ... SET payload`: supplied fields
     * replace the stored ones, omitted (undefined) fields are left alone.
     */
    function Overwrite(prev: Activity): (a: Activity)
      ensures a.userId == userId && a.date == date
      ensures a.steps == (if steps.Some? then steps.value else prev.steps)
      ensures a.calories == (if calories.Some? then calories.value else prev.calories)
      ensures a.distance == (if distance.Some? then distance.value else prev.distance)
      ensures a.activeTime == (if activeTime.Some? then activeTime.value else prev.activeTime)
    {
      Activity(userId, date, steps.GetOr(prev.steps), calories.GetOr(prev.calories),
               distance.GetOr(prev.distance), activeTime.GetOr(prev.activeTime))
    }
  }

  // ---------------------------------------------------------------------
  // The database.
  // ---------------------------------------------------------------------

  datatype Store = Store(users: Table<User>, workouts: Table<Workout>, exercises: Table<Exercise>,
                         goals: Table<Goal>, activities: Table<Activity>)

  function EmptyStore(): Store {
    Store(EmptyTable(), EmptyTable(), EmptyTable(), EmptyTable(), EmptyTable())
  }

  /** `users.email` is `unique()`. */
  ghost predicate UniqueEmails(rows: seq<Row<User>>) {
    forall i, j :: 0 <= i < j < |rows| ==> rows[i].val.email != rows[j].val.email
  }

  /** Every foreign key refers to an existing row. */
  ghost predicate ForeignKeys(s: Store) {
    && (forall i :: 0 <= i < |s.workouts.rows| ==> HasId(s.users, s.workouts.rows[i].val.userId))
    && (forall i :: 0 <= i < |s.exercises.rows| ==> HasId(s.workouts, s.exercises.rows[i].val.workoutId))
    && (forall i :: 0 <= i < |s.goals.rows| ==> HasId(s.users, s.goals.rows[i].val.userId))
    && (forall i :: 0 <= i < |s.activities.rows| ==> HasId(s.users, s.activities.rows[i].val.userId))
  }

  /** The constraints the schema declares. */
  ghost predicate Valid(s: Store) {
    && Serial(s.users) && Serial(s.workouts) && Serial(s.exercises)
    && Serial(s.goals) && Serial(s.activities)
    && UniqueEmails(s.users.rows)
    && ForeignKeys(s)
  }

  /**
   * At most one activity per user and day. The table declares no such
   * constraint; it holds only because every write goes through the upsert.
   */
  ghost predicate OneActivityPerDay(rows: seq<Row<Activity>>) {
    forall i, j :: 0 <= i < j < |rows| ==>
      rows[i].val.userId != rows[j].val.userId || rows[i].val.date != rows[j].val.date
  }

  lemma EmptyStoreValid()
    ensures Valid(EmptyStore()) && OneActivityPerDay(EmptyStore().activities.rows)
  {
  }

  /**
   * Deleting a workout: the `onDelete: "cascade"` foreign key removes every
   * exercise of that workout and no other row.
   */
  function DeleteWorkout(s: Store, id: Id): (r: Store)
    ensures r.users == s.users && r.goals == s.goals && r.activities == s.activities
    ensures !HasId(r.workouts, id)
    ensures forall i :: 0 <= i < |r.exercises.rows| ==> r.exercises.rows[i].val.workoutId != id
    ensures forall i :: 0 <= i < |s.exercises.rows| && s.exercises.rows[i].val.workoutId != id ==>
              s.exercises.rows[i] in r.exercises.rows
    ensures forall i :: 0 <= i < |r.exercises.rows| ==> r.exercises.rows[i] in s.exercises.rows
    ensures forall i :: 0 <= i < |s.workouts.rows| && s.workouts.rows[i].id != id ==>
              s.workouts.rows[i] in r.workouts.rows
  {
    Store(s.users,
          Delete(s.workouts, (w: Row<Workout>) => w.id == id),
          Delete(s.exercises, (e: Row<Exercise>) => e.val.workoutId == id),
          s.goals, s.activities)
  }

  /** The cascade leaves no orphan exercise behind. */
  lemma DeleteWorkoutKeepsValid(s: Store, id: Id)
    requires Valid(s)
    ensures Valid(DeleteWorkout(s, id))
  {
    var r := DeleteWorkout(s, id);
    DeleteKeepsSerial(s.workouts, (w: Row<Workout>) => w.id == id);
    DeleteKeepsSerial(s.exercises, (e: Row<Exercise>) => e.val.workoutId == id);
    forall i | 0 <= i < |r.exercises.rows|
      ensures HasId(r.workouts, r.exercises.rows[i].val.workoutId)
    {
      var e := r.exercises.rows[i];
      var k :| 0 <= k < |s.exercises.rows| && s.exercises.rows[k] == e;
      var w :| 0 <= w < |s.workouts.rows| && s.workouts.rows[w].id == e.val.workoutId;
      assert s.workouts.rows[w] in r.workouts.rows;
      var w' :| 0 <= w' < |r.workouts.rows| && r.workouts.rows[w'] == s.workouts.rows[w];
    }
    forall i | 0 <= i < |r.workouts.rows|
      ensures HasId(r.users, r.workouts.rows[i].val.userId)
    {
      var k :| 0 <= k < |s.workouts.rows| && s.workouts.rows[k] == r.workouts.rows[i];
    }
  }
}

=== FILE: seqs.dfy ===
/**
 * Sequence operations that the JavaScript code performs through array
 * methods (`filter`, `find`, `reverse`, `reduce`) and that the database
 * performs through `WHERE` and `ORDER BY ... DESC`.
 */
module Seqs {
  import opened Wrappers

  /** `xs.filter(p)`: the elements satisfying `p`, in their original order. */
  function Filter<T>(xs: seq<T>, p: T -> bool): (r: seq<T>)
    ensures |r| <= |xs|
    ensures forall i :: 0 <= i < |r| ==> r[i] in xs && p(r[i])
    ensures forall i :: 0 <= i < |xs| && p(xs[i]) ==> xs[i] in r
    ensures multiset(r) <= multiset(xs)
  {
    if |xs| == 0 then []
    else
      assert xs == [xs[0]] + xs[1..];
      if p(xs[0]) then [xs[0]] + Filter(xs[1..], p)
      else Filter(xs[1..], p)
  }

  /** A filter that no item passes is empty. */
  lemma FilterNone<T>(xs: seq<T>, p: T -> bool)
    requires forall j :: 0 <= j < |xs| ==> !p(xs[j])
    ensures Filter(xs, p) == []
  {
  }

  /** Filtering distributes over concatenation. */
  lemma {:induction false} FilterConcat<T>(a: seq<T>, b: seq<T>, p: T -> bool)
    ensures Filter(a + b, p) == Filter(a, p) + Filter(b, p)
  {
    if |a| == 0 {
      assert a + b == b;
    } else {
      assert (a + b)[1..] == a[1..] + b;
      FilterConcat(a[1..], b, p);
    }
  }

  /** Filtering with a predicate that holds everywhere changes nothing. */
  lemma {:induction false} FilterAll<T>(xs: seq<T>, p: T -> bool)
    requires forall i :: 0 <= i < |xs| ==> p(xs[i])
    ensures Filter(xs, p) == xs
  {
    if |xs| > 0 {
      FilterAll(xs[1..], p);
    }
  }

  /** Filtering depends only on the values the predicate takes on the elements. */
  lemma {:induction false} FilterSamePredicate<T>(xs: seq<T>, p: T -> bool, q: T -> bool)
    requires forall i :: 0 <= i < |xs| ==> p(xs[i]) == q(xs[i])
    ensures Filter(xs, p) == Filter(xs, q)
  {
    if |xs| > 0 {
      assert forall i :: 0 <= i < |xs[1..]| ==> xs[1..][i] == xs[i + 1];
      FilterSamePredicate(xs[1..], p, q);
    }
  }

  /**
   * Two filters with predicates that never hold together pick no element
   * twice: together they take at most what the sequence holds.
   */
  lemma {:induction false} FilterDisjoint<T>(xs: seq<T>, p: T -> bool, q: T -> bool)
    requires forall i :: 0 <= i < |xs| ==> !(p(xs[i]) && q(xs[i]))
    ensures multiset(Filter(xs, p)) + multiset(Filter(xs, q)) <= multiset(xs)
  {
    if |xs| > 0 {
      assert forall i :: 0 <= i < |xs[1..]| ==> xs[1..][i] == xs[i + 1];
      FilterDisjoint(xs[1..], p, q);
      assert xs == [xs[0]] + xs[1..];
    }
  }

  /** The index of the first element satisfying `p`, if any. */
  function FindIndex<T>(xs: seq<T>, p: T -> bool): (r: Option<nat>)
    ensures r.Some? ==> r.value < |xs| && p(xs[r.value])
    ensures r.Some? ==> forall j :: 0 <= j < r.value ==> !p(xs[j])
    ensures r.None? <==> forall i :: 0 <= i < |xs| ==> !p(xs[i])
  {
    if |xs| == 0 then None
    else if p(xs[0]) then Some(0)
    else
      match FindIndex(xs[1..], p)
      case None => None
      case Some(k) => Some(k + 1)
  }

  /** `xs.find(p)`: the first element satisfying `p`, if any. */
  function Find<T>(xs: seq<T>, p: T -> bool): (r: Option<T>)
    ensures r.Some? ==> p(r.value)
    ensures r.Some? ==> exists i :: 0 <= i < |xs| && xs[i] == r.value
                          && forall j :: 0 <= j < i ==> !p(xs[j])
    ensures r.None? <==> forall i :: 0 <= i < |xs| ==> !p(xs[i])
  {
    match FindIndex(xs, p)
    case None => None
    case Some(k) => Some(xs[k])
  }

  /** Non-increasing order of `key`: the order of `ORDER BY key DESC`. */
  ghost predicate SortedDesc<T>(xs: seq<T>, key: T -> int) {
    forall i, j :: 0 <= i < j < |xs| ==> key(xs[i]) >= key(xs[j])
  }

  /** Non-decreasing order of `key`. */
  ghost predicate SortedAsc<T>(xs: seq<T>, key: T -> int) {
    forall i, j :: 0 <= i < j < |xs| ==> key(xs[i]) <= key(xs[j])
  }

  /** Places `x` before the first element whose key it is not above. */
  function InsertDesc<T>(x: T, xs: seq<T>, key: T -> int): (r: seq<T>)
    requires SortedDesc(xs, key)
    ensures |r| == |xs| + 1
    ensures r[0] == x || (|xs| > 0 && r[0] == xs[0])
    ensures SortedDesc(r, key)
    ensures multiset(r) == multiset(xs) + multiset{x}
  {
    if |xs| == 0 then [x]
    else if key(x) >= key(xs[0]) then [x] + xs
    else
      var rest := InsertDesc(x, xs[1..], key);
      assert key(rest[0]) <= key(xs[0]);
      assert xs == [xs[0]] + xs[1..];
      [xs[0]] + rest
  }

  /**
   * A stable sort by `key`, largest key first; rows with equal keys keep
   * their insertion order.
   */
  function SortDesc<T>(xs: seq<T>, key: T -> int): (r: seq<T>)
    ensures |r| == |xs|
    ensures SortedDesc(r, key)
    ensures multiset(r) == multiset(xs)
  {
    if |xs| == 0 then []
    else
      assert xs == [xs[0]] + xs[1..];
      InsertDesc(xs[0], SortDesc(xs[1..], key), key)
  }

  /** A sub-multiset is no larger. */
  lemma MultisetSizeMonotone<T>(a: multiset<T>, b: multiset<T>)
    requires a <= b
    ensures |a| <= |b|
  {
    assert b == a + (b - a);
  }

  /** Two sequences with the same multiset have the same elements. */
  lemma SameMembers<T>(a: seq<T>, b: seq<T>)
    requires multiset(a) == multiset(b)
    ensures forall i :: 0 <= i < |a| ==> a[i] in b
    ensures forall i :: 0 <= i < |b| ==> b[i] in a
  {
    forall i | 0 <= i < |a|
      ensures a[i] in b
    {
      assert a[i] in multiset(a);
    }
    forall i | 0 <= i < |b|
      ensures b[i] in a
    {
      assert b[i] in multiset(b);
    }
  }

  /** `xs.slice().reverse()`. */
  function Reverse<T>(xs: seq<T>): (r: seq<T>)
    ensures |r| == |xs|
    ensures forall i :: 0 <= i < |xs| ==> r[i] == xs[|xs| - 1 - i]
  {
    if |xs| == 0 then [] else Reverse(xs[1..]) + [xs[0]]
  }

  /** Reversing a list sorted largest-first gives one sorted smallest-first. */
  lemma ReverseOfDescIsAsc<T>(xs: seq<T>, key: T -> int)
    requires SortedDesc(xs, key)
    ensures SortedAsc(Reverse(xs), key)
  {
    var r := Reverse(xs);
    forall i, j | 0 <= i < j < |r|
      ensures key(r[i]) <= key(r[j])
    {
      assert r[i] == xs[|xs| - 1 - i] && r[j] == xs[|xs| - 1 - j];
    }
  }

  /** `xs.reduce((sum, x) => sum + f(x), 0)`, folded from the left. */
  function Sum<T>(xs: seq<T>, f: T -> real): real {
    if |xs| == 0 then 0.0 else Sum(xs[..|xs| - 1], f) + f(xs[|xs| - 1])
  }

  /** Sums split over concatenation. */
  lemma {:induction false} SumConcat<T>(a: seq<T>, b: seq<T>, f: T -> real)
    ensures Sum(a + b, f) == Sum(a, f) + Sum(b, f)
    decreases |b|
  {
    if |b| == 0 {
      assert a + b == a;
    } else {
      assert (a + b)[..|a + b| - 1] == a + b[..|b| - 1];
      SumConcat(a, b[..|b| - 1], f);
    }
  }

  /** The sum of one element. */
  lemma SumSingle<T>(x: T, f: T -> real)
    ensures Sum([x], f) == f(x)
  {
    assert [x][..0] == [];
  }

  /** A sum of non-negative terms is non-negative. */
  lemma {:induction false} SumNonNegative<T>(xs: seq<T>, f: T -> real)
    requires forall i :: 0 <= i < |xs| ==> f(xs[i]) >= 0.0
    ensures Sum(xs, f) >= 0.0
  {
    if |xs| > 0 {
      SumNonNegative(xs[..|xs| - 1], f);
    }
  }

  /** Sums are monotone in their terms. */
  lemma {:induction false} SumMonotone<T>(xs: seq<T>, f: T -> real, g: T -> real)
    requires forall i :: 0 <= i < |xs| ==> f(xs[i]) <= g(xs[i])
    ensures Sum(xs, f) <= Sum(xs, g)
  {
    if |xs| > 0 {
      SumMonotone(xs[..|xs| - 1], f, g);
    }
  }

  /** Scaling every term scales the sum. */
  lemma {:induction false} SumScale<T>(xs: seq<T>, f: T -> real, g: T -> real, c: real)
    requires forall i :: 0 <= i < |xs| ==> g(xs[i]) == f(xs[i]) * c
    ensures Sum(xs, g) == Sum(xs, f) * c
  {
    if |xs| > 0 {
      SumScale(xs[..|xs| - 1], f, g, c);
    }
  }

  /** `f` where `p` holds, 0 elsewhere. */
  function Masked<T>(p: T -> bool, f: T -> real): T -> real {
    x => if p(x) then f(x) else 0.0
  }

  /** Summing the filtered elements is summing every element with the others counted as 0. */
  lemma {:induction false} SumFilter<T>(xs: seq<T>, p: T -> bool, f: T -> real)
    ensures Sum(Filter(xs, p), f) == Sum(xs, Masked(p, f))
  {
    if |xs| > 0 {
      var g := Masked(p, f);
      SumFilter(xs[1..], p, f);
      assert xs == [xs[0]] + xs[1..];
      SumConcat([xs[0]], xs[1..], g);
      SumSingle(xs[0], g);
      if p(xs[0]) {
        SumConcat([xs[0]], Filter(xs[1..], p), f);
        SumSingle(xs[0], f);
      }
    }
  }

  /** A sum of `n` terms each between `lo` and `hi` is between `n * lo` and `n * hi`. */
  lemma {:induction false} SumBetween<T>(xs: seq<T>, f: T -> real, lo: real, hi: real)
    requires forall i :: 0 <= i < |xs| ==> lo <= f(xs[i]) <= hi
    ensures |xs| as real * lo <= Sum(xs, f) <= |xs| as real * hi
  {
    if |xs| > 0 {
      SumBetween(xs[..|xs| - 1], f, lo, hi);
    }
  }

  /** A sum whose terms are all zero is zero. */
  lemma {:induction false} SumZero<T>(xs: seq<T>, f: T -> real)
    requires forall i :: 0 <= i < |xs| ==> f(xs[i]) == 0.0
    ensures Sum(xs, f) == 0.0
  {
    if |xs| > 0 {
      SumZero(xs[..|xs| - 1], f);
    }
  }
}

=== FILE: storage.dfy ===
/**
 * The storage layer (`DatabaseStorage`): every query the server issues,
 * as a pure function from a database state to a result and, for writes,
 * the next database state. Each operation runs as one step; no other
 * request interleaves with the read-then-write of `upsertActivity` or
 * between the two inserts of `createWorkout`.
 */
module Storage {
  import opened Wrappers
  import opened Seqs
  import opened Schema

  /**
   * Why a write fails: a constraint the database enforces, a value too
   * large for an `integer` column, or a batch insert of no rows, which the
   * query builder refuses before any SQL is sent.
   */
  datatype StoreError = UniqueViolation | ForeignKeyViolation | OutOfRange | EmptyValues

  /** A workout row together with the exercise rows that point at it. */
  datatype WithExercises = WithExercises(workout: Row<Workout>, exercises: seq<Row<Exercise>>)

  /** The default page size of `getActivitiesByUserId`. */
  const DefaultActivityLimit: nat := 7

  // ---------------------------------------------------------------------
  // Users
  // ---------------------------------------------------------------------

  /** `SELECT * FROM users WHERE email = $1`, first row. */
  function GetUserByEmail(s: Store, email: string): (r: Option<Row<User>>)
    ensures r.Some? ==> r.value in s.users.rows && r.value.val.email == email
    ensures r.None? <==> forall i :: 0 <= i < |s.users.rows| ==> s.users.rows[i].val.email != email
  {
    Find(s.users.rows, (u: Row<User>) => u.val.email == email)
  }

  /** With unique e-mails, the user found is the only one with that e-mail. */
  lemma GetUserByEmailIsUnique(s: Store, email: string, i: int)
    requires Valid(s)
    requires 0 <= i < |s.users.rows| && s.users.rows[i].val.email == email
    ensures GetUserByEmail(s, email) == Some(s.users.rows[i])
  {
    var r := GetUserByEmail(s, email);
    var k :| 0 <= k < |s.users.rows| && s.users.rows[k] == r.value;
    assert k == i;
  }

  /** `SELECT * FROM users WHERE id = $1`, first row. */
  function GetUserById(s: Store, id: Id): (r: Option<Row<User>>)
    ensures r.Some? ==> r.value in s.users.rows && r.value.id == id
    ensures r.None? <==> !HasId(s.users, id)
  {
    Find(s.users.rows, (u: Row<User>) => u.id == id)
  }

  /** `INSERT INTO users`; the unique index on `email` rejects a duplicate. */
  function CreateUser(s: Store, u: NewUser, now: Timestamp): (r: Result<(Store, Row<User>), StoreError>)
    ensures r.Failure? <==> GetUserByEmail(s, u.email).Some?
    ensures r.Failure? ==> r.error == UniqueViolation
    ensures r.Success? ==>
      && r.value.1.val == User(u.email, u.password, u.name, now)
      && r.value.0.users.rows == s.users.rows + [r.value.1]
      && r.value.0 == s.(users := r.value.0.users)
    ensures r.Success? && Valid(s) ==> Valid(r.value.0) && !HasId(s.users, r.value.1.id)
  {
    if GetUserByEmail(s, u.email).Some? then Failure(UniqueViolation)
    else
      var (users, row) := Insert(s.users, u.Stamp(now));
      var s' := s.(users := users);
      assert Valid(s) ==> ForeignKeys(s') by {
        if Valid(s) {
          forall id | HasId(s.users, id) ensures HasId(users, id) {
            var i :| 0 <= i < |s.users.rows| && s.users.rows[i].id == id;
            assert users.rows[i].id == id;
          }
        }
      }
      Success((s', row))
  }

  // ---------------------------------------------------------------------
  // Workouts and exercises
  // ---------------------------------------------------------------------

  /** The `WHERE workout_id = $1` condition. */
  function OfWorkout(workoutId: Id): Row<Exercise> -> bool {
    (e: Row<Exercise>) => e.val.workoutId == workoutId
  }

  /** `SELECT * FROM exercises WHERE workout_id = $1`. */
  function ExercisesOf(s: Store, workoutId: Id): (r: seq<Row<Exercise>>)
    ensures forall i :: 0 <= i < |r| ==> r[i] in s.exercises.rows && r[i].val.workoutId == workoutId
    ensures forall i :: 0 <= i < |s.exercises.rows| && s.exercises.rows[i].val.workoutId == workoutId ==>
              s.exercises.rows[i] in r
  {
    Filter(s.exercises.rows, OfWorkout(workoutId))
  }

  /** Whether every exercise of a batch fits the `integer` columns. */
  predicate ExercisesFit(exs: seq<NewExercise>) {
    forall i :: 0 <= i < |exs| ==> exs[i].Fits()
  }

  /** A workout id no stored workout has owns no exercise. */
  lemma NoExercisesOfUnknownWorkout(s: Store, workoutId: Id)
    requires Valid(s) && !HasId(s.workouts, workoutId)
    ensures ExercisesOf(s, workoutId) == []
  {
    FilterNone(s.exercises.rows, OfWorkout(workoutId));
  }

  /**
   * `createWorkout` as written: the workout row is inserted and committed,
   * then the exercises go in as one batch, each stamped with the new
   * workout's id. The query builder refuses a batch of no rows, and the
   * database refuses a batch with a `sets` or `reps` value outside the
   * 32-bit range; either way the call fails after the workout is already
   * stored.
   */
  function CreateWorkout(s: Store, w: NewWorkout, exs: seq<NewExercise>, now: Timestamp)
    : (r: (Store, Result<WithExercises, StoreError>))
    ensures !HasId(s.users, w.userId) ==> r == (s, Failure(ForeignKeyViolation))
    ensures HasId(s.users, w.userId) ==>
      && |r.0.workouts.rows| == |s.workouts.rows| + 1
      && r.0.workouts.rows[..|s.workouts.rows|] == s.workouts.rows
      && r.0.workouts.rows[|s.workouts.rows|].val == Workout(w.userId, w.name, w.date, now)
    ensures HasId(s.users, w.userId) && |exs| == 0 ==> r.1 == Failure(EmptyValues) && r.0.exercises == s.exercises
    ensures HasId(s.users, w.userId) && |exs| > 0 && !ExercisesFit(exs) ==>
              r.1 == Failure(OutOfRange) && r.0.exercises == s.exercises
    ensures r.1.Success? <==> HasId(s.users, w.userId) && |exs| > 0 && ExercisesFit(exs)
    ensures r.1.Success? ==>
      var d := r.1.value;
      && d.workout == r.0.workouts.rows[|s.workouts.rows|]
      && |d.exercises| == |exs|
      && (forall i :: 0 <= i < |exs| ==> d.exercises[i].val == Exercise(d.workout.id, exs[i].name, exs[i].sets, exs[i].reps, exs[i].weight))
      && r.0.exercises.rows == s.exercises.rows + d.exercises
    ensures r.0.users == s.users && r.0.goals == s.goals && r.0.activities == s.activities
  {
    if !HasId(s.users, w.userId) then (s, Failure(ForeignKeyViolation))
    else
      var (workouts, workout) := Insert(s.workouts, w.Stamp(now));
      var s1 := s.(workouts := workouts);
      if |exs| == 0 then (s1, Failure(EmptyValues))
      else if !ExercisesFit(exs) then (s1, Failure(OutOfRange))
      else
        var stamped := seq(|exs|, i requires 0 <= i < |exs| => exs[i].Stamp(workout.id));
        var (exercises, created) := InsertAll(s.exercises, stamped);
        (s1.(exercises := exercises), Success(WithExercises(workout, created)))
  }

  /**
   * Creating a workout keeps every declared constraint, whether or not the
   * exercise insert goes through, and the new workout's id is fresh.
   */
  lemma CreateWorkoutKeepsValid(s: Store, w: NewWorkout, exs: seq<NewExercise>, now: Timestamp)
    requires Valid(s)
    ensures Valid(CreateWorkout(s, w, exs, now).0)
    ensures HasId(s.users, w.userId) ==>
              !HasId(s.workouts, CreateWorkout(s, w, exs, now).0.workouts.rows[|s.workouts.rows|].id)
  {
    if HasId(s.users, w.userId) {
      var s' := CreateWorkout(s, w, exs, now).0;
      var (workouts, workout) := Insert(s.workouts, w.Stamp(now));
      assert workouts == s'.workouts;
      if |exs| > 0 && ExercisesFit(exs) {
        var d := CreateWorkout(s, w, exs, now).1.value;
        var stamped := seq(|exs|, i requires 0 <= i < |exs| => exs[i].Stamp(d.workout.id));
        InsertAllKeepsSerial(s.exercises, stamped);
      }
      forall i | 0 <= i < |s'.exercises.rows|
        ensures HasId(s'.workouts, s'.exercises.rows[i].val.workoutId)
      {
        if i < |s.exercises.rows| {
          var k :| 0 <= k < |s.workouts.rows| && s.workouts.rows[k].id == s.exercises.rows[i].val.workoutId;
          assert s'.workouts.rows[k] == s.workouts.rows[k];
        } else {
          assert s'.exercises.rows[i] == CreateWorkout(s, w, exs, now).1.value.exercises[i - |s.exercises.rows|];
        }
      }
    }
  }

  /**
   * `createWorkout` as evidently intended for an empty exercise list: the
   * batch insert is skipped, and the workout is stored alone and returned.
   * Everything else is as written.
   */
  function CreateWorkoutIntended(s: Store, w: NewWorkout, exs: seq<NewExercise>, now: Timestamp)
    : (r: (Store, Result<WithExercises, StoreError>))
    ensures r.1.Failure? <==> !HasId(s.users, w.userId) || !ExercisesFit(exs)
    ensures !HasId(s.users, w.userId) ==> r == (s, Failure(ForeignKeyViolation))
    ensures HasId(s.users, w.userId) && !ExercisesFit(exs) ==>
      && r.1 == Failure(OutOfRange)
      && r.0 == s.(workouts := r.0.workouts)
      && |r.0.workouts.rows| == |s.workouts.rows| + 1
      && r.0.workouts.rows[..|s.workouts.rows|] == s.workouts.rows
    ensures r.1.Success? ==>
      var (s', d) := (r.0, r.1.value);
      && d.workout.val == Workout(w.userId, w.name, w.date, now)
      && |d.exercises| == |exs|
      && (forall i :: 0 <= i < |exs| ==> d.exercises[i].val == Exercise(d.workout.id, exs[i].name, exs[i].sets, exs[i].reps, exs[i].weight))
      && s'.workouts.rows == s.workouts.rows + [d.workout]
      && s'.exercises.rows == s.exercises.rows + d.exercises
      && s'.users == s.users && s'.goals == s.goals && s'.activities == s.activities
  {
    if !HasId(s.users, w.userId) then (s, Failure(ForeignKeyViolation))
    else
      var (workouts, workout) := Insert(s.workouts, w.Stamp(now));
      var s1 := s.(workouts := workouts);
      if |exs| == 0 then (s1, Success(WithExercises(workout, [])))
      else if !ExercisesFit(exs) then (s1, Failure(OutOfRange))
      else
        var stamped := seq(|exs|, i requires 0 <= i < |exs| => exs[i].Stamp(workout.id));
        var (exercises, created) := InsertAll(s.exercises, stamped);
        (s1.(exercises := exercises), Success(WithExercises(workout, created)))
  }

  /**
   * The code as written stores exactly the rows the intended version
   * stores, and answers the same for a non-empty exercise list; for an
   * empty one it reports a failure although the workout is stored. The
   * intended version keeps every declared constraint.
   */
  lemma CreateWorkoutDiffersOnlyWhenEmpty(s: Store, w: NewWorkout, exs: seq<NewExercise>, now: Timestamp)
    requires HasId(s.users, w.userId)
    ensures CreateWorkout(s, w, exs, now).0 == CreateWorkoutIntended(s, w, exs, now).0
    ensures |exs| > 0 ==> CreateWorkout(s, w, exs, now).1 == CreateWorkoutIntended(s, w, exs, now).1
    ensures |exs| == 0 ==> CreateWorkout(s, w, exs, now).1.Failure?
                           && CreateWorkoutIntended(s, w, exs, now).1.Success?
                           && CreateWorkoutIntended(s, w, exs, now).1.value.exercises == []
    ensures Valid(s) ==> Valid(CreateWorkoutIntended(s, w, exs, now).0)
  {
    if Valid(s) {
      CreateWorkoutKeepsValid(s, w, exs, now);
    }
  }

  /** The workout rows of a listing, in listing order. */
  function WorkoutRows(ds: seq<WithExercises>): (r: seq<Row<Workout>>)
    ensures |r| == |ds| && forall i :: 0 <= i < |ds| ==> r[i] == ds[i].workout
  {
    seq(|ds|, i requires 0 <= i < |ds| => ds[i].workout)
  }

  /** The key of `ORDER BY date DESC` on workouts. */
  function WorkoutDate(w: Row<Workout>): int {
    w.val.date
  }

  /** The given workout rows, in the same order, each with its exercises. */
  function Attach(s: Store, ws: seq<Row<Workout>>): (r: seq<WithExercises>)
    ensures WorkoutRows(r) == ws
    ensures forall i :: 0 <= i < |r| ==> r[i].exercises == ExercisesOf(s, r[i].workout.id)
  {
    var r := seq(|ws|, i requires 0 <= i < |ws| => WithExercises(ws[i], ExercisesOf(s, ws[i].id)));
    assert WorkoutRows(r) == ws;
    r
  }

  /** The user's workouts in insertion order. */
  function OwnedWorkouts(s: Store, userId: Id): (r: seq<Row<Workout>>)
    ensures forall i :: 0 <= i < |r| ==> r[i] in s.workouts.rows && r[i].val.userId == userId
    ensures forall i :: 0 <= i < |s.workouts.rows| && s.workouts.rows[i].val.userId == userId ==>
              s.workouts.rows[i] in r
  {
    Filter(s.workouts.rows, (w: Row<Workout>) => w.val.userId == userId)
  }

  /**
   * The user's workouts, latest date first, each with its exercises.
   * Rows with equal dates keep insertion order (the database leaves that
   * order unspecified).
   */
  function GetWorkoutsByUserId(s: Store, userId: Id): (r: seq<WithExercises>)
    ensures multiset(WorkoutRows(r)) == multiset(OwnedWorkouts(s, userId))
    ensures forall i :: 0 <= i < |r| ==> r[i].workout in s.workouts.rows && r[i].workout.val.userId == userId
    ensures forall i :: 0 <= i < |s.workouts.rows| && s.workouts.rows[i].val.userId == userId ==>
              s.workouts.rows[i] in WorkoutRows(r)
    ensures SortedDesc(WorkoutRows(r), WorkoutDate)
    ensures forall i :: 0 <= i < |r| ==> r[i].exercises == ExercisesOf(s, r[i].workout.id)
  {
    var owned := OwnedWorkouts(s, userId);
    var sorted := SortDesc(owned, WorkoutDate);
    SameMembers(sorted, owned);
    Attach(s, sorted)
  }

  /** `SELECT` by id, then the exercises whose `workoutId` is that id. */
  function GetWorkoutById(s: Store, id: Id): (r: Option<WithExercises>)
    ensures r.None? <==> !HasId(s.workouts, id)
    ensures r.Some? ==> r.value.workout in s.workouts.rows && r.value.workout.id == id
                        && r.value.exercises == ExercisesOf(s, id)
  {
    match Find(s.workouts.rows, (w: Row<Workout>) => w.id == id)
    case None => None
    case Some(w) => Some(WithExercises(w, ExercisesOf(s, id)))
  }

  // ---------------------------------------------------------------------
  // Goals
  // ---------------------------------------------------------------------

  /** `SELECT * FROM goals WHERE user_id = $1`, in insertion order. */
  function GetGoalsByUserId(s: Store, userId: Id): (r: seq<Row<Goal>>)
    ensures forall i :: 0 <= i < |r| ==> r[i] in s.goals.rows && r[i].val.userId == userId
    ensures forall i :: 0 <= i < |s.goals.rows| && s.goals.rows[i].val.userId == userId ==> s.goals.rows[i] in r
  {
    Filter(s.goals.rows, (g: Row<Goal>) => g.val.userId == userId)
  }

  /** `INSERT INTO goals`; an omitted `inverse` is stored as `false`. */
  function CreateGoal(s: Store, g: NewGoal, now: Timestamp): (r: Result<(Store, Row<Goal>), StoreError>)
    ensures r.Failure? <==> !HasId(s.users, g.userId)
    ensures r.Success? ==>
      var (s', row) := r.value;
      && row.val.userId == g.userId && row.val.title == g.title
      && row.val.current == g.current && row.val.target == g.target
      && (row.val.inverse <==> g.inverse == Some(true))
      && s'.goals.rows == s.goals.rows + [row]
      && s' == s.(goals := s'.goals)
    ensures r.Success? && Valid(s) ==> Valid(r.value.0) && !HasId(s.goals, r.value.1.id)
  {
    if !HasId(s.users, g.userId) then Failure(ForeignKeyViolation)
    else
      var (goals, row) := Insert(s.goals, g.Stamp(now));
      Success((s.(goals := goals), row))
  }

  /** The goal `g` with only its `current` replaced. */
  function WithCurrent(g: Goal, current: real): Goal {
    g.(current := current)
  }

  /**
   * `UPDATE goals SET current = $2 WHERE id = $1 RETURNING *`, first row
   * (absent when no goal has that id). Nothing checks who owns the goal.
   */
  function UpdateGoal(s: Store, id: Id, current: real): (r: (Store, Option<Row<Goal>>))
    requires Valid(s)
    ensures r.0 == s.(goals := r.0.goals) && Valid(r.0)
    ensures |r.0.goals.rows| == |s.goals.rows|
    ensures forall i :: 0 <= i < |s.goals.rows| && s.goals.rows[i].id == id ==>
              r.0.goals.rows[i] == Row(id, s.goals.rows[i].val.(current := current))
    ensures forall i :: 0 <= i < |s.goals.rows| && s.goals.rows[i].id != id ==>
              r.0.goals.rows[i] == s.goals.rows[i]
    ensures r.1.Some? <==> HasId(s.goals, id)
    ensures r.1.Some? ==> r.1.value.id == id && r.1.value in r.0.goals.rows && r.1.value.val.current == current
  {
    var goals := UpdateById(s.goals, id, (g: Goal) => WithCurrent(g, current));
    var s' := s.(goals := goals);
    assert ForeignKeys(s') by {
      forall i | 0 <= i < |goals.rows| ensures HasId(s.users, goals.rows[i].val.userId) {
        assert goals.rows[i].val.userId == s.goals.rows[i].val.userId;
      }
    }
    var found := Find(goals.rows, (g: Row<Goal>) => g.id == id);
    assert found.Some? <==> HasId(s.goals, id) by {
      if HasId(s.goals, id) {
        var i :| 0 <= i < |s.goals.rows| && s.goals.rows[i].id == id;
        assert goals.rows[i].id == id;
      }
    }
    (s', found)
  }

  /** `DELETE FROM goals WHERE id = $1`. Nothing checks who owns the goal. */
  function DeleteGoal(s: Store, id: Id): (r: Store)
    ensures r == s.(goals := r.goals) && r.goals.next == s.goals.next
    ensures !HasId(r.goals, id)
    ensures forall i :: 0 <= i < |r.goals.rows| ==> r.goals.rows[i] in s.goals.rows
    ensures forall i :: 0 <= i < |s.goals.rows| && s.goals.rows[i].id != id ==> s.goals.rows[i] in r.goals.rows
    ensures Valid(s) ==> Valid(r)
  {
    var goals := Delete(s.goals, (g: Row<Goal>) => g.id == id);
    var s' := s.(goals := goals);
    assert Valid(s) ==> Valid(s') by {
      if Valid(s) {
        DeleteKeepsSerial(s.goals, (g: Row<Goal>) => g.id == id);
        forall i | 0 <= i < |goals.rows| ensures HasId(s.users, goals.rows[i].val.userId) {
          var k :| 0 <= k < |s.goals.rows| && s.goals.rows[k] == goals.rows[i];
        }
      }
    }
    s'
  }

  // ---------------------------------------------------------------------
  // Activities
  // ---------------------------------------------------------------------

  /** The activity row is the one for `userId` on `date`. */
  predicate ActivityKey(a: Row<Activity>, userId: Id, date: Date) {
    a.val.userId == userId && a.val.date == date
  }

  /** `SELECT * FROM activities WHERE user_id = $1 AND date = $2`, first row. */
  function GetActivityByUserAndDate(s: Store, userId: Id, date: Date): (r: Option<Row<Activity>>)
    ensures r.Some? ==> r.value in s.activities.rows && ActivityKey(r.value, userId, date)
    ensures r.None? <==> forall i :: 0 <= i < |s.activities.rows| ==> !ActivityKey(s.activities.rows[i], userId, date)
  {
    Find(s.activities.rows, (a: Row<Activity>) => ActivityKey(a, userId, date))
  }

  /** Under the one-per-day invariant the row found is the only one for its day. */
  lemma GetActivityIsUnique(s: Store, userId: Id, date: Date, i: int)
    requires OneActivityPerDay(s.activities.rows)
    requires 0 <= i < |s.activities.rows| && ActivityKey(s.activities.rows[i], userId, date)
    ensures GetActivityByUserAndDate(s, userId, date) == Some(s.activities.rows[i])
  {
    var r := GetActivityByUserAndDate(s, userId, date);
    var k :| 0 <= k < |s.activities.rows| && s.activities.rows[k] == r.value
             && forall j :: 0 <= j < k ==> !ActivityKey(s.activities.rows[j], userId, date);
    assert k == i;
  }

  /**
   * Upsert keyed on (userId, date): when a row exists for that pair it is
   * updated in place and keeps its id; otherwise exactly one row is
   * inserted. In both cases no second row for the pair ever appears. A
   * measure outside the 32-bit range makes either statement fail, and
   * nothing is written.
   */
  function UpsertActivity(s: Store, a: NewActivity): (r: Result<(Store, Row<Activity>), StoreError>)
    requires Valid(s)
    ensures r.Failure? <==> !a.Fits() || (GetActivityByUserAndDate(s, a.userId, a.date).None? && !HasId(s.users, a.userId))
    ensures !a.Fits() ==> r == Failure(OutOfRange)
    ensures r.Success? ==>
      var (s', row) := r.value;
      && s' == s.(activities := s'.activities) && Valid(s')
      && ActivityKey(row, a.userId, a.date) && row in s'.activities.rows
      && (OneActivityPerDay(s.activities.rows) ==> OneActivityPerDay(s'.activities.rows))
    ensures r.Success? && GetActivityByUserAndDate(s, a.userId, a.date).Some? ==>
      var prev := GetActivityByUserAndDate(s, a.userId, a.date).value;
      var (s', row) := r.value;
      && row == Row(prev.id, a.Overwrite(prev.val))
      && |s'.activities.rows| == |s.activities.rows|
      && (forall i :: 0 <= i < |s.activities.rows| && s.activities.rows[i].id != prev.id ==>
            s'.activities.rows[i] == s.activities.rows[i])
    ensures r.Success? && GetActivityByUserAndDate(s, a.userId, a.date).None? ==>
      var (s', row) := r.value;
      && row.val == a.Defaults()
      && s'.activities.rows == s.activities.rows + [row]
      && !HasId(s.activities, row.id)
  {
    match FindIndex(s.activities.rows, (x: Row<Activity>) => ActivityKey(x, a.userId, a.date))
    case Some(k) =>
      if !a.Fits() then Failure(OutOfRange)
      else
        var prev := s.activities.rows[k];
        assert GetActivityByUserAndDate(s, a.userId, a.date) == Some(prev);
        var activities := UpdateById(s.activities, prev.id, (v: Activity) => a.Overwrite(v));
        var s' := s.(activities := activities);
        UpsertUpdateKeepsInvariants(s, a, k);
        Success((s', activities.rows[k]))
    case None =>
      if !a.Fits() then Failure(OutOfRange)
      else if !HasId(s.users, a.userId) then Failure(ForeignKeyViolation)
      else
        var (activities, row) := Insert(s.activities, a.Defaults());
        var s' := s.(activities := activities);
        UpsertInsertKeepsInvariants(s, a);
        Success((s', row))
  }

  /** The update branch of the upsert: constraints and uniqueness survive. */
  lemma UpsertUpdateKeepsInvariants(s: Store, a: NewActivity, k: nat)
    requires Valid(s)
    requires k < |s.activities.rows| && ActivityKey(s.activities.rows[k], a.userId, a.date)
    ensures var t := UpdateById(s.activities, s.activities.rows[k].id, (v: Activity) => a.Overwrite(v));
      && Valid(s.(activities := t))
      && t.rows[k] == Row(s.activities.rows[k].id, a.Overwrite(s.activities.rows[k].val))
      && (forall i :: 0 <= i < |t.rows| ==> ActivityKey(t.rows[i], s.activities.rows[i].val.userId, s.activities.rows[i].val.date))
      && (OneActivityPerDay(s.activities.rows) ==> OneActivityPerDay(t.rows))
  {
    var id := s.activities.rows[k].id;
    var t := UpdateById(s.activities, id, (v: Activity) => a.Overwrite(v));
    forall i | 0 <= i < |t.rows|
      ensures ActivityKey(t.rows[i], s.activities.rows[i].val.userId, s.activities.rows[i].val.date)
    {
      if s.activities.rows[i].id == id {
        assert i == k;
      }
    }
  }

  /** The insert branch of the upsert: constraints and uniqueness survive. */
  lemma UpsertInsertKeepsInvariants(s: Store, a: NewActivity)
    requires Valid(s) && HasId(s.users, a.userId)
    requires forall i :: 0 <= i < |s.activities.rows| ==> !ActivityKey(s.activities.rows[i], a.userId, a.date)
    ensures var t := Insert(s.activities, a.Defaults()).0;
      && Valid(s.(activities := t))
      && (OneActivityPerDay(s.activities.rows) ==> OneActivityPerDay(t.rows))
  {
  }

  /** The key of `ORDER BY date DESC` on activities. */
  function ActivityDate(a: Row<Activity>): int {
    a.val.date
  }

  /** Every activity of the user, latest date first. */
  function ActivityListing(s: Store, userId: Id): (r: seq<Row<Activity>>)
    ensures SortedDesc(r, ActivityDate)
    ensures multiset(r) == multiset(Filter(s.activities.rows, (a: Row<Activity>) => a.val.userId == userId))
  {
    SortDesc(Filter(s.activities.rows, (a: Row<Activity>) => a.val.userId == userId), ActivityDate)
  }

  /** `... WHERE user_id = $1 ORDER BY date DESC LIMIT $2`. */
  function GetActivitiesByUserId(s: Store, userId: Id, limit: nat): (r: seq<Row<Activity>>)
    ensures |r| <= limit
    ensures |r| == if limit < |ActivityListing(s, userId)| then limit else |ActivityListing(s, userId)|
    ensures forall i :: 0 <= i < |r| ==> r[i] in s.activities.rows && r[i].val.userId == userId
    ensures SortedDesc(r, ActivityDate)
    ensures r <= ActivityListing(s, userId)
  {
    var all := ActivityListing(s, userId);
    var owned := Filter(s.activities.rows, (a: Row<Activity>) => a.val.userId == userId);
    SameMembers(all, owned);
    if limit < |all| then all[..limit] else all
  }
}

=== FILE: workout_log.dfy ===
/**
 * The workout log form: a name, a date and a list of exercise rows that
 * the user grows and shrinks, validated in the browser before it is posted
 * to `POST /api/workouts`.
 */
module WorkoutLog {
  import opened Wrappers
  import opened Schema
  import opened Storage
  import opened Routes

  /**
   * One exercise row after `z.coerce.number()`: a number field holds None
   * when its text does not read as a number.
   */
  datatype ExerciseForm = ExerciseForm(name: string, sets: Option<int>, reps: Option<int>, weight: Option<real>)

  datatype WorkoutForm = WorkoutForm(name: string, date: Date, exercises: seq<ExerciseForm>)

  /** A validated exercise row. */
  datatype ExerciseInput = ExerciseInput(name: string, sets: int, reps: int, weight: real)

  datatype WorkoutInput = WorkoutInput(name: string, date: Date, exercises: seq<ExerciseInput>)

  /** The row `append` adds and the form starts with: no name, 3 sets of 10 at weight 0. */
  const DefaultExercise := ExerciseForm("", Some(3), Some(10), Some(0.0))

  /** The initial form for the day `today`. */
  function DefaultForm(today: Date): WorkoutForm {
    WorkoutForm("", today, [DefaultExercise])
  }

  /** One row of the exercise schema: a name, at least 1 set and 1 rep, a weight of at least 0. */
  predicate ExerciseValid(e: ExerciseForm) {
    |e.name| >= 1 && e.sets.Some? && e.sets.value >= 1 && e.reps.Some? && e.reps.value >= 1
    && e.weight.Some? && e.weight.value >= 0.0
  }

  function ExerciseInputOf(e: ExerciseForm): ExerciseInput
    requires ExerciseValid(e)
  {
    ExerciseInput(e.name, e.sets.value, e.reps.value, e.weight.value)
  }

  /** `workoutSchema`: a name, at least one exercise, and every exercise row valid. */
  function ValidateWorkout(f: WorkoutForm): (r: Option<WorkoutInput>)
    ensures r.Some? <==> && |f.name| >= 1 && |f.exercises| >= 1
                         && forall i :: 0 <= i < |f.exercises| ==>
                              var e := f.exercises[i];
                              && |e.name| >= 1 && e.sets.Some? && e.sets.value >= 1
                              && e.reps.Some? && e.reps.value >= 1 && e.weight.Some? && e.weight.value >= 0.0
    ensures r.Some? ==> r.value.name == f.name && r.value.date == f.date && |r.value.exercises| == |f.exercises|
    ensures r.Some? ==> forall i :: 0 <= i < |f.exercises| ==>
              var e := f.exercises[i];
              r.value.exercises[i] == ExerciseInput(e.name, e.sets.value, e.reps.value, e.weight.value)
  {
    if |f.name| >= 1 && |f.exercises| >= 1 && forall i :: 0 <= i < |f.exercises| ==> ExerciseValid(f.exercises[i]) then
      Some(WorkoutInput(f.name, f.date,
                        seq(|f.exercises|, i requires 0 <= i < |f.exercises| => ExerciseInputOf(f.exercises[i]))))
    else None
  }

  /** The initial form is rejected only for its missing names. */
  lemma DefaultFormNeedsNames(today: Date, name: string, exercise: string)
    ensures ValidateWorkout(DefaultForm(today)).None?
    ensures |name| >= 1 && |exercise| >= 1 ==>
              ValidateWorkout(WorkoutForm(name, today, [DefaultExercise.(name := exercise)])).Some?
  {
    if |name| >= 1 && |exercise| >= 1 {
      var f := WorkoutForm(name, today, [DefaultExercise.(name := exercise)]);
      assert ExerciseValid(f.exercises[0]);
    }
  }

  // ---------------------------------------------------------------------
  // Adding and removing rows
  // ---------------------------------------------------------------------

  /** The "Add Exercise" button: a default row at the end. */
  function AddExercise(f: WorkoutForm): (r: WorkoutForm)
    ensures |r.exercises| == |f.exercises| + 1 && r.exercises[|f.exercises|] == DefaultExercise
    ensures r.exercises[..|f.exercises|] == f.exercises && r.name == f.name && r.date == f.date
  {
    f.(exercises := f.exercises + [DefaultExercise])
  }

  /**
   * The trash button of row `index`. It is rendered only while there is
   * more than one row, so with a single row a click cannot happen and the
   * form stays as it is.
   */
  function RemoveExercise(f: WorkoutForm, index: nat): (r: WorkoutForm)
    requires index < |f.exercises|
    ensures |r.exercises| >= 1
    ensures |f.exercises| > 1 ==> |r.exercises| == |f.exercises| - 1
                                  && (forall i :: 0 <= i < index ==> r.exercises[i] == f.exercises[i])
                                  && (forall i :: index < i < |f.exercises| ==> r.exercises[i - 1] == f.exercises[i])
    ensures |f.exercises| == 1 ==> r == f
    ensures r.name == f.name && r.date == f.date
  {
    if |f.exercises| > 1 then f.(exercises := f.exercises[..index] + f.exercises[index + 1..]) else f
  }

  /** Removing the row just added gives back the form as it was. */
  lemma AddThenRemoveIsIdentity(f: WorkoutForm)
    requires |f.exercises| >= 1
    ensures RemoveExercise(AddExercise(f), |f.exercises|) == f
  {
    assert AddExercise(f).exercises[..|f.exercises|] == f.exercises;
  }

  datatype Edit = Add | Remove(index: nat)

  /** A series of clicks on the add and trash buttons; a click on a row that is not shown does nothing. */
  function ApplyEdits(f: WorkoutForm, edits: seq<Edit>): (r: WorkoutForm)
    requires |f.exercises| >= 1
    ensures |r.exercises| >= 1
    ensures r.name == f.name && r.date == f.date
    decreases |edits|
  {
    if |edits| == 0 then f
    else
      var g := match edits[0]
               case Add => AddExercise(f)
               case Remove(i) => if i < |f.exercises| then RemoveExercise(f, i) else f;
      ApplyEdits(g, edits[1..])
  }

  /**
   * Clicks only ever add default rows or drop rows: every row afterwards is
   * a default row or a row the form already had.
   */
  lemma {:induction false} EditsOnlyAddDefaults(f: WorkoutForm, edits: seq<Edit>)
    requires |f.exercises| >= 1
    ensures forall e :: e in ApplyEdits(f, edits).exercises ==> e == DefaultExercise || e in f.exercises
    decreases |edits|
  {
    if |edits| > 0 {
      var g := match edits[0]
               case Add => AddExercise(f)
               case Remove(i) => if i < |f.exercises| then RemoveExercise(f, i) else f;
      assert forall i :: 0 <= i < |g.exercises| ==> g.exercises[i] == DefaultExercise || g.exercises[i] in f.exercises by {
        match edits[0]
        case Add =>
        case Remove(k) =>
          if k < |f.exercises| && |f.exercises| > 1 {
            forall i | 0 <= i < |g.exercises|
              ensures g.exercises[i] in f.exercises
            {
              if i < k {
                assert g.exercises[i] == f.exercises[i];
              } else {
                assert g.exercises[i] == f.exercises[i + 1];
              }
            }
          }
      }
      EditsOnlyAddDefaults(g, edits[1..]);
      var r := ApplyEdits(f, edits);
      assert r == ApplyEdits(g, edits[1..]);
      forall e | e in r.exercises && e != DefaultExercise
        ensures e in f.exercises
      {
        assert e in g.exercises;
      }
    }
  }

  /**
   * However the rows are added and removed, a form still holding only the
   * initial rows is refused: some name has to be typed in first.
   */
  lemma EditsFromDefaultNeedNames(today: Date, edits: seq<Edit>)
    ensures ValidateWorkout(ApplyEdits(DefaultForm(today), edits)).None?
  {
    var r := ApplyEdits(DefaultForm(today), edits);
    EditsOnlyAddDefaults(DefaultForm(today), edits);
    var d := DefaultForm(today);
    assert |r.exercises| >= 1;
    assert r.exercises[0] in r.exercises;
    assert d.exercises == [DefaultExercise];
    assert !ExerciseValid(r.exercises[0]);
  }

  // ---------------------------------------------------------------------
  // Submission
  // ---------------------------------------------------------------------

  function ExerciseBodyOf(e: ExerciseInput): ExerciseBody {
    ExerciseBody(Given(e.name), Given(e.sets), Given(e.reps), Given(e.weight))
  }

  /** `createWorkoutMutation`'s body: name, formatted date and the rows; no `userId`. */
  function Payload(v: WorkoutInput): WorkoutBody {
    WorkoutBody(Missing, Given(v.name), Given(CalendarDay(v.date)),
                Given(seq(|v.exercises|, i requires 0 <= i < |v.exercises| => ExerciseBodyOf(v.exercises[i]))))
  }

  /** Whether every row's sets and reps fit the `integer` columns. */
  predicate RowsFitColumns(v: WorkoutInput) {
    forall i :: 0 <= i < |v.exercises| ==> FitsInteger(v.exercises[i].sets) && FitsInteger(v.exercises[i].reps)
  }

  /**
   * A form the page accepts is stored by the server for the session user
   * with the form's name and date and one exercise per row, carrying the
   * row's values, in row order. The form sets no upper bound, though: a
   * row whose sets or reps are too large for their `integer` columns is
   * refused by the server with 400, and nothing is stored.
   */
  lemma AcceptedFormIsStored(st: State, u: Row<User>, f: WorkoutForm, now: Timestamp)
    requires Valid(st.store) && u in st.store.users.rows
    requires ValidateWorkout(f).Some?
    ensures !RowsFitColumns(ValidateWorkout(f).value) ==>
              CreateWorkoutRoute(st, u, Payload(ValidateWorkout(f).value), now) == (Error(400, ValidationFailed), st)
    ensures RowsFitColumns(ValidateWorkout(f).value) ==>
            var (r, st') := CreateWorkoutRoute(st, u, Payload(ValidateWorkout(f).value), now);
            && r.status == 200 && r.body.WorkoutJson?
            && r.body.workout.workout.val == Workout(u.id, f.name, f.date, now)
            && |r.body.workout.exercises| == |f.exercises|
            && (forall i :: 0 <= i < |f.exercises| ==>
                  var e := f.exercises[i];
                  r.body.workout.exercises[i].val
                    == Exercise(r.body.workout.workout.id, e.name, e.sets.value, e.reps.value, e.weight.value))
            && r.body.workout.workout in st'.store.workouts.rows
  {
    var v := ValidateWorkout(f).value;
    var b := Payload(v);
    if !RowsFitColumns(v) {
      var i :| 0 <= i < |v.exercises| && !(FitsInteger(v.exercises[i].sets) && FitsInteger(v.exercises[i].reps));
      assert ParseExercise(b.exercises.value[i]).None?;
      return;
    }
    assert forall i :: 0 <= i < |v.exercises| ==> ParseExercise(b.exercises.value[i]).Some?;
    var (w, exs) := ParseWorkout(b, u.id).value.value;
    assert forall i :: 0 <= i < |exs| ==> exs[i] == NewExercise(v.exercises[i].name, v.exercises[i].sets,
                                                                 v.exercises[i].reps, v.exercises[i].weight) by {
      forall i | 0 <= i < |exs|
        ensures exs[i] == NewExercise(v.exercises[i].name, v.exercises[i].sets, v.exercises[i].reps, v.exercises[i].weight)
      {
        assert Some(exs[i]) == ParseExercise(b.exercises.value[i]);
      }
    }
    assert HasId(st.store.users, u.id) by {
      var k :| 0 <= k < |st.store.users.rows| && st.store.users.rows[k] == u;
    }
    var (s', d) := Storage.CreateWorkout(st.store, w, exs, now);
    assert s'.workouts.rows[|st.store.workouts.rows|] in s'.workouts.rows;
  }

  /**
   * The server is looser than the form: it stores a workout whose exercise
   * has 0 sets, which the form refuses.
   */
  lemma ServerAcceptsWhatFormRejects(st: State, u: Row<User>, today: Date, now: Timestamp)
    requires Valid(st.store) && u in st.store.users.rows
    ensures ValidateWorkout(WorkoutForm("Legs", today, [ExerciseForm("Squat", Some(0), Some(10), Some(0.0))])).None?
    ensures CreateWorkoutRoute(st, u, WorkoutBody(Missing, Given("Legs"), Given(CalendarDay(today)),
              Given([ExerciseBody(Given("Squat"), Given(0), Given(10), Given(0.0))])), now).0.status == 200
  {
    var bad := ExerciseForm("Squat", Some(0), Some(10), Some(0.0));
    var f := WorkoutForm("Legs", today, [bad]);
    assert f.exercises[0] == bad && !ExerciseValid(bad);
    var es := [ExerciseBody(Given("Squat"), Given(0), Given(10), Given(0.0))];
    assert ParseExercise(es[0]).Some?;
  }

  /**
   * A workout posted with no exercises, which the form never sends, gets
   * 500 from the server, yet the workout row stays stored with no
   * exercise pointing at it.
   */
  lemma EmptyWorkoutLeftBehind(st: State, u: Row<User>, today: Date, now: Timestamp)
    requires Valid(st.store) && u in st.store.users.rows
    ensures ValidateWorkout(WorkoutForm("Legs", today, [])).None?
    ensures var (r, st') := CreateWorkoutRoute(st, u, WorkoutBody(Missing, Given("Legs"), Given(CalendarDay(today)), Given([])), now);
            var n := |st.store.workouts.rows|;
            && r == Error(500, InternalError)
            && |st'.store.workouts.rows| == n + 1
            && st'.store.workouts.rows[n].val == Workout(u.id, "Legs", today, now)
            && ExercisesOf(st'.store, st'.store.workouts.rows[n].id) == []
  {
    var b := WorkoutBody(Missing, Given("Legs"), Given(CalendarDay(today)), Given([]));
    var (r, st') := CreateWorkoutRoute(st, u, b, now);
    NoExercisesOfUnknownWorkout(st.store, st'.store.workouts.rows[|st.store.workouts.rows|].id);
  }
}

=== FILE: wrappers.dfy ===
/** Failure-compatible wrappers shared by the whole model. */
module Wrappers {

  /** A value that may be absent: a JavaScript `undefined`, a missing row. */
  datatype Option<+T> = None | Some(value: T) {

    /** The wrapped value, or `default` when there is none. */
    function GetOr(default: T): T {
      match this
      case Some(v) => v
      case None => default
    }
  }

  /** The outcome of an operation that can fail with an error of type `E`. */
  datatype Result<+R, +E> = Success(value: R) | Failure(error: E)
}
